=== FILE: README.md ===
# Skin editor front end — view-state model in Dafny

This project models the browser side of a Minecraft-style skin editor and gallery
(a React application). The model covers the pure state transitions behind its screens:

- the session held by the authentication context: login, register, logout, profile
  reload, and the permission predicates `hasPermission`, `hasAnyPermission` and
  `canAccessAdmin`;
- the route guards and the route table;
- the main navigation bar, the admin tab bar and the admin page;
- the gallery: reaction sorting, paging, favourites, reactions, comment counts and
  the tag filter;
- the favourites context;
- the five admin tables (users, tags, categories, skins, comments): search,
  sorting, paging, status toggles behind a confirmation dialog, and role editing;
- the modals: publish, comments, a user's comments, and the user-role dialog;
- the register form's validation;
- the 3D editor's painting logic: the body-part visibility walk, the square brush
  stamp on the texture canvas, the mouse-control state machine of the viewer, the
  painting tool panel, and the body-part / outer-layer toggles.

Every network reply, and every exception a request can throw, is an input value of
the operation that consumes it. Every state transition is a pure function from the
old state to the new one.

Shared modules model the JavaScript built-ins the components lean on:

- `JsString`: ECMAScript `trim`, ASCII `toLowerCase`, `includes`, and string `<`.
- `JsArray`: `filter`, `map`, `slice` and `Math.ceil` division.
- `Sorting`: a stable sort, matching `Array.prototype.sort` since ES2019.
- `Paging`: the page slice and pager arithmetic.

## Model

| member | source | states |
|---|---|---|
| JsString.TrimStart | frontend/src/components/modals/CommentModal.js:48 | the result is a suffix of the input; only whitespace was dropped; it does not start with whitespace |
| JsString.TrimEnd | frontend/src/components/modals/CommentModal.js:48 | the result is a prefix of the input; only whitespace was dropped; it does not end with whitespace |
| JsString.TrimEmptyIffBlank | frontend/src/components/admin/TagManagement.js:36 | `!s.trim()` holds exactly when the string is all whitespace |
| JsString.TrimIdempotent | frontend/src/components/modals/PublishSkinModal.js:85 | trimming twice equals trimming once |
| JsString.Lower | frontend/src/components/admin/SkinManagement.js:150-151 | lower-casing keeps the length, leaves no ASCII capital, and keeps every other character |
| JsString.IncludesIffOccurs | frontend/src/components/admin/CommentManagement.js:109-111 | `includes` holds exactly when the needle occurs at some index of the haystack |
| JsString.StrLessIrreflexive | frontend/src/components/admin/CommentManagement.js:114-119 | no string is `<` itself |
| JsString.StrLessTransitive | frontend/src/components/admin/CommentManagement.js:114-119 | string `<` is transitive |
| JsString.StrLessTotal | frontend/src/components/admin/CommentManagement.js:114-119 | any two different strings are ordered one way or the other |
| JsArray.Filter | frontend/src/components/admin/CommentManagement.js:105-113 | `filter` is no longer than its input, holds only kept elements of the input, and every kept element |
| JsArray.FilterKeptInOrder | frontend/src/components/admin/CommentManagement.js:105-113 | `filter` keeps exactly the kept elements, in input order and each as often as in the input |
| JsArray.FilterPartition | frontend/src/components/admin/CommentManagement.js:159-165 | filtering by a test and by its negation splits the list: the two lengths add up to the whole |
| JsArray.FilterEmptyIffNoneKept | frontend/src/hooks/useModelControls.js:50-55 | the filter is non-empty exactly when some element passes |
| JsArray.FilterStartsWithFirstKept | frontend/src/components/tools/PaintingTools.js:41-48 | the filter's first element is the input's first kept element |
| JsArray.Slice | frontend/src/components/admin/CommentManagement.js:123-126 | for non-negative bounds, `slice` is the sub-sequence between the bounds clamped to the length |
| JsArray.CeilDiv | frontend/src/components/admin/CommentManagement.js:122 | `Math.ceil(n / k)` is the least count of k-sized pages that hold n items; zero only for n = 0 |
| JsArray.ToggleMember | frontend/src/components/admin/RoleManagement.js:89-96 | after the toggle, x is present iff it was absent, and every other element keeps its membership |
| JsArray.ToggleTwiceRestores | frontend/src/pages/SkinsListPage.js:288-294 | adding an absent element and then removing it gives back the original list |
| JsArray.ToggleKeepsDistinct | frontend/src/components/admin/RoleManagement.js:89-96 | toggling never creates a duplicate |
| JsArray.MapSeq | frontend/src/pages/AdminPage.js:17 | `map` keeps the length and applies the function at every index |
| JsArray.MapWhere | frontend/src/components/admin/CommentManagement.js:83-85 | the by-id `map` changes exactly the matching elements and keeps the rest |
| Sorting.Sort | frontend/src/pages/SkinsListPage.js:51-61 | the sort is a permutation of its input |
| Sorting.SortSorted | frontend/src/pages/SkinsListPage.js:51-61 | under a total preorder, the sort's output is sorted |
| Sorting.SortStable | frontend/src/pages/SkinsListPage.js:51-61 | elements the order ties keep their input order |
| Paging.PageSlice | frontend/src/pages/SkinsListPage.js:217-227 | a page holds at most perPage items, is the right window of the list, and is non-empty iff the page number is at most the page count |
| Paging.JoinPagesIsPrefix | frontend/src/pages/SkinsListPage.js:217-227 | the first count pages, joined, are the list's prefix of count·perPage items |
| Paging.PagesCoverList | frontend/src/pages/SkinsListPage.js:217-227 | the pages 1..totalPages, joined, are exactly the list: nothing is lost or repeated |
| Paging.Navigate | frontend/src/pages/SkinsListPage.js:425-453 | the gallery pager's Prev, number and Next buttons keep an in-range page in range; no pager is shown for a single page |
| Paging.NavigateAllStaysInRange | frontend/src/pages/SkinsListPage.js:425-453 | any sequence of pager clicks from a valid page stays within 1..totalPages |
| Confirm.Capitalize | frontend/src/components/admin/SkinManagement.js:108 | the first-letter capitalisation keeps the length and the tail |
| Confirm.ConfirmTitle | frontend/src/components/admin/SkinManagement.js:104-108 | the dialog title is "Desactivar" for an active record and "Activar" otherwise, followed by the noun |
| Confirm.TitleNamesTheFlip | frontend/src/components/admin/CommentManagement.js:59-68 | the title starts with "Desactivar" exactly when the record is active |
| Auth.PermissionNames | frontend/src/contexts/AuthContext.js:148-153 | the names are the role's permission names, in order, or none when the user has no role or no permission list |
| Auth.HasPermissionIffNamed | frontend/src/contexts/AuthContext.js:148-153 | `hasPermission` holds iff the name is among the user's permission names; never without a permission list |
| Auth.HasAnyPermissionMeaning | frontend/src/contexts/AuthContext.js:155-160 | `hasAnyPermission` holds iff some listed name is held; never for the empty list |
| Auth.CanAccessAdminMeaning | frontend/src/contexts/AuthContext.js:162-172 | an admin role always gets in; otherwise one of the six admin permissions is needed; no user or no role never gets in |
| Auth.Normalise | frontend/src/contexts/AuthContext.js:35-38 | the profile keeps the user's fields, and has a role exactly when the server sent one |
| Auth.MissingAndNullRoleAgree | frontend/src/contexts/AuthContext.js:35-38 | a missing role and a null role normalise alike and grant nothing |
| Auth.Logout | frontend/src/contexts/AuthContext.js:127-147 | logout clears the token and the user, whatever the request did |
| Auth.LogoutIgnoresRequest | frontend/src/contexts/AuthContext.js:127-147 | a failed logout request ends in the same state as a successful one, with no admin access |
| Auth.Authenticate | frontend/src/contexts/AuthContext.js:53-88 | on success the token and normalised user are stored; on failure the session is untouched, with the server's message or a default |
| Auth.Login | frontend/src/contexts/AuthContext.js:53-88 | login succeeds iff the server accepted; a failure always carries a non-empty message and leaves the session as it was |
| Auth.Register | frontend/src/contexts/AuthContext.js:90-125 | register succeeds iff the server accepted; a failure always carries a non-empty message and leaves the session as it was |
| Auth.LoginThenAccess | frontend/src/contexts/AuthContext.js:53-88 | after a successful login a user is present, and admin access needs a role from the server |
| Auth.OnTokenChange | frontend/src/contexts/AuthContext.js:10-51 | the profile check always ends loading; with no token nothing else changes; a good profile replaces the user; any other reply logs out |
| Favorites.ToggleFavorite | frontend/src/contexts/FavoritesContext.js:28-55 | on success the id's membership follows the server and the returned flag; no other id changes; a failure changes nothing and returns false |
| Favorites.ToggleReplayIsHarmless | frontend/src/contexts/FavoritesContext.js:40-48 | replaying the same server reply leaves the favourite set as after the first |
| Favorites.LoadFavorites | frontend/src/contexts/FavoritesContext.js:9-26 | a good reply makes the set exactly the listed skin ids; a failed one keeps the old set |
| Gallery.ReactionOrdersArePreorders | frontend/src/pages/SkinsListPage.js:51-61 | "more likes first" and "more dislikes first" are total preorders |
| Gallery.SortSkins | frontend/src/pages/SkinsListPage.js:51-61 | the sorted gallery is a permutation of its input, non-increasing in likes or dislikes, and unchanged for any other sort key |
| Gallery.SortSkinsStable | frontend/src/pages/SkinsListPage.js:51-61 | skins with equal counts keep their order |
| Gallery.CurrentSkins | frontend/src/pages/SkinsListPage.js:217-227 | a gallery page is the window of at most eight skins starting at (page - 1) * 8, and is non-empty iff the page number is at most the page count |
| Gallery.HandleCommentUpdate | frontend/src/pages/SkinsListPage.js:229-241 | only the skin's comment count changes: one up for "add", one down but not below zero otherwise |
| Gallery.AddThenDeleteRestoresCounts | frontend/src/pages/SkinsListPage.js:229-241 | adding and then deleting a comment restores every count |
| Gallery.HandleFavorite | frontend/src/pages/SkinsListPage.js:129-157 | logged out nothing changes; in favourites mode an unfavourited skin leaves the list and the others stay in order, each as often as before; otherwise only its flag changes |
| Gallery.FailedToggleDropsFavorite | frontend/src/pages/SkinsListPage.js:136-146 | as written, a failed toggle of a favourite in favourites mode removes it from the list although it is still a favourite |
| Gallery.FavoriteClick | frontend/src/contexts/FavoritesContext.js:28-55 | corrected: a failed request changes nothing; a successful one makes the set and the list follow the server |
| Gallery.HandleReaction | frontend/src/pages/SkinsListPage.js:159-191 | logged in with a reply, every field the server sends overrides that field of the skin with the id (the object spread); other skins do not change; logged out or on failure nothing changes |
| Gallery.ReactionReplayIsHarmless | frontend/src/pages/SkinsListPage.js:181-185 | applying the same server reply twice leaves the gallery as after the first |
| Gallery.ReactionOnlyReplyKeepsRest | frontend/src/pages/SkinsListPage.js:181-185 | a reply carrying only likes, dislikes and the user's reaction sets those on the skin and keeps its id, name, comment count and favourite flag |
| Gallery.ToggleTagFilter | frontend/src/pages/SkinsListPage.js:288-294 | the tag is present iff it was absent, other tags are untouched, and a new tag is appended |
| Gallery.ToggleTagFilterTwice | frontend/src/pages/SkinsListPage.js:288-294 | clicking a tag twice restores the selection |
| AdminSort.HandleSort | frontend/src/components/admin/CommentManagement.js:94-99 | the clicked key becomes the sort key; the order is descending iff the same key was ascending |
| AdminSort.HandleSortAlternates | frontend/src/components/admin/SkinManagement.js:141-146 | clicking a header again flips the order; a new header starts ascending |
| AdminSort.CompareAsWritten | frontend/src/components/admin/CommentManagement.js:114-119 | the comparator as written only returns 1 or -1, never 0 |
| AdminSort.AsWrittenEqualKeysBothFirst | frontend/src/components/admin/CommentManagement.js:114-119 | as written, equal keys compare as -1 both ways round |
| AdminSort.AsWrittenUndefinedAlwaysFirst | frontend/src/components/admin/CommentManagement.js:114-119 | as written, an undefined key makes both orders compare as -1 |
| AdminSort.AsWrittenOrdersDistinctStrings | frontend/src/components/admin/SkinManagement.js:153-158 | on distinct strings the as-written comparator is antisymmetric and follows string `<` in the chosen direction |
| AdminSort.CompareCorrected | frontend/src/components/admin/SkinManagement.js:153-158 | corrected: 0 exactly on equal keys, otherwise the as-written answer |
| AdminSort.CompareCorrectedAntisymmetric | frontend/src/components/admin/CommentManagement.js:114-119 | the corrected comparator is antisymmetric |
| AdminSort.KeyAheadMeaning | frontend/src/components/admin/CommentManagement.js:114-119 | "may come first" is "not greater" ascending and "not smaller" descending |
| AdminSort.RowAheadIsTotalPreorder | frontend/src/components/admin/CommentManagement.js:114-119 | the corrected row order is a total preorder |
| AdminSort.SortRows | frontend/src/components/admin/CommentManagement.js:114-119 | the table order is a permutation, non-decreasing by key ascending and non-increasing descending |
| AdminSort.SortRowsStable | frontend/src/components/admin/SkinManagement.js:153-158 | rows with equal keys keep their fetched order |
| CommentAdmin.SearchComments | frontend/src/components/admin/CommentManagement.js:105-113 | the search keeps exactly the matching comments, in fetched order and with their multiplicity, and all of them for an empty term |
| CommentAdmin.CommentMatchesIffOccurs | frontend/src/components/admin/CommentManagement.js:107-111 | a comment matches iff the lower-cased term occurs in its lower-cased author, skin name or content |
| CommentAdmin.UserColumnDoesNotSort | frontend/src/components/admin/CommentManagement.js:179 | as written, the "user.name" key reads undefined, so every pair compares as -1 both ways |
| CommentAdmin.SortKey | frontend/src/components/admin/CommentManagement.js:179-192 | corrected: "user.name" reads the author's name and "created_at" the creation date |
| CommentAdmin.ListedComments | frontend/src/components/admin/CommentManagement.js:105-119 | the listing is a permutation of the search result, ordered by author name or date in the chosen direction |
| CommentAdmin.ListedCommentsAreTheMatches | frontend/src/components/admin/CommentManagement.js:105-119 | a comment is listed iff it is fetched and matches the term |
| CommentAdmin.ActivePlusInactiveIsTotal | frontend/src/components/admin/CommentManagement.js:151-173 | the active and inactive counters add up to the total |
| CommentAdmin.UserIds | frontend/src/components/admin/CommentManagement.js:171 | the unique-user set is exactly the authors' ids |
| CommentAdmin.UniqueUsersBounded | frontend/src/components/admin/CommentManagement.js:171 | there are at most as many unique users as comments, and none only when there are no comments |
| CommentAdmin.FlipStatus | frontend/src/components/admin/CommentManagement.js:83-85 | only the status of the comments with the id flips |
| CommentAdmin.FlipStatusTwice | frontend/src/components/admin/CommentManagement.js:83-85 | flipping twice restores the list |
| CommentAdmin.PerformToggle | frontend/src/components/admin/CommentManagement.js:70-92 | the dialog closes; the status flips on success and nothing changes on failure |
| CommentAdmin.PerformToggleTwice | frontend/src/components/admin/CommentManagement.js:70-92 | two confirmed toggles of one comment restore the list |
| CommentAdmin.OnStatusChange | frontend/src/components/admin/CommentManagement.js:302-306 | the table takes the status the modal reports for that id; nothing else changes |
| CommentAdmin.OnStatusChangeSameStatus | frontend/src/components/admin/CommentManagement.js:302-306 | reporting a status the comment already has changes nothing |
| CommentAdmin.AsWrittenTableIgnoresPage | frontend/src/components/admin/CommentManagement.js:198 | as written, the table shows more than a page and is the same on every page |
| CommentAdmin.TableRows | frontend/src/components/admin/CommentManagement.js:122-126 | corrected: the table shows page `page` of the listing, the window from (page - 1) * perPage to page * perPage, at most a page and non-empty iff the page exists |
| CommentAdmin.TableRowsCoverListing | frontend/src/components/admin/CommentManagement.js:122-126 | corrected: the tables of pages 1 to the page count, joined, are exactly the listing, so each listed comment shows on exactly one page, in order |
| CommentAdmin.AsWrittenPagerLeavesRange | frontend/src/components/admin/CommentManagement.js:256-285 | as written, with no comments Next goes to page 2 and Last to page 0 |
| CommentAdmin.PagerClick | frontend/src/components/admin/CommentManagement.js:256-285 | corrected: the pager keeps the page within 1..max(totalPages, 1); First goes to 1 and Last to the last page |
| CommentAdmin.PagerClickAgreesInRange | frontend/src/components/admin/CommentManagement.js:256-285 | on a valid page the corrected pager does what the written one does |
| SkinAdmin.SearchSkins | frontend/src/components/admin/SkinManagement.js:148-152 | the search keeps exactly the skins whose name or author name contains the term, in fetched order and with their multiplicity |
| SkinAdmin.SkinProperty | frontend/src/components/admin/SkinManagement.js:195 | the "name" key reads the skin's name; the other key reads the creation date |
| SkinAdmin.SameNameBothFirst | frontend/src/components/admin/SkinManagement.js:153-158 | as written, two skins with the same name compare as -1 both ways round |
| SkinAdmin.SortKeyOf | frontend/src/components/admin/SkinManagement.js:153-158 | the sort key is the property the column reads |
| SkinAdmin.ListedSkins | frontend/src/components/admin/SkinManagement.js:148-158 | the listing is a permutation of the search result, ordered by name or date in the chosen direction |
| SkinAdmin.ListedSkinsStable | frontend/src/components/admin/SkinManagement.js:153-158 | skins with the same name keep their fetched order |
| SkinAdmin.FlipStatus | frontend/src/components/admin/SkinManagement.js:127-129 | only the status of the skins with the id flips |
| SkinAdmin.FlipStatusTwice | frontend/src/components/admin/SkinManagement.js:127-129 | flipping twice restores the list |
| SkinAdmin.PerformToggle | frontend/src/components/admin/SkinManagement.js:114-139 | the dialog closes; the status flips on success and nothing changes on failure |
| SkinAdmin.PerformToggleTwice | frontend/src/components/admin/SkinManagement.js:114-139 | two confirmed toggles of one skin restore the list |
| SkinAdmin.FindSkin | frontend/src/components/admin/SkinManagement.js:103 | `find` returns the first listed skin with the id, and none exactly when no skin has it |
| SkinAdmin.FirstWithId | frontend/src/components/admin/SkinManagement.js:103 | the index `find` stops at: the first skin with the id, or -1 exactly when none has it |
| SkinAdmin.FindAfterFlip | frontend/src/components/admin/SkinManagement.js:102-139 | after a confirmed toggle `find` still finds the skin, now with the opposite status, so the next dialog offers the opposite action |
| SkinAdmin.ToggleDialogTitle | frontend/src/components/admin/SkinManagement.js:102-112 | there is a dialog title exactly when the skin is found |
| SkinAdmin.ToggleDialogTitleNamesTheFlip | frontend/src/components/admin/SkinManagement.js:102-112 | the title reads "Desactivar" exactly when the skin is active |
| UserAdmin.SearchUsers | frontend/src/components/admin/UserManagement.js:139-145 | the search keeps exactly the users whose name or email contains the term, in fetched order and with their multiplicity, and all of them for an empty term |
| UserAdmin.EmptyTermShortcutAgrees | frontend/src/components/admin/UserManagement.js:139-145 | the empty-term shortcut gives what the filter would |
| UserAdmin.FilteredUsers | frontend/src/components/admin/UserManagement.js:136-155 | the page count is the ceiling of matches over page size, and the rows are that page's window of the matches |
| UserAdmin.FilteredPagesCoverMatches | frontend/src/components/admin/UserManagement.js:136-155 | the pages, joined, are exactly the matches |
| UserAdmin.SetSearchTerm | frontend/src/components/admin/UserManagement.js:36-38 | a new search term returns to page 1 |
| UserAdmin.SetPerPage | frontend/src/components/admin/UserManagement.js:36-38 | a new page size returns to page 1 |
| UserAdmin.NewSearchShowsFirstMatches | frontend/src/components/admin/UserManagement.js:36-38 | after a new search the table shows the first perPage matches |
| UserAdmin.NewPageSizeShowsFirstMatches | frontend/src/components/admin/UserManagement.js:36-38 | after a new page size the table shows the first matches, as many as the new size allows |
| UserAdmin.FlipActive | frontend/src/components/admin/UserManagement.js:125-127 | only the active flag of the users with the id flips |
| UserAdmin.FlipActiveTwice | frontend/src/components/admin/UserManagement.js:125-127 | flipping twice restores the list |
| UserAdmin.PerformToggleStatus | frontend/src/components/admin/UserManagement.js:112-134 | the dialog closes; the flag flips on success and nothing changes on failure |
| UserAdmin.PerformToggleStatusTwice | frontend/src/components/admin/UserManagement.js:112-134 | two confirmed toggles of one user restore the list |
| UserAdmin.RoleErrorMessage | frontend/src/components/admin/UserManagement.js:88 | the error message is never empty and is the server's when it sent one |
| UserAdmin.HandleUpdateRole | frontend/src/components/admin/UserManagement.js:76-98 | on success the user gets the new role id and role, the modal closes and the toast confirms; on failure only the message changes |
| UserAdmin.UpdateRoleKeepsIdentity | frontend/src/components/admin/UserManagement.js:90-92 | a role update never changes a user's id, name, email or active flag |
| UserAdmin.OwnRowSurvivesClicks | frontend/src/components/admin/UserManagement.js:203-234 | whatever buttons are clicked, the logged-in user's own row never changes and the table keeps its length |
| UserAdmin.OtherRowsAreActionable | frontend/src/components/admin/UserManagement.js:225-231 | on any other row, or with nobody logged in, a confirmed status click flips that user's flag |
| RoleAdmin.ResetForm | frontend/src/components/admin/RoleManagement.js:136-143 | the create button's form is blank, with no id and no permissions |
| RoleAdmin.ResetDropsIsActive | frontend/src/components/admin/RoleManagement.js:16-22 | the reset form lacks the is_active field the initial form has |
| RoleAdmin.LoadForEdit | frontend/src/components/admin/RoleManagement.js:180-189 | editing loads the role's fields and its permission ids in order; a role without a permission list cannot be edited |
| RoleAdmin.PermissionToggle | frontend/src/components/admin/RoleManagement.js:89-96 | the permission is present iff it was absent; nothing else in the form changes |
| RoleAdmin.PermissionToggleTwice | frontend/src/components/admin/RoleManagement.js:89-96 | ticking a permission twice restores the form |
| RoleAdmin.PermissionToggleKeepsDistinct | frontend/src/components/admin/RoleManagement.js:89-96 | permission ticks never duplicate an id |
| RoleAdmin.SaveRequest | frontend/src/components/admin/RoleManagement.js:68-87 | create posts the form to the collection; edit puts it to the role's own address |
| RoleAdmin.EditAddressesLoadedRole | frontend/src/components/admin/RoleManagement.js:71-72 | saving an edited role puts it to that role's address |
| RoleAdmin.LoadRoles | frontend/src/components/admin/RoleManagement.js:36-49 | a good reply replaces the role list; a failure keeps it |
| RoleAdmin.Save | frontend/src/components/admin/RoleManagement.js:67-86 | a successful save closes the form and reloads the roles; a failed one changes nothing; the delete dialog is untouched |
| RoleAdmin.PerformDelete | frontend/src/components/admin/RoleManagement.js:107-129 | the delete dialog closes whatever the outcome; a success reloads the roles, a failure keeps them; the form is untouched |
| RoleAdmin.DeletableRoles | frontend/src/components/admin/RoleManagement.js:195 | exactly the non-admin roles offer a delete button, in table order |
| RoleAdmin.DeletedRoleLosesButton | frontend/src/components/admin/RoleManagement.js:107-129 | after a successful delete and a reload without the role, no delete button refers to it; a failed delete keeps the buttons |
| Labels.Create | frontend/src/components/admin/TagManagement.js:34-57 | a blank name sends nothing; a created record is appended and clears the input; a failure keeps both |
| Labels.BlankNameSendsNothing | frontend/src/components/admin/CategoryManagement.js:73 | nothing is sent iff the name is all whitespace |
| Labels.CreatedAppendsAtEnd | frontend/src/components/admin/CategoryManagement.js:88-89 | a created record lands last and the earlier ones stay |
| Labels.FlipStatus | frontend/src/components/admin/CategoryManagement.js:121-123 | only the status of the records with the id flips |
| Labels.FlipStatusTwice | frontend/src/components/admin/TagManagement.js:71-73 | flipping twice restores the list |
| CategoryAdmin.PerformToggle | frontend/src/components/admin/CategoryManagement.js:108-130 | the dialog closes; the status flips on success and nothing changes on failure |
| CategoryAdmin.ConfirmedToggleTwice | frontend/src/components/admin/CategoryManagement.js:108-130 | two confirmed toggles restore the list |
| TagAdmin.ToggleStatus | frontend/src/components/admin/TagManagement.js:59-78 | on success only the tag's status flips; on failure nothing changes |
| TagAdmin.ToggleStatusTwice | frontend/src/components/admin/TagManagement.js:59-78 | two successful toggles restore the list |
| CommentModal.OwnActive | frontend/src/components/modals/CommentModal.js:50-57 | the limit counts exactly the user's active comments, in list order and each once per occurrence |
| CommentModal.FailureMessage | frontend/src/components/modals/CommentModal.js:76-94 | a 403 reply shows the server-limit message, another rejection the generic one, and a thrown error its own message |
| CommentModal.Submit | frontend/src/components/modals/CommentModal.js:46-98 | a blank comment does nothing; at the limit only a toast shows; otherwise it is sent, and on success prepended with the input cleared and the page told "add" |
| CommentModal.SubmitKeepsLimit | frontend/src/components/modals/CommentModal.js:50-57 | submitting never takes a user past the active-comment limit |
| CommentModal.Delete | frontend/src/components/modals/CommentModal.js:100-129 | a successful delete removes exactly the comments with the id, keeping the others in order and with their multiplicity, and tells the page "delete"; a failed one changes nothing |
| CommentModal.DeleteKeepsOrder | frontend/src/components/modals/CommentModal.js:117 | deleting keeps the remaining comments in order |
| CommentModal.DeleteVisibleFreesSlot | frontend/src/components/modals/CommentModal.js:197 | deleting one's own visible active comment frees one slot under the limit |
| CommentModal.Close | frontend/src/components/modals/CommentModal.js:131-135 | closing empties the list and the input |
| CommentModal.CloseThenSubmitSendsNothing | frontend/src/components/modals/CommentModal.js:46-57 | after closing, a submit sends nothing, shows no toast and leaves the dialog cleared |
| CommentModal.OnOpenChange | frontend/src/components/modals/CommentModal.js:14-45 | opening on a skin loads its comments: a good reply replaces the list, a failure keeps it, and the input stays; anything else clears both |
| CommentModal.ReopenShowsServerList | frontend/src/components/modals/CommentModal.js:14-45 | closing and reopening shows exactly the server's list with an empty input, and a submit then sends iff the comment is not blank and the user is under the limit in that list |
| PublishModal.TagSelect | frontend/src/components/modals/PublishSkinModal.js:67-81 | a selected tag is removed and the others stay in order; a new one is appended below the limit; at the limit the form stays and an error shows |
| PublishModal.TagSelectKeepsWellFormed | frontend/src/components/modals/PublishSkinModal.js:67-81 | tag selection keeps the tags distinct and within the limit |
| PublishModal.TagClicksKeepWellFormed | frontend/src/components/modals/PublishSkinModal.js:67-81 | any sequence of tag clicks keeps the tags distinct and within the limit |
| PublishModal.Submit | frontend/src/components/modals/PublishSkinModal.js:83-90 | when the form is submitted it is passed on unchanged |
| PublishModal.SubmitIffComplete | frontend/src/components/modals/PublishSkinModal.js:85 | the form is submitted iff the name is not blank and a category is chosen |
| PublishModal.OnOpenChange | frontend/src/components/modals/PublishSkinModal.js:16-27 | opening resets to the empty form; closing keeps the form |
| PublishModal.Close | frontend/src/components/modals/PublishSkinModal.js:92-99 | closing clears the form, which cannot then be submitted |
| UserCommentsModal.ToggleTitle | frontend/src/components/modals/UserCommentsModal.js:44-53 | the title reads "Desactivar Comentario" for an active comment, "Activar Comentario" otherwise |
| UserCommentsModal.PerformToggle | frontend/src/components/modals/UserCommentsModal.js:55-84 | the dialog closes; on success the local list flips and the server's status is reported; on failure nothing changes |
| UserCommentsModal.TableFollowsServer | frontend/src/components/modals/UserCommentsModal.js:74-76 | the admin table ends with the server's status, which is what the modal shows when the server flipped it |
| UserRoleModal.AssignableRoles | frontend/src/components/modals/UserRoleModal.js:80-81 | admin roles are offered only to an admin, and every other role to everyone, in list order |
| UserRoleModal.ConfirmChange | frontend/src/components/modals/UserRoleModal.js:22-33 | confirming a change asks for that role on that user |
| UserRoleModal.ConfirmRemove | frontend/src/components/modals/UserRoleModal.js:35-45 | confirming removal asks for a null role on that user |
| UserRoleModal.RemovedRoleHidesRemove | frontend/src/components/modals/UserRoleModal.js:70 | after a removal succeeds the user has no remove button and the modal is closed |
| UserRoleModal.ChangedRoleDisablesButton | frontend/src/components/modals/UserRoleModal.js:96 | after a change succeeds the chosen role's button is disabled |
| AdminRoute.GuardAgreesWithCanAccessAdmin | frontend/src/components/auth/ProtectedAdminRoute.js:26-41 | the guard's own permission test agrees with `canAccessAdmin`, and needs a user with a role |
| AdminRoute.Decide | frontend/src/components/auth/ProtectedAdminRoute.js:17-53 | a spinner iff loading; home iff loaded without admin access; the admin root iff the required permission is missing |
| AdminRoute.EffectAgreesWithRender | frontend/src/components/auth/ProtectedAdminRoute.js:10-15 | the effect navigates home exactly when the render redirects home |
| AdminRoute.RenderIffAllowed | frontend/src/components/auth/ProtectedAdminRoute.js:44-53 | the children render iff loaded, allowed in, and holding any required permission; an admin is not exempt |
| ProtectedRoute.Decide | frontend/src/components/auth/ProtectedRoute.js:9-22 | a spinner while loading; a redirect to login remembering the location with no user; the children iff a user is loaded |
| ProtectedRoute.LoadingComesFirst | frontend/src/components/auth/ProtectedRoute.js:9-15 | while loading the user does not matter, and the redirect remembers the location |
| Routes.RouteOf | frontend/src/App.js:58-100 | everything under /admin is the admin area and every undeclared path falls to the catch-all |
| Routes.AuthRoute | frontend/src/App.js:26-30 | a logged-in user is sent home from the login and register forms; others see them |
| Routes.LocalProtectedRoute | frontend/src/App.js:33-46 | the local guard shows a spinner while loading, the page to a user, and home otherwise |
| Routes.LocalGuardDiffersOnlyInTarget | frontend/src/App.js:33-46 | the local guard decides like the shared one and differs only in where it redirects |
| Routes.AdminScreen | frontend/src/App.js:58-97 | the admin page shows iff loaded with admin access, and any redirect goes home |
| Routes.RedirectsLandOnEditor | frontend/src/App.js:100 | every redirect goes to "/", which renders the editor |
| Routes.AdminShownIffAllowed | frontend/src/App.js:58-97 | a path shows the admin page iff it is under /admin and the loaded user may enter |
| Routes.AuthFormsOnlyLoggedOut | frontend/src/App.js:26-30 | the login and register forms show only on their paths and only when logged out |
| Navbar.NavbarAgreesWithSession | frontend/src/components/layout/Navbar.js:19-29 | the bar's own admin test agrees with `canAccessAdmin` |
| Navbar.Links | frontend/src/components/layout/Navbar.js:44-84 | logo and gallery come first; the admin link iff admin access; logout iff logged in; back-to-editor on auth pages and login/register elsewhere when logged out |
| Navbar.LoggedOutLinks | frontend/src/components/layout/Navbar.js:69-84 | the logged-out bar is exactly logo, gallery and back-to-editor on auth pages, and logo, gallery, login, register elsewhere |
| Navbar.HandleLogout | frontend/src/components/layout/Navbar.js:11-14 | logout clears the session, goes to "/", and the bar then offers login and register |
| Navbar.LinksLeadToRoutes | frontend/src/components/layout/Navbar.js:44-84 | every link leads to a declared route, and the admin link reaches the admin page |
| RegisterForm.HandleChange | frontend/src/components/auth/RegisterForm.js:18-25 | typing sets that field, keeps the others, and clears the error |
| RegisterForm.Validate | frontend/src/components/auth/RegisterForm.js:27-37 | a mismatch is reported first, then a password shorter than eight characters |
| RegisterForm.ValidIff | frontend/src/components/auth/RegisterForm.js:27-37 | the form is valid iff the passwords match and have at least eight characters; name and email do not matter |
| RegisterForm.Submit | frontend/src/components/auth/RegisterForm.js:39-58 | data is sent iff valid; it navigates to "/" iff registration succeeds; otherwise the error shows the validation, server or connection message |
| RegisterForm.RejectedThenEditClearsError | frontend/src/components/auth/RegisterForm.js:18-37 | a rejected form shows an error, and the next keystroke clears it |
| RegisterForm.ConfirmingLongPasswordValidates | frontend/src/components/auth/RegisterForm.js:27-37 | confirming a long enough password always passes validation |
| AdminPage.UserPermissions | frontend/src/pages/AdminPage.js:15-20 | the effect takes the role's permission names when there is a list, and keeps the old list otherwise |
| AdminPage.AvailableTabs | frontend/src/pages/AdminPage.js:31-36 | a tab is listed iff it is allowed (the roles tab for admins, the others by permission), in declaration order |
| AdminPage.RolesTabListedIffAdmin | frontend/src/pages/AdminPage.js:28-34 | the roles tab is listed iff the user's role is an admin role |
| AdminPage.FindTab | frontend/src/pages/AdminPage.js:39 | `find` returns the tab with the id, and none when no tab has it |
| AdminPage.RenderContent | frontend/src/pages/AdminPage.js:38-46 | a tab's component renders iff the tab exists and its permission is held |
| AdminPage.RolesTabNeedsManageRoles | frontend/src/pages/AdminPage.js:38-46 | the roles content needs manage_roles |
| AdminPage.AdminWithoutManageRolesSeesEmptyRolesTab | frontend/src/pages/AdminPage.js:31-46 | an admin without manage_roles sees the roles tab but gets the no-permission message |
| AdminPage.ListedTabRenders | frontend/src/pages/AdminPage.js:31-46 | a listed permission tab always renders its component |
| AdminNavbar.ShownTabs | frontend/src/components/layout/AdminNavbar.js:44-61 | a tab is shown iff admin-only with an admin role, or otherwise with its permission, in declaration order |
| AdminNavbar.AdminAloneShowsOnlyRoles | frontend/src/components/layout/AdminNavbar.js:46-47 | an admin role with no permissions shows only the roles tab |
| AdminNavbar.TabListsCorrespond | frontend/src/components/layout/AdminNavbar.js:8-40 | the bar's tabs are the page's tabs: same names, permissions and admin flags, with paths under /admin/ |
| AdminNavbar.BarMatchesPageTabs | frontend/src/components/layout/AdminNavbar.js:44-61 | the bar and the page list the same tabs in the same order |
| BodyParts.PartOrderListsEveryPartOnce | frontend/src/components/tools/BodyPartControls.js:13-21 | the panel lists each of the six parts once |
| BodyParts.TogglePart | frontend/src/components/tools/BodyPartControls.js:23-32 | a part the viewer lacks is ignored; otherwise the part's panel and model flags flip together, and the other parts are untouched |
| BodyParts.TogglePartTwice | frontend/src/components/tools/BodyPartControls.js:23-32 | toggling a part twice restores the state and keeps the panel in sync with the model |
| BodyParts.Restore | frontend/src/components/tools/BodyPartControls.js:34-62 | restoring re-attaches every stored layer |
| BodyParts.Remove | frontend/src/components/tools/BodyPartControls.js:34-62 | removing detaches every layer and stores all of them |
| BodyParts.ToggleLayerAsWritten | frontend/src/components/tools/BodyPartControls.js:34-62 | as written the flag flips; from a shown flag the stored layers are re-attached and the store empties; from a hidden flag every layer is detached and stored; without a skin only the flag changes |
| BodyParts.AsWrittenFirstClickKeepsLayers | frontend/src/components/tools/BodyPartControls.js:34-62 | as written, the first click hides the flag but leaves every layer attached |
| BodyParts.AsWrittenLayersInverted | frontend/src/components/tools/BodyPartControls.js:34-62 | as written, after any clicks the layers are attached exactly when the flag says hidden |
| BodyParts.ToggleLayer | frontend/src/components/tools/BodyPartControls.js:34-62 | corrected: the flag flips and the layers follow it |
| BodyParts.LayerClicksAgree | frontend/src/components/tools/BodyPartControls.js:34-62 | corrected: after n clicks the layers agree with the flag, which is on iff n is even |
| Painting.MatchIn | frontend/src/hooks/usePainting.js:14-26 | a matched part is one whose node is the object or its parent |
| Painting.FirstPart | frontend/src/hooks/usePainting.js:5-33 | there is no nearest part exactly when no object on the chain is a part |
| Painting.VisibleIffNearestPartShown | frontend/src/hooks/usePainting.js:5-33 | for un-nested parts, a hit is visible iff its nearest part is shown |
| Painting.IsPartVisibleLoop | frontend/src/hooks/usePainting.js:5-33 | the loop over the parent chain computes the recursive walk |
| Painting.Stamp | frontend/src/hooks/usePainting.js:52-61 | the stamp keeps the canvas shape, sets the square to the ink, and leaves the rest |
| Painting.OddSquareIsCentred | frontend/src/hooks/usePainting.js:52-54 | an odd brush square is centred on the hit pixel |
| Painting.StampLastWins | frontend/src/hooks/usePainting.js:56-61 | two stamps on one square leave only the second ink |
| Painting.StampOffCanvas | frontend/src/hooks/usePainting.js:52-61 | a square wholly off the canvas changes nothing |
| Painting.FillSquare | frontend/src/hooks/usePainting.js:56-61 | the clipped fill loop computes the stamp |
| Painting.ApplyColorToPixel | frontend/src/hooks/usePainting.js:35-71 | a texture is painted iff the hit part is visible and a texture exists; the brush fills the square with its colour and the eraser clears it; outside it nothing changes |
| Painting.UpdateSkinCanvas | frontend/src/hooks/usePainting.js:73-79 | the skin canvas is redrawn iff it exists, keeps its shape, and shows the painted canvas, clear beyond it |
| Painting.SameShapeReplacesWholly | frontend/src/hooks/usePainting.js:73-79 | a same-shape painted canvas replaces the skin canvas wholly |
| ModelControls.VisibleHits | frontend/src/hooks/useModelControls.js:50-55 | the visible hits are exactly the hits on visible parts, nearest first as given |
| ModelControls.VisibleHitIffSomeShown | frontend/src/hooks/useModelControls.js:50-55 | there is a visible hit iff some hit is on a visible part |
| ModelControls.Step | frontend/src/hooks/useModelControls.js:58-102 | a left press on a visible part with the brush starts painting and locks rotation; otherwise it starts rotating; release stops both and unlocks rotation after painting |
| ModelControls.MoveCursor | frontend/src/hooks/useModelControls.js:58-67 | moving only changes the cursor: grabbing while rotating, grab without the brush, crosshair over a visible part |
| ModelControls.StepKeepsRotateFollowsPainting | frontend/src/hooks/useModelControls.js:69-102 | each event keeps rotation disabled exactly while painting |
| ModelControls.RunKeepsRotateFollowsPainting | frontend/src/hooks/useModelControls.js:69-102 | any event sequence keeps rotation disabled exactly while painting, and ends rotatable after a release |
| PaintingTools.Click | frontend/src/components/tools/PaintingTools.js:111-147 | the brush button toggles the brush and ends erasing; the eraser button toggles erasing and turns the brush on; size and colour clicks set only their field |
| PaintingTools.ClicksKeepPanelInvariant | frontend/src/components/tools/PaintingTools.js:111-147 | from the initial panel, any clicks keep "erasing implies brush" and an offered odd size |
| PaintingTools.EraserTwiceRestores | frontend/src/components/tools/PaintingTools.js:144-147 | with the brush on, two eraser clicks restore the panel |
| PaintingTools.PaintTargetAsWritten | frontend/src/components/tools/PaintingTools.js:39-48 | as written, with the brush on the paint target is the nearest hit, whatever its visibility |
| PaintingTools.PaintTarget | frontend/src/components/tools/PaintingTools.js:39-48 | corrected: a paint target is a hit on a visible part, and only with the brush on |
| PaintingTools.Stroke | frontend/src/components/tools/PaintingTools.js:31-69 | corrected: press starts a stroke and paints the nearest visible hit; drag paints only during a stroke; release and leave end it |
| PaintingTools.AsWrittenHiddenFrontPartBlocksPaint | frontend/src/components/tools/PaintingTools.js:39-48 | as written, a hidden head in front of a shown body starts a paint stroke on the body, yet paints nothing |
| PaintingTools.PressPaintsIffViewStartsStroke | frontend/src/hooks/useModelControls.js:69-81 | corrected: a press paints iff the viewer starts a paint stroke |
| PaintingTools.PaintTargetIsNearestShown | frontend/src/components/tools/PaintingTools.js:39-48 | corrected: the target is the nearest hit on a visible part |

## Left out

- Network and storage: fetch, headers, JSON parsing, localStorage and toasts are not modelled. A reply or thrown error is an input, and a toast is at most a returned message.
- Rendering: JSX markup, CSS classes and icons are left out. What is shown is modelled only where it is a predicate, such as a disabled button or a listed tab.
- three.js: raycast geometry and the UV-to-pixel floor are left out. The hit list (nearest first) and the hit pixel are inputs.
- Canvas: alpha blending and anti-aliasing are left out. A pixel is either clear or painted with a colour string.
- Strings are sequences of code points, not UTF-16 code units. `length` limits and string `<` differ on astral characters.
- Router details: case-insensitive matching and trailing slashes in react-router are left out. A path is matched literally.
- AdminSort.CompareAsWritten: the order a JavaScript engine produces with this inconsistent comparator depends on the engine, so the table order is modelled only for the corrected comparator (AdminSort.SortRows).
- Painting.VisibleIffNearestPartShown: requires that no part node is the parent of another on the hit's chain, which holds for the six-part skeleton the viewer builds. The walk itself (Painting.IsPartVisible) is modelled without that assumption.
- Painting.MatchIn: tries the six parts in the fixed order of the if-chain in `isPartVisible`; the skin object's other nodes are not parts and are left out.
- BodyParts.Remove: visits the parts in panel order, standing in for `Object.keys` over the skin object (BodyPartControls.js line 38). Non-part properties of that object are left out.
- PublishModal.OnOpenChange: the default-category fetch on open (PublishSkinModal.js lines 58-60) is left out; the category starts empty.
- JsArray.Filter: its own contract states length and membership only; order and multiplicity are stated once, by JsArray.FilterKeptInOrder, and carried into the contracts of the searches that use it, to keep the proofs that unfold a filter small.
- CommentModal.OnOpenChange: a load reply that arrives after the dialog has closed again is left out; the reply is taken together with the effect that requested it.
- RoleAdmin.Save: the reload after a save is modelled as the reply to `loadRoles`; the form fields themselves are modelled by RoleAdmin.SaveRequest.
- React batching, stale closures and effect ordering are left out. Each handler is one atomic transition.
- Painting.ApplyColorToPixel: the painted canvas becomes the texture at once. The source publishes it only in the new image's `onload` (usePainting.js lines 63-69), so a second stamp in a fast drag can still draw from the old image and its `onload` can overwrite the first stamp; that deferred publication and the stamps it can lose are left out.
- useModelControls re-runs its effect on a brush change, which resets the drag references but not `enableRotate`; that re-run is left out.
- Date formatting by locale is left out.
- The login form only forwards to `login` from the authentication context, which is modelled (Auth.Login). SkinCommentsModal, ConfirmationModal and ActionTools are not part of this model.

## Findings

| source | as written | input that shows it | evidently intended | confidence | as-written member | corrected member |
|---|---|---|---|---|---|---|
| frontend/src/components/admin/CommentManagement.js:114-119 | the comparator returns 1 or -1 and never 0 (same code in SkinManagement.js lines 153-158) | two rows with the same key: compare(a, b) = compare(b, a) = -1 | 0 for equal keys, giving a consistent comparator | high, not executed | AdminSort.AsWrittenEqualKeysBothFirst | AdminSort.CompareCorrectedAntisymmetric |
| frontend/src/components/admin/CommentManagement.js:179 | the "Usuario" header sorts by `a['user.name']`, which is undefined for a nested user object | any two comments: both compare as -1 both ways, so the column never sorts | sort by `a.user.name` | high, not executed | CommentAdmin.UserColumnDoesNotSort | CommentAdmin.ListedComments |
| frontend/src/components/admin/CommentManagement.js:198 | the table maps the whole filtered list; the page slice `currentComments` is unused | 11 comments at 10 per page: 11 rows on every page | render the current page | high, not executed | CommentAdmin.AsWrittenTableIgnoresPage | CommentAdmin.TableRows |
| frontend/src/components/admin/CommentManagement.js:256-285 | the pager is always shown and guards Next/Last with `currentPage === totalPages` | no comments: totalPages = 0, so Next goes to page 2 and Last to page 0 | keep the page within 1..max(totalPages, 1) | high, not executed | CommentAdmin.AsWrittenPagerLeavesRange | CommentAdmin.PagerClick |
| frontend/src/components/tools/BodyPartControls.js:34-62 | the outer-layer toggle branches on the flag before it flips | the first click from the initial state (layers shown) hides the flag but removes nothing; after that, layers are attached exactly when the flag says hidden | remove layers when hiding, restore them when showing | high, not executed | BodyParts.AsWrittenLayersInverted | BodyParts.LayerClicksAgree |
| frontend/src/pages/SkinsListPage.js:136-146 | `toggleFavorite` returns false on any failure (FavoritesContext.js lines 28-55), and the page reads false as "unfavourited" | a failed request on a favourite in favourites mode removes it from the list although it is still a favourite | treat a failure as "no change" | high, not executed | Gallery.FailedToggleDropsFavorite | Gallery.FavoriteClick |
| frontend/src/components/tools/PaintingTools.js:39-48 | painting uses `intersects[0]`, and the mouse control uses only visible hits (useModelControls.js lines 50-55) | a hidden head in front of a shown body: the press starts a paint stroke (rotation locks), but the pixel goes to the hidden head and nothing is painted | paint the nearest visible hit | medium (relies on the three.js raycaster including hidden meshes), not executed | PaintingTools.AsWrittenHiddenFrontPartBlocksPaint | PaintingTools.PaintTargetIsNearestShown |

=== FILE: admin_navbar.dfy ===
/**
 * The admin tab bar: its own copy of the six tabs, shown through
 * `hasPermission` rather than the admin page's permission list.
 */
module AdminNavbar {
  import opened Wrappers
  import opened JsArray
  import opened Entities
  import Auth
  import AdminPage

  datatype NavTab = NavTab(name: string, path: string, permission: string, adminOnly: bool)

  const NavTabs: seq<NavTab> := [
    NavTab("Usuarios", "/admin/users", "manage_users", false),
    NavTab("Tags", "/admin/tags", "manage_tags", false),
    NavTab("Categorías", "/admin/categories", "manage_categories", false),
    NavTab("Skins", "/admin/skins", "manage_skins", false),
    NavTab("Comentarios", "/admin/comments", "manage_comments", false),
    NavTab("Roles", "/admin/roles", "manage_roles", true)
  ]

  /** `(tab.adminOnly && user?.role?.is_admin) || (!tab.adminOnly && hasPermission(tab.permission))`. */
  predicate Shown(user: Option<User>, t: NavTab) {
    (t.adminOnly && Auth.IsAdmin(user)) || (!t.adminOnly && Auth.HasPermission(user, t.permission))
  }

  function ShownTest(user: Option<User>): NavTab -> bool {
    (t: NavTab) => Shown(user, t)
  }

  function NavRank(t: NavTab): int {
    if t.path == "/admin/users" then 0 else if t.path == "/admin/tags" then 1
    else if t.path == "/admin/categories" then 2 else if t.path == "/admin/skins" then 3
    else if t.path == "/admin/comments" then 4 else 5
  }

  lemma NavTabsRanked()
    ensures RankIncreasing(NavTabs, NavRank)
  {
    assert forall i :: 0 <= i < 6 ==> NavRank(NavTabs[i]) == i;
  }

  function ShownTabs(user: Option<User>): (r: seq<NavTab>)
    ensures |r| <= 6
    ensures forall i :: 0 <= i < |r| ==> r[i] in NavTabs
    ensures forall i :: 0 <= i < |NavTabs| ==> (NavTabs[i] in r <==> Shown(user, NavTabs[i]))
    ensures RankIncreasing(r, NavRank)
  {
    NavTabsRanked();
    FilterKeepsOrder(NavTabs, ShownTest(user), NavRank);
    Filter(NavTabs, ShownTest(user))
  }

  /** Being an admin does not by itself reveal the permission tabs. */
  lemma AdminAloneShowsOnlyRoles(user: Option<User>)
    requires Auth.IsAdmin(user) && Auth.PermissionNames(user) == []
    ensures ShownTabs(user) == [NavTabs[5]]
  {
    forall i | 0 <= i < 5 ensures !Shown(user, NavTabs[i]) {
      Auth.HasPermissionIffNamed(user, NavTabs[i].permission);
    }
    var keep := ShownTest(user);
    assert NavTabs == NavTabs[..5] + [NavTabs[5]];
    calc {
      ShownTabs(user);
      Filter(NavTabs[..5] + [NavTabs[5]], keep);
      { FilterAppend(NavTabs[..5], [NavTabs[5]], keep); }
      Filter(NavTabs[..5], keep) + Filter([NavTabs[5]], keep);
      { FilterKeepsNone(NavTabs[..5], keep); }
      [] + Filter([NavTabs[5]], keep);
      { assert keep(NavTabs[5]); assert [NavTabs[5]][1..] == []; }
      [NavTabs[5]];
    }
  }

  /** The two copies of the tab list declare the same tabs in the same order. */
  lemma TabListsCorrespond()
    ensures |NavTabs| == |AdminPage.Tabs| == 6
    ensures forall i :: 0 <= i < 6 ==>
      && NavTabs[i].name == AdminPage.Tabs[i].caption
      && NavTabs[i].path == "/admin/" + AdminPage.Tabs[i].id
      && NavTabs[i].permission == AdminPage.Tabs[i].permission
      && NavTabs[i].adminOnly == AdminPage.Tabs[i].adminOnly
  {
  }

  function PagePermission(t: AdminPage.Tab): string { t.permission }

  function NavPermission(t: NavTab): string { t.permission }

  /** When the page's permission list holds the user's permission names, the
      tab bar and the page list the same tabs, in the same order. */
  lemma BarMatchesPageTabs(user: Option<User>)
    ensures MapSeq(ShownTabs(user), NavPermission)
         == MapSeq(AdminPage.AvailableTabs(user, Auth.PermissionNames(user)), PagePermission)
  {
    TabListsCorrespond();
    var perms := Auth.PermissionNames(user);
    forall i | 0 <= i < 6
      ensures ShownTest(user)(NavTabs[i]) == AdminPage.ListedTest(user, perms)(AdminPage.Tabs[i])
    {
      Auth.HasPermissionIffNamed(user, NavTabs[i].permission);
    }
    FilterCorresponding(NavTabs, AdminPage.Tabs, ShownTest(user), AdminPage.ListedTest(user, perms),
                        NavPermission, PagePermission);
  }
}

=== FILE: admin_page.dfy ===
/**
 * The admin page: the six tabs it declares, which of them it lists for the
 * user, and whether the selected tab's content is rendered.
 */
module AdminPage {
  import opened Wrappers
  import opened JsArray
  import opened Entities
  import Auth

  datatype Tab = Tab(id: string, caption: string, permission: string, adminOnly: bool)

  const Tabs: seq<Tab> := [
    Tab("users", "Usuarios", "manage_users", false),
    Tab("tags", "Tags", "manage_tags", false),
    Tab("categories", "Categorías", "manage_categories", false),
    Tab("skins", "Skins", "manage_skins", false),
    Tab("comments", "Comentarios", "manage_comments", false),
    Tab("roles", "Roles", "manage_roles", true)
  ]

  const InitialTab := "users"

  /** A tab's position in the declaration. */
  function TabRank(t: Tab): int {
    if t.id == "users" then 0 else if t.id == "tags" then 1 else if t.id == "categories" then 2
    else if t.id == "skins" then 3 else if t.id == "comments" then 4 else 5
  }

  /** The permission-name effect: it runs when the user changes, and replaces
      the list only when the user has a role with a permission list. */
  function UserPermissions(previous: seq<string>, user: Option<User>): (r: seq<string>)
    ensures Auth.HasPermissionList(user) ==> r == Auth.PermissionNames(user)
    ensures !Auth.HasPermissionList(user) ==> r == previous
  {
    if Auth.HasPermissionList(user) then Auth.PermissionNames(user) else previous
  }

  /** Whether the tab bar lists `t`. */
  predicate Listed(user: Option<User>, perms: seq<string>, t: Tab) {
    if t.adminOnly then Auth.IsAdmin(user) else t.permission in perms
  }

  function ListedTest(user: Option<User>, perms: seq<string>): Tab -> bool {
    (t: Tab) => Listed(user, perms, t)
  }

  lemma TabsRanked()
    ensures RankIncreasing(Tabs, TabRank)
  {
    assert forall i :: 0 <= i < 6 ==> TabRank(Tabs[i]) == i;
  }

  /** `availableTabs`. */
  function AvailableTabs(user: Option<User>, perms: seq<string>): (r: seq<Tab>)
    ensures |r| <= |Tabs|
    ensures forall i :: 0 <= i < |r| ==> r[i] in Tabs
    ensures forall i :: 0 <= i < |Tabs| ==> (Tabs[i] in r <==> Listed(user, perms, Tabs[i]))
    ensures RankIncreasing(r, TabRank)
  {
    TabsRanked();
    FilterKeepsOrder(Tabs, ListedTest(user, perms), TabRank);
    Filter(Tabs, ListedTest(user, perms))
  }

  /** The roles tab is listed exactly for admins, whatever their permissions. */
  lemma RolesTabListedIffAdmin(user: Option<User>, perms: seq<string>)
    ensures Tabs[5] in AvailableTabs(user, perms) <==> Auth.IsAdmin(user)
  {
  }

  /** The first declared tab with the id, as `tabs.find` returns it. */
  function FindTab(id: string): (r: Option<Tab>)
    ensures r.Some? ==> r.value in Tabs && r.value.id == id
    ensures r.None? <==> forall i :: 0 <= i < |Tabs| ==> Tabs[i].id != id
  {
    if id == "users" then Some(Tabs[0]) else if id == "tags" then Some(Tabs[1])
    else if id == "categories" then Some(Tabs[2]) else if id == "skins" then Some(Tabs[3])
    else if id == "comments" then Some(Tabs[4]) else if id == "roles" then Some(Tabs[5])
    else None
  }

  /** `renderContent`: the tab's screen, or `None` for the "no permission"
      notice. The adminOnly flag plays no part here. */
  function RenderContent(activeTab: string, perms: seq<string>): (r: Option<Tab>)
    ensures r.Some? <==> FindTab(activeTab).Some? && FindTab(activeTab).value.permission in perms
    ensures r.Some? ==> r.value.id == activeTab
  {
    match FindTab(activeTab)
    case None => None
    case Some(t) => if t.permission in perms then Some(t) else None
  }

  /** The Roles screen renders exactly when `manage_roles` is held. */
  lemma RolesTabNeedsManageRoles(perms: seq<string>)
    ensures RenderContent("roles", perms).Some? <==> "manage_roles" in perms
  {
    assert FindTab("roles") == Some(Tabs[5]);
  }

  /** An admin whose role lacks `manage_roles` sees the Roles tab but selecting
      it shows the no-permission notice. */
  lemma AdminWithoutManageRolesSeesEmptyRolesTab(user: Option<User>, perms: seq<string>)
    requires Auth.IsAdmin(user) && "manage_roles" !in perms
    ensures Tabs[5] in AvailableTabs(user, perms)
    ensures RenderContent("roles", perms).None?
  {
    RolesTabListedIffAdmin(user, perms);
    RolesTabNeedsManageRoles(perms);
  }

  /** For every non-admin-only tab, listing it and rendering it agree. */
  lemma ListedTabRenders(user: Option<User>, perms: seq<string>, t: Tab)
    requires t in AvailableTabs(user, perms) && !t.adminOnly
    ensures RenderContent(t.id, perms) == Some(t)
  {
    var j :| 0 <= j < |Tabs| && Tabs[j] == t;
    assert Listed(user, perms, Tabs[j]);
    FindDeclaredTab(j);
  }

  /** Tab ids are distinct, so `find` by a declared tab's id returns that tab. */
  lemma FindDeclaredTab(j: int)
    requires 0 <= j < |Tabs|
    ensures FindTab(Tabs[j].id) == Some(Tabs[j])
  {
  }
}

=== FILE: admin_route.dfy ===
/**
 * The guard in front of the admin area: a spinner while the session loads,
 * a redirect home for users who may not enter, a redirect to the admin home
 * for a screen whose own permission is missing, and otherwise the screen.
 */
module AdminRoute {
  import opened Wrappers
  import opened Entities
  import Auth

  /** What the guard renders. */
  datatype Decision = Spinner | RedirectHome | RedirectAdmin | RenderChildren

  const GuardPermissions: seq<string> :=
    ["manage_users", "manage_roles", "manage_categories", "manage_tags", "manage_skins", "manage_comments"]

  /** `hasAnyUserPermissions`: an admin role, or any of the six manage permissions. */
  predicate HasAnyUserPermissions(user: Option<User>) {
    Auth.IsAdmin(user) || exists j :: 0 <= j < |GuardPermissions| && Auth.HasPermission(user, GuardPermissions[j])
  }

  /** The guard's own test is the session's `canAccessAdmin`. */
  lemma GuardAgreesWithCanAccessAdmin(user: Option<User>)
    ensures HasAnyUserPermissions(user) <==> Auth.CanAccessAdmin(user)
    ensures HasAnyUserPermissions(user) ==> user.Some? && user.value.role.Some?
  {
    assert GuardPermissions == Auth.AdminPermissions;
    if exists j :: 0 <= j < |GuardPermissions| && Auth.HasPermission(user, GuardPermissions[j]) {
      var j :| 0 <= j < |GuardPermissions| && Auth.HasPermission(user, GuardPermissions[j]);
      assert Auth.HasPermissionList(user);
    }
  }

  /** The guard's render. `required` is the `requiredPermission` prop; the
      default `null` and the empty string are both falsy and are given as "". */
  function Decide(user: Option<User>, loading: bool, required: string): (d: Decision)
    ensures loading <==> d == Spinner
    ensures d == RedirectHome <==> !loading && !Auth.CanAccessAdmin(user)
    ensures d == RedirectAdmin <==>
      !loading && Auth.CanAccessAdmin(user) && required != "" && !Auth.HasPermission(user, required)
    ensures d == RenderChildren ==> user.Some? && user.value.role.Some?
  {
    GuardAgreesWithCanAccessAdmin(user);
    if loading then Spinner
    else if user.None? || user.value.role.None? || !HasAnyUserPermissions(user) then RedirectHome
    else if required != "" && !Auth.HasPermission(user, required) then RedirectAdmin
    else RenderChildren
  }

  /** The effect's test: navigate home once loading is over and the user may
      not enter. */
  predicate EffectNavigatesHome(user: Option<User>, loading: bool) {
    !loading && (user.None? || user.value.role.None? || !HasAnyUserPermissions(user))
  }

  /** The effect and the render agree: the effect navigates home exactly when
      the render redirects home. */
  lemma EffectAgreesWithRender(user: Option<User>, loading: bool, required: string)
    ensures EffectNavigatesHome(user, loading) <==> Decide(user, loading, required) == RedirectHome
  {
    GuardAgreesWithCanAccessAdmin(user);
  }

  /** The screen renders exactly for a settled session whose user may enter
      and holds the screen's permission, if it names one; being an admin does
      not stand in for that permission. */
  lemma RenderIffAllowed(user: Option<User>, loading: bool, required: string)
    ensures Decide(user, loading, required) == RenderChildren <==>
      !loading && Auth.CanAccessAdmin(user) && (required == "" || Auth.HasPermission(user, required))
    ensures Auth.IsAdmin(user) && !loading && required != "" && !Auth.HasPermission(user, required) ==>
      Decide(user, loading, required) == RedirectAdmin
  {
  }
}

=== FILE: adminsort.dfy ===
/**
 * The sortable admin tables (comments and skins): the `{ key, direction }`
 * header state, and the comparator `a[key] > b[key] ? 1 : -1` (ascending) or
 * `a[key] < b[key] ? 1 : -1` (descending) handed to `Array.prototype.sort`.
 */
module AdminSort {
  import opened JsString
  import opened JsArray
  import Sorting

  datatype Direction = Asc | Desc

  datatype SortConfig = SortConfig(key: string, direction: Direction)

  /** Both tables start newest first. */
  const InitialSort := SortConfig("created_at", Desc)

  /** `handleSort`: a header click selects its key; clicking the selected
      ascending key turns it descending, and anything else starts ascending. */
  function HandleSort(prev: SortConfig, key: string): (r: SortConfig)
    ensures r.key == key
    ensures r.direction == Desc <==> prev.key == key && prev.direction == Asc
  {
    SortConfig(key, if prev.key == key && prev.direction == Asc then Desc else Asc)
  }

  /** Repeated clicks on one header alternate the direction, starting ascending
      unless that header was already ascending. */
  lemma HandleSortAlternates(prev: SortConfig, key: string)
    ensures HandleSort(HandleSort(prev, key), key).direction != HandleSort(prev, key).direction
    ensures prev.key != key ==> HandleSort(prev, key).direction == Asc
  {
  }

  /** What `row[key]` yields: a string field, or `undefined` when the row has
      no own property of that name. */
  datatype KeyValue = Undefined | Str(s: string)

  /** JavaScript `x > y` on two such values: string order when both are
      strings; a comparison involving `undefined` is false. */
  predicate JsGreater(x: KeyValue, y: KeyValue) {
    x.Str? && y.Str? && StrLess(y.s, x.s)
  }

  /** The comparator as written. */
  function CompareAsWritten(a: KeyValue, b: KeyValue, dir: Direction): (r: int)
    ensures r == 1 || r == -1
  {
    match dir
    case Asc => if JsGreater(a, b) then 1 else -1
    case Desc => if JsGreater(b, a) then 1 else -1
  }

  /** Two rows with equal keys each claim to go first: the comparator never
      reports equality, so it is not a consistent comparator in the sense of
      section 23.1.3.30 of ECMAScript (`sort`). */
  lemma AsWrittenEqualKeysBothFirst(x: KeyValue, dir: Direction)
    ensures CompareAsWritten(x, x, dir) == -1
  {
    if x.Str? {
      StrLessIrreflexive(x.s);
    }
  }

  /** With `undefined` on either side every comparison says "first argument
      first", whatever the direction. */
  lemma AsWrittenUndefinedAlwaysFirst(a: KeyValue, b: KeyValue, dir: Direction)
    requires a.Undefined? || b.Undefined?
    ensures CompareAsWritten(a, b, dir) == -1 && CompareAsWritten(b, a, dir) == -1
  {
  }

  /** On two different strings the as-written comparator does order them, the
      right way round for each direction. */
  lemma AsWrittenOrdersDistinctStrings(x: string, y: string, dir: Direction)
    requires x != y
    ensures CompareAsWritten(Str(x), Str(y), dir) == -CompareAsWritten(Str(y), Str(x), dir)
    ensures dir == Asc ==> (CompareAsWritten(Str(x), Str(y), dir) == -1 <==> StrLess(x, y))
    ensures dir == Desc ==> (CompareAsWritten(Str(x), Str(y), dir) == -1 <==> StrLess(y, x))
  {
    StrLessTotal(x, y);
    if StrLess(x, y) && StrLess(y, x) {
      StrLessTransitive(x, y, x);
      StrLessIrreflexive(x);
    }
  }

  /** The comparator with the equal case: 0 for equal keys, and otherwise the
      as-written answer. */
  function CompareCorrected(x: string, y: string, dir: Direction): (r: int)
    ensures r == 0 <==> x == y
    ensures x != y ==> r == CompareAsWritten(Str(x), Str(y), dir)
  {
    if x == y then 0 else CompareAsWritten(Str(x), Str(y), dir)
  }

  lemma CompareCorrectedAntisymmetric(x: string, y: string, dir: Direction)
    ensures CompareCorrected(x, y, dir) == -CompareCorrected(y, x, dir)
  {
    if x != y {
      AsWrittenOrdersDistinctStrings(x, y, dir);
    }
  }

  /** `x` may stay ahead of `y`: ascending string order, or its reverse. */
  predicate KeyAhead(x: string, y: string, dir: Direction) {
    CompareCorrected(x, y, dir) <= 0
  }

  lemma KeyAheadMeaning(x: string, y: string, dir: Direction)
    ensures dir == Asc ==> (KeyAhead(x, y, dir) <==> !StrLess(y, x))
    ensures dir == Desc ==> (KeyAhead(x, y, dir) <==> !StrLess(x, y))
  {
    if x == y {
      StrLessIrreflexive(x);
    } else {
      AsWrittenOrdersDistinctStrings(x, y, dir);
    }
  }

  /** The "may stay ahead" relation on rows through their sort key. */
  function RowAhead<T>(key: T -> string, dir: Direction): (T, T) -> bool {
    (a: T, b: T) => KeyAhead(key(a), key(b), dir)
  }

  lemma RowAheadIsTotalPreorder<T(!new)>(key: T -> string, dir: Direction)
    ensures Sorting.TotalPreorder(RowAhead(key, dir))
  {
    var leq := RowAhead(key, dir);
    forall a: T, b: T ensures leq(a, b) || leq(b, a) {
      CompareCorrectedAntisymmetric(key(a), key(b), dir);
    }
    forall a: T, b: T, c: T | leq(a, b) && leq(b, c) ensures leq(a, c) {
      var x, y, z := key(a), key(b), key(c);
      KeyAheadMeaning(x, y, dir);
      KeyAheadMeaning(y, z, dir);
      KeyAheadMeaning(x, z, dir);
      StrLessTotal(x, y);
      StrLessTotal(y, z);
      StrLessTotal(x, z);
      if dir == Asc && StrLess(z, x) {
        if StrLess(y, x) { } else if StrLess(x, y) { StrLessTransitive(z, x, y); }
      }
      if dir == Desc && StrLess(x, z) {
        if StrLess(x, y) { } else if StrLess(y, x) { StrLessTransitive(y, x, z); }
      }
    }
  }

  /** The table rows in header order under the corrected comparator. */
  function SortRows<T(!new)>(rows: seq<T>, key: T -> string, dir: Direction): (r: seq<T>)
    ensures multiset(r) == multiset(rows)
    ensures dir == Asc ==> forall i, j :: 0 <= i < j < |r| ==> !StrLess(key(r[j]), key(r[i]))
    ensures dir == Desc ==> forall i, j :: 0 <= i < j < |r| ==> !StrLess(key(r[i]), key(r[j]))
  {
    RowAheadIsTotalPreorder(key, dir);
    var r := Sorting.Sort(rows, RowAhead(key, dir));
    Sorting.SortSorted(rows, RowAhead(key, dir));
    assert forall i, j :: 0 <= i < j < |r| ==> KeyAhead(key(r[i]), key(r[j]), dir);
    KeyAheadAll(r, key, dir);
    r
  }

  lemma KeyAheadAll<T>(r: seq<T>, key: T -> string, dir: Direction)
    requires forall i, j :: 0 <= i < j < |r| ==> KeyAhead(key(r[i]), key(r[j]), dir)
    ensures dir == Asc ==> forall i, j :: 0 <= i < j < |r| ==> !StrLess(key(r[j]), key(r[i]))
    ensures dir == Desc ==> forall i, j :: 0 <= i < j < |r| ==> !StrLess(key(r[i]), key(r[j]))
  {
    forall i, j | 0 <= i < j < |r| ensures dir == Asc ==> !StrLess(key(r[j]), key(r[i]))
      ensures dir == Desc ==> !StrLess(key(r[i]), key(r[j]))
    {
      KeyAheadMeaning(key(r[i]), key(r[j]), dir);
    }
  }

  /** The rows whose key equals `v`'s. */
  function SameKey<T>(key: T -> string, v: T): T -> bool {
    (a: T) => key(a) == key(v)
  }

  /** Rows with equal keys keep their relative order. */
  lemma SortRowsStable<T(!new)>(rows: seq<T>, key: T -> string, dir: Direction, v: T)
    ensures Filter(SortRows(rows, key, dir), SameKey(key, v)) == Filter(rows, SameKey(key, v))
  {
    RowAheadIsTotalPreorder(key, dir);
    var leq := RowAhead(key, dir);
    Sorting.SortStable(rows, v, leq);
    var e1 := Sorting.EquivClass(v, leq);
    var e2 := SameKey(key, v);
    forall a: T ensures e1(a) == e2(a) {
      CompareCorrectedAntisymmetric(key(a), key(v), dir);
    }
    FilterSameTest(Sorting.Sort(rows, leq), e1, e2);
    FilterSameTest(rows, e1, e2);
  }
}

=== FILE: auth.dfy ===
/**
 * The authentication context: the session (token, user, loading flag), the
 * permission predicates every admin screen consults, and the outcomes of
 * login, registration, profile check and logout with the server's replies
 * taken as given values.
 */
module Auth {
  import opened Wrappers
  import opened JsArray
  import opened Entities

  /** The six permissions that open the admin area. */
  const AdminPermissions: seq<string> :=
    ["manage_users", "manage_roles", "manage_categories", "manage_tags", "manage_skins", "manage_comments"]

  /** `user?.role?.is_admin`. */
  predicate IsAdmin(user: Option<User>) {
    user.Some? && user.value.role.Some? && user.value.role.value.isAdmin
  }

  /** The user, their role and the role's permission list are all present. */
  predicate HasPermissionList(user: Option<User>) {
    user.Some? && user.value.role.Some? && user.value.role.value.permissions.Some?
  }

  /** The names of the user's permissions (`role.permissions.map(p => p.name)`),
      empty when any link of the chain is missing. */
  function PermissionNames(user: Option<User>): (r: seq<string>)
    ensures !HasPermissionList(user) ==> r == []
    ensures HasPermissionList(user) ==>
      |r| == |user.value.role.value.permissions.value|
      && forall i :: 0 <= i < |r| ==> r[i] == user.value.role.value.permissions.value[i].name
  {
    if HasPermissionList(user) then MapSeq(user.value.role.value.permissions.value, (p: Permission) => p.name)
    else []
  }

  /** `hasPermission(name)`. */
  predicate HasPermission(user: Option<User>, name: string) {
    HasPermissionList(user)
    && exists i :: 0 <= i < |user.value.role.value.permissions.value|
         && user.value.role.value.permissions.value[i].name == name
  }

  /** A permission is held exactly when its name is among the user's names. */
  lemma HasPermissionIffNamed(user: Option<User>, name: string)
    ensures HasPermission(user, name) <==> name in PermissionNames(user)
    ensures !HasPermissionList(user) ==> !HasPermission(user, name)
  {
    if name in PermissionNames(user) {
      var k :| 0 <= k < |PermissionNames(user)| && PermissionNames(user)[k] == name;
      assert user.value.role.value.permissions.value[k].name == name;
    }
  }

  /** `hasAnyPermission(names)`. */
  predicate HasAnyPermission(user: Option<User>, names: seq<string>) {
    HasPermissionList(user) && exists j :: 0 <= j < |names| && HasPermission(user, names[j])
  }

  lemma HasAnyPermissionMeaning(user: Option<User>, names: seq<string>)
    ensures HasAnyPermission(user, names) <==> exists j :: 0 <= j < |names| && names[j] in PermissionNames(user)
    ensures names == [] ==> !HasAnyPermission(user, names)
  {
    forall j | 0 <= j < |names| ensures HasPermission(user, names[j]) <==> names[j] in PermissionNames(user) {
      HasPermissionIffNamed(user, names[j]);
    }
  }

  /** `canAccessAdmin()`. */
  predicate CanAccessAdmin(user: Option<User>) {
    IsAdmin(user) || HasAnyPermission(user, AdminPermissions)
  }

  /** The admin area opens for an admin role, and otherwise exactly for a
      holder of one of the six manage permissions. */
  lemma CanAccessAdminMeaning(user: Option<User>)
    ensures IsAdmin(user) ==> CanAccessAdmin(user)
    ensures !IsAdmin(user) ==>
      (CanAccessAdmin(user) <==> exists j :: 0 <= j < |AdminPermissions| && AdminPermissions[j] in PermissionNames(user))
    ensures user.None? || user.value.role.None? ==> !CanAccessAdmin(user)
  {
    HasAnyPermissionMeaning(user, AdminPermissions);
  }

  /** The `role` member of a user object from the server: missing, `null`, or a role. */
  datatype RawRole = RoleMissing | RoleNull | RoleGiven(role: Role)

  datatype RawUser = RawUser(id: int, name: string, email: string, roleId: Option<int>,
                             role: RawRole, userActive: bool)

  /** `{ ...data.user, role: data.user.role || null }`. */
  function Normalise(raw: RawUser): (u: User)
    ensures u.id == raw.id && u.name == raw.name && u.email == raw.email
    ensures u.roleId == raw.roleId && u.userActive == raw.userActive
    ensures u.role.Some? <==> raw.role.RoleGiven?
    ensures raw.role.RoleGiven? ==> u.role.value == raw.role.role
  {
    User(raw.id, raw.name, raw.email, raw.roleId,
         if raw.role.RoleGiven? then Some(raw.role.role) else None, raw.userActive)
  }

  /** A missing role and a `null` role give the same session user, who holds
      no permission and cannot enter the admin area. */
  lemma MissingAndNullRoleAgree(raw: RawUser, name: string)
    requires !raw.role.RoleGiven?
    ensures Normalise(raw) == Normalise(raw.(role := RoleMissing))
    ensures Normalise(raw) == Normalise(raw.(role := RoleNull))
    ensures !HasPermission(Some(Normalise(raw)), name) && !CanAccessAdmin(Some(Normalise(raw)))
  {
  }

  datatype Session = Session(token: Option<string>, user: Option<User>, loading: bool)

  /** `logout`: the token and user are cleared whether or not the logout
      request went through. */
  function Logout(s: Session, requestFailed: bool): (r: Session)
    ensures r.token.None? && r.user.None? && r.loading == s.loading
  {
    Session(None, None, s.loading)
  }

  lemma LogoutIgnoresRequest(s: Session)
    ensures Logout(s, true) == Logout(s, false)
    ensures !CanAccessAdmin(Logout(s, false).user)
  {
  }

  /** The reply to `POST /login` or `POST /register`: an ok reply with a
      token and user, a non-ok reply whose `message` may be empty or missing
      (both read as ""), or a thrown request. */
  datatype AuthReply = AuthOk(token: string, user: RawUser) | AuthRejected(message: string) | AuthThrown

  /** `{ success: true }` or `{ success: false, error }`. */
  datatype AuthResult = Success | Failure(error: string)

  const LoginDefaultError := "Error al iniciar sesión"
  const RegisterDefaultError := "Error en el registro"
  const ConnectionError := "Error de conexión"

  /** What `login` and `register` share; they differ only in the default
      message of a rejected reply. */
  function Authenticate(s: Session, reply: AuthReply, defaultError: string): (r: (Session, AuthResult))
    ensures reply.AuthOk? ==>
      r.1 == Success && r.0.token == Some(reply.token) && r.0.user == Some(Normalise(reply.user))
    ensures !reply.AuthOk? ==> r.0 == s && r.1.Failure?
    ensures reply.AuthRejected? ==>
      r.1.error == if reply.message != "" then reply.message else defaultError
    ensures reply.AuthThrown? ==> r.1.error == ConnectionError
  {
    match reply
    case AuthOk(token, raw) => (s.(token := Some(token), user := Some(Normalise(raw))), Success)
    case AuthRejected(message) => (s, Failure(if message != "" then message else defaultError))
    case AuthThrown => (s, Failure(ConnectionError))
  }

  function Login(s: Session, reply: AuthReply): (r: (Session, AuthResult))
    ensures reply.AuthRejected? && reply.message == "" ==> r.1 == Failure(LoginDefaultError)
    ensures r.1.Failure? ==> r.1.error != "" && r.0 == s
    ensures r.1 == Success <==> reply.AuthOk?
  {
    Authenticate(s, reply, LoginDefaultError)
  }

  function Register(s: Session, reply: AuthReply): (r: (Session, AuthResult))
    ensures reply.AuthRejected? && reply.message == "" ==> r.1 == Failure(RegisterDefaultError)
    ensures r.1.Failure? ==> r.1.error != "" && r.0 == s
    ensures r.1 == Success <==> reply.AuthOk?
  {
    Authenticate(s, reply, RegisterDefaultError)
  }

  /** A successful login leaves a logged-in session whose admin access is
      decided by the role the server sent. */
  lemma LoginThenAccess(s: Session, token: string, raw: RawUser)
    ensures var r := Login(s, AuthOk(token, raw)).0;
      r.user.Some? && (CanAccessAdmin(r.user) ==> raw.role.RoleGiven?)
  {
  }

  /** The reply to `GET /profile`. */
  datatype ProfileReply = ProfileOk(success: bool, user: Option<RawUser>) | ProfileNotOk | ProfileThrown

  /** The token effect: with a token the profile is checked (a good reply sets
      the user, anything else logs out), without one nothing is fetched; in
      both cases loading ends. */
  function OnTokenChange(s: Session, reply: ProfileReply): (r: Session)
    ensures !r.loading
    ensures s.token.None? ==> r == s.(loading := false)
    ensures s.token.Some? && reply.ProfileOk? && reply.success && reply.user.Some? ==>
      r == s.(user := Some(Normalise(reply.user.value)), loading := false)
    ensures s.token.Some? && !(reply.ProfileOk? && reply.success && reply.user.Some?) ==>
      r.token.None? && r.user.None?
  {
    if s.token.None? then s.(loading := false)
    else match reply
      case ProfileOk(success, user) =>
        if success && user.Some? then s.(user := Some(Normalise(user.value)), loading := false)
        else Logout(s, false).(loading := false)
      case _ => Logout(s, false).(loading := false)
  }
}

=== FILE: body_parts.dfy ===
/**
 * The body-part panel of the editor: showing and hiding each of the six
 * parts of the player model, and the button that takes the outer layer of
 * every part off the model and puts it back.
 */
module BodyParts {

  datatype Part = Head | Body | RightArm | LeftArm | RightLeg | LeftLeg

  /** The parts in the order the skin declares them, which is also the order
      the panel lists them and the order the visibility walk tests them. */
  const PartOrder: seq<Part> := [Head, Body, RightArm, LeftArm, RightLeg, LeftLeg]

  const AllParts: set<Part> := {Head, Body, RightArm, LeftArm, RightLeg, LeftLeg}

  lemma PartOrderListsEveryPartOnce()
    ensures forall p: Part :: p in PartOrder
    ensures forall i, j :: 0 <= i < j < |PartOrder| ==> PartOrder[i] != PartOrder[j]
    ensures forall p: Part :: p in AllParts
  {
    forall p: Part ensures p in PartOrder && p in AllParts {
      match p
      case Head => assert PartOrder[0] == p;
      case Body => assert PartOrder[1] == p;
      case RightArm => assert PartOrder[2] == p;
      case LeftArm => assert PartOrder[3] == p;
      case RightLeg => assert PartOrder[4] == p;
      case LeftLeg => assert PartOrder[5] == p;
    }
  }

  /** The panel's `visibleParts` record (as the set of parts marked visible)
      beside the `visible` flags of the model's parts. */
  datatype PanelState = PanelState(shown: set<Part>, modelShown: set<Part>)

  const InitialPanel := PanelState(AllParts, AllParts)

  /** Panel and model agree on every part. */
  predicate InSync(s: PanelState) {
    s.shown == s.modelShown
  }

  /** `toggleBodyPart`: when the viewer has the part, the model's flag is set
      from the negated panel entry and the panel entry flips. `inViewer` are
      the parts the viewer's skin has. */
  function TogglePart(s: PanelState, p: Part, inViewer: set<Part>): (r: PanelState)
    ensures p !in inViewer ==> r == s
    ensures p in inViewer ==> (p in r.shown <==> p !in s.shown) && (p in r.modelShown <==> p !in s.shown)
    ensures forall q: Part :: q != p ==> (q in r.shown <==> q in s.shown) && (q in r.modelShown <==> q in s.modelShown)
  {
    if p !in inViewer then s
    else
      var flipped := if p in s.shown then s.shown - {p} else s.shown + {p};
      PanelState(flipped, if p in s.shown then s.modelShown - {p} else s.modelShown + {p})
  }

  /** Toggling a part twice gives back the state it started from, when panel
      and model agreed on it; and a toggle keeps them in agreement. */
  lemma TogglePartTwice(s: PanelState, p: Part, inViewer: set<Part>)
    requires InSync(s)
    ensures TogglePart(TogglePart(s, p, inViewer), p, inViewer) == s
    ensures InSync(TogglePart(s, p, inViewer))
  {
  }

  /** The outer-layer bookkeeping: the layer flag, the parts whose outer
      layer is attached to the model, and the parts recorded in
      `removedOuterLayers`. `skin` says whether the viewer has a skin. */
  datatype LayerState = LayerState(flag: bool, attached: set<Part>, stored: set<Part>)

  const InitialLayers := LayerState(true, AllParts, {})

  /** The flag says what the model shows: all outer layers on and nothing
      recorded, or all off and every one recorded. */
  predicate LayersAgree(s: LayerState) {
    if s.flag then s.attached == AllParts && s.stored == {}
    else s.attached == {} && s.stored == AllParts
  }

  /** Put back every recorded outer layer and forget it. */
  function Restore(s: LayerState): (r: LayerState)
    ensures r.attached == s.attached + s.stored && r.stored == {}
  {
    s.(attached := s.attached + s.stored, stored := {})
  }

  /** Take off and record every part's outer layer (every part of the skin
      has one). */
  function Remove(s: LayerState): (r: LayerState)
    ensures r.attached == {} && r.stored == AllParts
  {
    s.(attached := {}, stored := AllParts)
  }

  /** `handleToggleLayer` as written: the flag flips, but the branch reads
      the flag from before the click, so it restores when the layers are
      being hidden and removes when they are being shown. */
  function ToggleLayerAsWritten(s: LayerState, skin: bool): (r: LayerState)
    ensures r.flag == !s.flag
    ensures !skin ==> r.attached == s.attached && r.stored == s.stored
    ensures skin && s.flag ==> r.attached == s.attached + s.stored && r.stored == {}
    ensures skin && !s.flag ==> r.attached == {} && r.stored == AllParts
  {
    var t := s.(flag := !s.flag);
    if !skin then t else if s.flag then Restore(t) else Remove(t)
  }

  /** The first click from the initial state turns the flag off and leaves
      every outer layer on the model. */
  lemma AsWrittenFirstClickKeepsLayers()
    ensures var r := ToggleLayerAsWritten(InitialLayers, true);
      !r.flag && r.attached == AllParts && !LayersAgree(r)
  {
  }

  /** Clicks of the layer button with a skin present. */
  function LayerClicksAsWritten(s: LayerState, n: nat): LayerState
  {
    if n == 0 then s else ToggleLayerAsWritten(LayerClicksAsWritten(s, n - 1), true)
  }

  /** As written, after any positive number of clicks from the initial state
      the model shows the outer layers exactly when the flag says hidden. */
  lemma {:induction false} AsWrittenLayersInverted(n: nat)
    requires n >= 1
    ensures var r := LayerClicksAsWritten(InitialLayers, n);
      (r.flag ==> r.attached == {}) && (!r.flag ==> r.attached == AllParts)
  {
    if n > 1 {
      AsWrittenLayersInverted(n - 1);
    }
  }

  /** `handleToggleLayer` with the branch reading the flag after the click:
      showing restores the recorded layers, hiding removes them. */
  function ToggleLayer(s: LayerState, skin: bool): (r: LayerState)
    ensures r.flag == !s.flag
    ensures skin && LayersAgree(s) ==> LayersAgree(r)
    ensures !skin ==> r.attached == s.attached && r.stored == s.stored
  {
    var t := s.(flag := !s.flag);
    if !skin then t else if t.flag then Restore(t) else Remove(t)
  }

  /** Any number of clicks of the corrected button with a skin present. */
  function LayerClicks(s: LayerState, n: nat): LayerState
  {
    if n == 0 then s else ToggleLayer(LayerClicks(s, n - 1), true)
  }

  /** With the corrected button the flag and the model agree after every click. */
  lemma {:induction false} LayerClicksAgree(n: nat)
    ensures LayersAgree(LayerClicks(InitialLayers, n))
    ensures LayerClicks(InitialLayers, n).flag <==> n % 2 == 0
  {
    if n > 0 {
      LayerClicksAgree(n - 1);
    }
  }
}

=== FILE: category_admin.dfy ===
/**
 * Category management: creation through the shared label form, and a status
 * flip behind a confirmation dialog.
 */
module CategoryAdmin {
  import opened Entities
  import Labels

  /** `performToggleStatus`: the dialog closes in every case; only an ok reply
      flips the category. */
  function PerformToggle(categories: seq<Label>, id: int, ok: bool): (r: Confirmed<Label>)
    ensures !r.confirmOpen
    ensures ok ==> r.items == Labels.FlipStatus(categories, id)
    ensures !ok ==> r.items == categories
  {
    Confirmed(if ok then Labels.FlipStatus(categories, id) else categories, false)
  }

  /** Two confirmed, successful toggles of one category restore the list. */
  lemma ConfirmedToggleTwice(categories: seq<Label>, id: int)
    ensures PerformToggle(PerformToggle(categories, id, true).items, id, true).items == categories
  {
    Labels.FlipStatusTwice(categories, id);
  }
}

=== FILE: comment_admin.dfy ===
/**
 * The admin comment table: search, sorting by author or date, the
 * statistics cards, the status toggle behind a confirmation, and the pager.
 */
module CommentAdmin {
  import opened JsString
  import opened JsArray
  import opened Entities
  import opened AdminSort
  import Paging

  /** The search box matches the author's name, the skin's name or the text,
      case-insensitively. */
  predicate CommentMatches(c: Comment, term: string) {
    var t := Lower(term);
    Includes(Lower(c.userName), t) || Includes(Lower(c.skinName), t) || Includes(Lower(c.content), t)
  }

  /** The search box's test as a value. */
  function MatchesTerm(term: string): Comment -> bool {
    (c: Comment) => CommentMatches(c, term)
  }

  function SearchComments(comments: seq<Comment>, term: string): (r: seq<Comment>)
    ensures forall i :: 0 <= i < |r| ==> r[i] in comments && CommentMatches(r[i], term)
    ensures forall i :: 0 <= i < |comments| && CommentMatches(comments[i], term) ==> comments[i] in r
    ensures KeptInOrder(r, comments, MatchesTerm(term))
    ensures term == "" ==> r == comments
  {
    FilterKeptInOrder(comments, MatchesTerm(term));
    if term == "" then
      forall i | 0 <= i < |comments| ensures CommentMatches(comments[i], term) {
        IncludesEmpty(Lower(comments[i].userName));
      }
      FilterKeepsAll(comments, MatchesTerm(term));
      Filter(comments, MatchesTerm(term))
    else Filter(comments, MatchesTerm(term))
  }

  /** A comment matches exactly when the lower-cased term occurs at some
      position of one of its three lower-cased fields. */
  lemma CommentMatchesIffOccurs(c: Comment, term: string)
    ensures CommentMatches(c, term) <==>
      exists i :: OccursAt(Lower(c.userName), Lower(term), i)
               || OccursAt(Lower(c.skinName), Lower(term), i)
               || OccursAt(Lower(c.content), Lower(term), i)
  {
    IncludesIffOccurs(Lower(c.userName), Lower(term));
    IncludesIffOccurs(Lower(c.skinName), Lower(term));
    IncludesIffOccurs(Lower(c.content), Lower(term));
  }

  /** `comment[key]` as written: `created_at` is an own field of the row, while
      `'user.name'` names no property (the author's name sits in the nested
      `user` object), so it reads `undefined`. These are the only two keys the
      headers set. */
  function PropertyAsWritten(c: Comment, key: string): KeyValue {
    if key == "created_at" then Str(c.createdAt) else Undefined
  }

  /** Clicking "Usuario" therefore gives a comparator that answers -1 for every
      pair in both directions: the author column does not sort. */
  lemma UserColumnDoesNotSort(a: Comment, b: Comment, dir: Direction)
    ensures CompareAsWritten(PropertyAsWritten(a, "user.name"), PropertyAsWritten(b, "user.name"), dir) == -1
    ensures CompareAsWritten(PropertyAsWritten(b, "user.name"), PropertyAsWritten(a, "user.name"), dir) == -1
  {
    AsWrittenUndefinedAlwaysFirst(PropertyAsWritten(a, "user.name"), PropertyAsWritten(b, "user.name"), dir);
  }

  /** The key the header means: the author's name for "Usuario", the date otherwise. */
  function SortKey(c: Comment, key: string): (r: string)
    ensures key == "user.name" ==> r == c.userName
    ensures key == "created_at" ==> r == c.createdAt
  {
    if key == "user.name" then c.userName else c.createdAt
  }

  /** The searched list in header order, with the corrected comparator and key. */
  function ListedComments(comments: seq<Comment>, term: string, cfg: SortConfig): (r: seq<Comment>)
    ensures multiset(r) == multiset(SearchComments(comments, term))
    ensures cfg.key == "user.name" && cfg.direction == Asc ==>
      forall i, j :: 0 <= i < j < |r| ==> !StrLess(r[j].userName, r[i].userName)
    ensures cfg.key == "user.name" && cfg.direction == Desc ==>
      forall i, j :: 0 <= i < j < |r| ==> !StrLess(r[i].userName, r[j].userName)
    ensures cfg.key == "created_at" && cfg.direction == Asc ==>
      forall i, j :: 0 <= i < j < |r| ==> !StrLess(r[j].createdAt, r[i].createdAt)
    ensures cfg.key == "created_at" && cfg.direction == Desc ==>
      forall i, j :: 0 <= i < j < |r| ==> !StrLess(r[i].createdAt, r[j].createdAt)
  {
    SortRows(SearchComments(comments, term), (c: Comment) => SortKey(c, cfg.key), cfg.direction)
  }

  /** Every comment the search keeps is listed, and nothing else. */
  lemma ListedCommentsAreTheMatches(comments: seq<Comment>, term: string, cfg: SortConfig, c: Comment)
    ensures c in ListedComments(comments, term, cfg) <==> c in comments && CommentMatches(c, term)
  {
    var found := SearchComments(comments, term);
    var r := ListedComments(comments, term, cfg);
    assert c in r <==> c in multiset(r);
    assert c in found <==> c in multiset(found);
    if c in comments && CommentMatches(c, term) {
      var i :| 0 <= i < |comments| && comments[i] == c;
      assert c in found;
    }
  }

  /** The statistics cards. */
  function ActiveCount(comments: seq<Comment>): nat {
    |Filter(comments, (c: Comment) => c.isActive)|
  }

  function InactiveCount(comments: seq<Comment>): nat {
    |Filter(comments, (c: Comment) => !c.isActive)|
  }

  lemma ActivePlusInactiveIsTotal(comments: seq<Comment>)
    ensures ActiveCount(comments) + InactiveCount(comments) == |comments|
  {
    FilterPartition(comments, (c: Comment) => c.isActive, (c: Comment) => !c.isActive);
  }

  /** `new Set(comments.map(c => c.user_id))`. */
  function UserIds(comments: seq<Comment>): (r: set<int>)
    ensures |r| <= |comments|
    ensures forall i :: 0 <= i < |comments| ==> comments[i].userId in r
    ensures forall id :: id in r ==> exists i :: 0 <= i < |comments| && comments[i].userId == id
  {
    if comments == [] then {}
    else
      var rest := UserIds(comments[1..]);
      TailUserIds(comments, rest);
      {comments[0].userId} + rest
  }

  /** The authors of a list's tail, read as indices of the whole list. */
  lemma TailUserIds(comments: seq<Comment>, rest: set<int>)
    requires comments != []
    requires forall i :: 0 <= i < |comments[1..]| ==> comments[1..][i].userId in rest
    requires forall id :: id in rest ==> exists i :: 0 <= i < |comments[1..]| && comments[1..][i].userId == id
    ensures forall i :: 1 <= i < |comments| ==> comments[i].userId in rest
    ensures forall id :: id in rest ==> exists i :: 0 <= i < |comments| && comments[i].userId == id
  {
    forall id | id in rest
      ensures exists i :: 0 <= i < |comments| && comments[i].userId == id
    {
      var j :| 0 <= j < |comments[1..]| && comments[1..][j].userId == id;
      assert comments[j + 1].userId == id;
    }
    forall i | 1 <= i < |comments| ensures comments[i].userId in rest {
      assert comments[1..][i - 1] == comments[i];
    }
  }

  /** The "Usuarios Únicos" card: at most the total, and zero only without comments. */
  lemma UniqueUsersBounded(comments: seq<Comment>)
    ensures |UserIds(comments)| <= |comments|
    ensures |UserIds(comments)| == 0 <==> comments == []
  {
    if comments != [] {
      assert comments[0].userId in UserIds(comments);
    }
  }

  /** `c.id === id ? { ...c, is_active: !c.is_active } : c`. */
  function FlipStatus(comments: seq<Comment>, id: int): (r: seq<Comment>)
    ensures |r| == |comments|
    ensures forall i :: 0 <= i < |r| ==>
      r[i].(isActive := comments[i].isActive) == comments[i]
      && (r[i].isActive <==> (comments[i].isActive != (comments[i].id == id)))
  {
    MapWhere(comments, (c: Comment) => c.id == id, (c: Comment) => c.(isActive := !c.isActive))
  }

  lemma FlipStatusTwice(comments: seq<Comment>, id: int)
    ensures FlipStatus(FlipStatus(comments, id), id) == comments
  {
    var r := FlipStatus(FlipStatus(comments, id), id);
    assert forall i :: 0 <= i < |r| ==> r[i] == comments[i];
  }

  /** `performToggleStatus` after the confirmation: the dialog closes whatever
      the reply; only an ok reply flips the comment. */
  function PerformToggle(comments: seq<Comment>, id: int, ok: bool): (r: Confirmed<Comment>)
    ensures !r.confirmOpen
    ensures ok ==> r.items == FlipStatus(comments, id)
    ensures !ok ==> r.items == comments
  {
    Confirmed(if ok then FlipStatus(comments, id) else comments, false)
  }

  /** Two toggles the server accepts restore the list. */
  lemma PerformToggleTwice(comments: seq<Comment>, id: int)
    ensures PerformToggle(PerformToggle(comments, id, true).items, id, true).items == comments
  {
    FlipStatusTwice(comments, id);
  }

  /** The history modal's `onStatusChange(commentId, newStatus)`. */
  function OnStatusChange(comments: seq<Comment>, id: int, newStatus: bool): (r: seq<Comment>)
    ensures |r| == |comments|
    ensures forall i :: 0 <= i < |r| ==>
      r[i].(isActive := comments[i].isActive) == comments[i]
      && r[i].isActive == if comments[i].id == id then newStatus else comments[i].isActive
  {
    MapWhere(comments, (c: Comment) => c.id == id, (c: Comment) => c.(isActive := newStatus))
  }

  /** Reporting the status a comment already has changes nothing. */
  lemma OnStatusChangeSameStatus(comments: seq<Comment>, id: int, status: bool)
    requires forall i :: 0 <= i < |comments| && comments[i].id == id ==> comments[i].isActive == status
    ensures OnStatusChange(comments, id, status) == comments
  {
    var r := OnStatusChange(comments, id, status);
    assert forall i :: 0 <= i < |r| ==> r[i] == comments[i];
  }

  const PerPageOptions: seq<nat> := [10, 25, 50]

  /** The table body as written: every listed comment, whatever the page. */
  function TableRowsAsWritten(listed: seq<Comment>, page: int, perPage: nat): seq<Comment>
    requires perPage > 0
  {
    listed
  }

  /** More matches than fit a page all appear on every page. */
  lemma AsWrittenTableIgnoresPage(listed: seq<Comment>, page: int, perPage: nat)
    requires perPage > 0 && |listed| > perPage
    ensures |TableRowsAsWritten(listed, page, perPage)| > perPage
    ensures TableRowsAsWritten(listed, page, perPage) == TableRowsAsWritten(listed, 1, perPage)
  {
  }

  /** The table body the pager describes: page `page` of the listed comments,
      the slice `currentComments` that the table was meant to render. */
  function TableRows(listed: seq<Comment>, page: int, perPage: nat): (r: seq<Comment>)
    requires perPage > 0
    ensures page >= 1 ==> |r| <= perPage
    ensures page >= 1 ==> (Paging.PageStartBound(|listed|, page, perPage);
      r == listed[Min((page - 1) * perPage, |listed|)..Min(page * perPage, |listed|)])
    ensures page >= 1 ==> (r != [] <==> page <= Paging.TotalPages(|listed|, perPage))
  {
    Paging.PageSlice(listed, page, perPage)
  }

  /** The tables of pages 1..count, one after the other. */
  function TablePages(listed: seq<Comment>, perPage: nat, count: nat): seq<Comment>
    requires perPage > 0
  {
    if count == 0 then [] else TablePages(listed, perPage, count - 1) + TableRows(listed, count, perPage)
  }

  lemma {:induction false} TablePagesArePages(listed: seq<Comment>, perPage: nat, count: nat)
    requires perPage > 0
    ensures TablePages(listed, perPage, count) == Paging.JoinPages(listed, perPage, count)
  {
    if count > 0 {
      TablePagesArePages(listed, perPage, count - 1);
    }
  }

  /** Paging through the corrected table shows each listed comment once, in
      order: the tables of pages 1..totalPages, joined, are the listing. */
  lemma TableRowsCoverListing(listed: seq<Comment>, perPage: nat)
    requires perPage > 0
    ensures TablePages(listed, perPage, Paging.TotalPages(|listed|, perPage)) == listed
  {
    TablePagesArePages(listed, perPage, Paging.TotalPages(|listed|, perPage));
    Paging.PagesCoverList(listed, perPage);
  }

  datatype PagerButton = First | Previous | Next | Last

  /** The pager as written: always shown, "Primera"/"Anterior" disabled on page
      1, "Siguiente"/"Última" disabled when `currentPage === totalPages`. */
  function PagerClickAsWritten(page: int, total: nat, b: PagerButton): int {
    match b
    case First => if page == 1 then page else 1
    case Previous => if page == 1 then page else page - 1
    case Next => if page == total then page else page + 1
    case Last => if page == total then page else total
  }

  /** With nothing listed there are 0 pages: "Siguiente" is enabled on page 1
      and leads to page 2, and "Última" leads to page 0. */
  lemma AsWrittenPagerLeavesRange()
    ensures PagerClickAsWritten(1, Paging.TotalPages(0, 10), Next) == 2
    ensures PagerClickAsWritten(1, Paging.TotalPages(0, 10), Last) == 0
  {
  }

  /** The pager with the forward buttons disabled from the last page on. */
  function PagerClick(page: int, total: nat, b: PagerButton): (r: int)
    ensures 1 <= page <= Max(total, 1) ==> 1 <= r <= Max(total, 1)
    ensures b == First ==> r == 1
    ensures b == Last && page < total ==> r == total
  {
    match b
    case First => 1
    case Previous => if page <= 1 then page else page - 1
    case Next => if page >= total then page else page + 1
    case Last => if page >= total then page else total
  }

  /** Both pagers agree wherever the as-written one stays in range. */
  lemma PagerClickAgreesInRange(page: int, total: nat, b: PagerButton)
    requires 1 <= page <= total
    ensures PagerClick(page, total, b) == PagerClickAsWritten(page, total, b)
  {
  }
}

=== FILE: comment_modal.dfy ===
/**
 * The comments dialog of a gallery skin: posting under the three-comment
 * limit, deleting one's own comments, and what the gallery is told.
 */
module CommentModal {
  import opened Wrappers
  import opened JsString
  import opened JsArray
  import opened Entities

  const MaxActiveComments: nat := 3

  const LimitMessage := "Has alcanzado el límite de 3 comentarios para esta skin"
  const ServerLimitMessage := "Has alcanzado el límite de comentarios para esta skin"
  const PostErrorMessage := "Error al publicar comentario"
  const PostedMessage := "Comentario publicado"

  datatype ModalState = ModalState(comments: seq<Comment>, input: string)

  const Cleared := ModalState([], "")

  /** Own and active: the comments that count against the limit. */
  function CountsForUser(userId: int): Comment -> bool {
    (c: Comment) => c.userId == userId && c.isActive
  }

  /** Every comment but those with the id. */
  function Except(commentId: int): Comment -> bool {
    (c: Comment) => c.id != commentId
  }

  /** The user's own comments that still count against the limit. */
  function OwnActive(comments: seq<Comment>, userId: int): (r: seq<Comment>)
    ensures forall i :: 0 <= i < |r| ==> r[i].userId == userId && r[i].isActive
    ensures forall i :: 0 <= i < |comments| && comments[i].userId == userId && comments[i].isActive ==>
      comments[i] in r
    ensures KeptInOrder(r, comments, CountsForUser(userId))
  {
    FilterKeptInOrder(comments, CountsForUser(userId));
    Filter(comments, CountsForUser(userId))
  }

  /** The reply to `POST /comments`: the created comment, a non-ok status, or
      a thrown request with its message. */
  datatype PostReply = Posted(comment: Comment) | Rejected(status: int) | Thrown(message: string)

  /** The dialog afterwards, whether a request went out, what the gallery was
      told (`onCommentUpdate`) and the toast shown, if any. */
  datatype SubmitOutcome = SubmitOutcome(
    state: ModalState, sent: bool, notified: Option<string>, toast: Option<string>)

  /** The error toast for a failed post. */
  function FailureMessage(reply: PostReply): (m: string)
    requires !reply.Posted?
    ensures reply.Rejected? ==> (m == ServerLimitMessage <==> reply.status == 403)
    ensures reply.Rejected? && reply.status != 403 ==> m == PostErrorMessage
    ensures reply.Thrown? ==> m == reply.message
  {
    match reply
    case Rejected(status) => if status == 403 then ServerLimitMessage else PostErrorMessage
    case Thrown(message) => message
  }

  /** `handleSubmit` for the logged-in user `userId`. */
  function Submit(st: ModalState, userId: int, reply: PostReply): (r: SubmitOutcome)
    ensures IsBlank(st.input) ==> r == SubmitOutcome(st, false, None, None)
    ensures !IsBlank(st.input) && |OwnActive(st.comments, userId)| >= MaxActiveComments ==>
      r == SubmitOutcome(st, false, None, Some(LimitMessage))
    ensures r.sent <==> !IsBlank(st.input) && |OwnActive(st.comments, userId)| < MaxActiveComments
    ensures r.sent && reply.Posted? ==>
      && r.state.comments == [reply.comment] + st.comments
      && r.state.input == ""
      && r.notified == Some("add") && r.toast == Some(PostedMessage)
    ensures r.sent && !reply.Posted? ==>
      r.state == st && r.notified.None? && r.toast == Some(FailureMessage(reply))
  {
    TrimEmptyIffBlank(st.input);
    if Trim(st.input) == "" then SubmitOutcome(st, false, None, None)
    else if |OwnActive(st.comments, userId)| >= MaxActiveComments then
      SubmitOutcome(st, false, None, Some(LimitMessage))
    else match reply
      case Posted(c) => SubmitOutcome(ModalState([c] + st.comments, ""), true, Some("add"), Some(PostedMessage))
      case _ => SubmitOutcome(st, true, None, Some(FailureMessage(reply)))
  }

  /** Posting never takes a user past three active comments in the list. */
  lemma SubmitKeepsLimit(st: ModalState, userId: int, reply: PostReply)
    requires |OwnActive(st.comments, userId)| <= MaxActiveComments
    ensures |OwnActive(Submit(st, userId, reply).state.comments, userId)| <= MaxActiveComments
  {
    var r := Submit(st, userId, reply);
    if r.sent && reply.Posted? {
      FilterAppend([reply.comment], st.comments, CountsForUser(userId));
    }
  }

  /** `handleDelete`: an ok reply removes every comment with the id, keeps the
      rest in order, and tells the gallery 'delete'. */
  function Delete(st: ModalState, commentId: int, ok: bool): (r: (ModalState, Option<string>))
    ensures ok ==> r.1 == Some("delete") && r.0.input == st.input
    ensures ok ==> forall i :: 0 <= i < |r.0.comments| ==> r.0.comments[i].id != commentId
    ensures ok ==> forall i :: 0 <= i < |st.comments| && st.comments[i].id != commentId ==>
      st.comments[i] in r.0.comments
    ensures ok ==> KeptInOrder(r.0.comments, st.comments, Except(commentId))
    ensures !ok ==> r == (st, None)
  {
    FilterKeptInOrder(st.comments, Except(commentId));
    if ok then (st.(comments := Filter(st.comments, Except(commentId))), Some("delete"))
    else (st, None)
  }

  /** Deleting keeps the surviving comments in their order: it distributes over
      any split of the list. */
  lemma DeleteKeepsOrder(a: seq<Comment>, b: seq<Comment>, commentId: int)
    ensures Delete(ModalState(a + b, ""), commentId, true).0.comments
         == Delete(ModalState(a, ""), commentId, true).0.comments
          + Delete(ModalState(b, ""), commentId, true).0.comments
  {
    FilterAppend(a, b, Except(commentId));
  }

  /** The trash button: only on the logged-in user's own active comments. */
  predicate DeleteVisible(c: Comment, user: Option<User>) {
    user.Some? && c.userId == user.value.id && c.isActive
  }

  /** With distinct ids, deleting the k-th comment leaves the others in order. */
  lemma DeleteOneLeavesRest(s: seq<Comment>, k: int)
    requires 0 <= k < |s|
    requires forall i :: 0 <= i < |s| && i != k ==> s[i].id != s[k].id
    ensures Filter(s, Except(s[k].id)) == s[..k] + s[k + 1..]
  {
    FilterDropsAt(s, k, Except(s[k].id));
  }

  /** Deleting a comment whose button is shown lowers the user's active count
      by one when ids are distinct. */
  lemma DeleteVisibleFreesSlot(st: ModalState, k: int, user: User)
    requires 0 <= k < |st.comments| && DeleteVisible(st.comments[k], Some(user))
    requires forall i :: 0 <= i < |st.comments| && i != k ==> st.comments[i].id != st.comments[k].id
    ensures |OwnActive(Delete(st, st.comments[k].id, true).0.comments, user.id)|
          == |OwnActive(st.comments, user.id)| - 1
  {
    var s := st.comments;
    DeleteOneLeavesRest(s, k);
    FilterLosesOne(s, k, CountsForUser(user.id));
  }

  /** Dropping one kept element from a list shortens its filter by one. */
  lemma FilterLosesOne(s: seq<Comment>, k: int, own: Comment -> bool)
    requires 0 <= k < |s| && own(s[k])
    ensures |Filter(s[..k] + s[k + 1..], own)| == |Filter(s, own)| - 1
  {
    var a, b := s[..k], s[k + 1..];
    assert s == a + [s[k]] + b;
    FilterAppend(a, b, own);
    FilterAppend(a + [s[k]], b, own);
    FilterAppend(a, [s[k]], own);
    assert Filter([s[k]], own) == [s[k]];
  }

  /** Closing the dialog, or the effect running while it is closed or without
      a skin, clears the comments and the input. */
  function Close(st: ModalState): (r: ModalState)
    ensures r.comments == [] && r.input == ""
  {
    Cleared
  }

  /** A closed dialog has nothing to send: a submit right after closing sends
      no request and shows no toast. */
  lemma CloseThenSubmitSendsNothing(st: ModalState, userId: int, reply: PostReply)
    ensures var r := Submit(Close(st), userId, reply);
      !r.sent && r.notified.None? && r.toast.None? && r.state == Cleared
  {
    var c := Close(st);
    assert IsBlank(c.input);
    assert Submit(c, userId, reply) == SubmitOutcome(c, false, None, None);
  }

  /** The reply to `GET /skins/{id}/comments`: the skin's comments, or a
      failure (a non-ok status or a thrown request), which shows a toast and
      keeps the list. */
  datatype LoadReply = Loaded(comments: seq<Comment>) | LoadFailed

  /** The effect on `[isOpen, skin]`: opening with a skin runs
      `loadComments`, whose reply replaces the list and leaves the input;
      anything else clears both. */
  function OnOpenChange(isOpen: bool, hasSkin: bool, st: ModalState, reply: LoadReply): (r: ModalState)
    ensures isOpen && hasSkin && reply.Loaded? ==> r == st.(comments := reply.comments)
    ensures isOpen && hasSkin && reply.LoadFailed? ==> r == st
    ensures !(isOpen && hasSkin) ==> r == Close(st)
  {
    if !(isOpen && hasSkin) then Cleared
    else if reply.Loaded? then st.(comments := reply.comments)
    else st
  }

  /** Reopening the dialog shows exactly the server's comments with an empty
      input, whatever was shown before it closed; so the three-comment limit
      is then checked against the server's list. */
  lemma ReopenShowsServerList(st: ModalState, cs: seq<Comment>, closeReply: LoadReply,
                              userId: int, reply: PostReply)
    ensures var closed := OnOpenChange(false, true, st, closeReply);
      var reopened := OnOpenChange(true, true, closed, Loaded(cs));
      && reopened == ModalState(cs, "")
      && (Submit(reopened, userId, reply).sent ==> |OwnActive(cs, userId)| < MaxActiveComments)
  {
  }
}

=== FILE: confirm.dfy ===
/**
 * The wording of the confirmation dialogs the admin screens open before a
 * status toggle: `action.charAt(0).toUpperCase() + action.slice(1) + ' ' + noun`.
 */
module Confirm {
  import JsString

  /** `is_active ? 'desactivar' : 'activar'`. */
  function ActionWord(isActive: bool): string {
    if isActive then "desactivar" else "activar"
  }

  /** ASCII upper-casing of the first letter. */
  function Capitalize(w: string): (r: string)
    ensures |r| == |w|
    ensures |w| > 0 ==> r[1..] == w[1..]
  {
    if |w| > 0 && 'a' <= w[0] <= 'z' then [(w[0] as int - 32) as char] + w[1..] else w
  }

  /** The dialog title: "Desactivar <noun>" for an active record, "Activar <noun>" otherwise. */
  function ConfirmTitle(isActive: bool, noun: string): (r: string)
    ensures isActive ==> r == "Desactivar " + noun
    ensures !isActive ==> r == "Activar " + noun
  {
    Capitalize(ActionWord(isActive)) + " " + noun
  }

  /** The title never reads "Activar" for a record that is already active, nor
      "Desactivar" for one that is not. */
  lemma TitleNamesTheFlip(isActive: bool, noun: string)
    ensures JsString.StartsWith(ConfirmTitle(isActive, noun), "Desactivar") <==> isActive
  {
    var t := ConfirmTitle(isActive, noun);
    if !isActive {
      assert t[0] == 'A';
    } else {
      assert t[..10] == "Desactivar";
    }
  }
}

=== FILE: entities.dfy ===
/**
 * The records the client receives from the API and keeps as view state.
 * Only the fields the view logic reads or writes are modelled; a field the
 * API may omit is an `Option`.
 */
module Entities {
  import opened Wrappers

  datatype Permission = Permission(id: int, name: string)

  /** `permissions` is absent when the API sends a role without them. */
  datatype Role = Role(
    id: int,
    name: string,
    description: string,
    isAdmin: bool,
    isActive: bool,
    permissions: Option<seq<Permission>>)

  /** A user row or the logged-in user: `role_id`, `role`, `user_active`. */
  datatype User = User(
    id: int,
    name: string,
    email: string,
    roleId: Option<int>,
    role: Option<Role>,
    userActive: bool)

  /** A published skin as listed in the gallery and the admin table;
      `commentsCount` may be missing, `userReaction` is the viewer's like/dislike. */
  datatype Skin = Skin(
    id: int,
    name: string,
    creatorName: string,
    likes: int,
    dislikes: int,
    commentsCount: Option<int>,
    isFavorite: bool,
    userReaction: Option<string>,
    isActive: bool,
    createdAt: string)

  /** A comment, with the names of its author and of the commented skin. */
  datatype Comment = Comment(
    id: int,
    userId: int,
    userName: string,
    skinName: string,
    content: string,
    createdAt: string,
    isActive: bool)

  /** Tags and categories have the same shape: a name and an active flag. */
  datatype Label = Label(id: int, name: string, isActive: bool)

  /** The state a confirmed admin action leaves: the updated list and whether
      the confirmation dialog is still open. */
  datatype Confirmed<T> = Confirmed(items: seq<T>, confirmOpen: bool)
}

=== FILE: favorites.dfy ===
/**
 * The favourites context: the set of skin ids the logged-in user has marked,
 * updated from the toggle endpoint's reply and replaced by a reload.
 */
module Favorites {
  import opened Wrappers
  import opened Entities

  /** What `POST /skins/{id}/toggle-favorite` produced: an ok reply carrying the
      new `is_favorite`, a non-ok reply, or a thrown request. */
  datatype ToggleReply = Toggled(isFavorite: bool) | NotOk | Thrown

  /** The new set and the value `toggleFavorite` resolves to. */
  datatype ToggleResult = ToggleResult(favorites: set<int>, returned: bool)

  function ToggleFavorite(favorites: set<int>, skinId: int, reply: ToggleReply): (r: ToggleResult)
    ensures reply.Toggled? ==> r.returned == reply.isFavorite
    ensures reply.Toggled? ==> (skinId in r.favorites <==> reply.isFavorite)
    ensures forall id :: id != skinId ==> (id in r.favorites <==> id in favorites)
    ensures !reply.Toggled? ==> r.favorites == favorites && !r.returned
  {
    match reply
    case Toggled(fav) =>
      ToggleResult(if fav then favorites + {skinId} else favorites - {skinId}, fav)
    case _ => ToggleResult(favorites, false)
  }

  /** Applying the same reply twice is applying it once. */
  lemma ToggleReplayIsHarmless(favorites: set<int>, skinId: int, reply: ToggleReply)
    ensures ToggleFavorite(ToggleFavorite(favorites, skinId, reply).favorites, skinId, reply).favorites
         == ToggleFavorite(favorites, skinId, reply).favorites
  {
  }

  /** `loadFavorites`: an ok reply lists the favourite skins and replaces the set
      with their ids; otherwise the set is kept. */
  function LoadFavorites(favorites: set<int>, reply: Option<seq<Skin>>): (r: set<int>)
    ensures reply.Some? ==>
      forall id :: id in r <==> exists k :: 0 <= k < |reply.value| && reply.value[k].id == id
    ensures reply.None? ==> r == favorites
  {
    match reply
    case Some(data) => set k | 0 <= k < |data| :: data[k].id
    case None => favorites
  }
}

=== FILE: gallery.dfy ===
/**
 * The public skin gallery's view state: sorting by reactions, the eight-per-page
 * slice, the per-skin updates after a comment, favourite or reaction, and the
 * tag-filter selection.
 */
module Gallery {
  import opened Wrappers
  import opened Entities
  import opened JsArray
  import Sorting
  import Paging
  import Favorites

  const SkinsPerPage: nat := 8

  /** `(a, b) => b.likes - a.likes` is at most 0: `a` may stay ahead of `b`. */
  predicate MoreLikes(a: Skin, b: Skin) { a.likes >= b.likes }

  predicate MoreDislikes(a: Skin, b: Skin) { a.dislikes >= b.dislikes }

  lemma ReactionOrdersArePreorders()
    ensures Sorting.TotalPreorder(MoreLikes)
    ensures Sorting.TotalPreorder(MoreDislikes)
  {
  }

  /** `sortSkins`: a sorted copy for 'likes' and 'dislikes', the input order otherwise. */
  function SortSkins(skins: seq<Skin>, sortBy: string): (r: seq<Skin>)
    ensures multiset(r) == multiset(skins)
    ensures sortBy == "likes" ==> forall i, j :: 0 <= i < j < |r| ==> r[i].likes >= r[j].likes
    ensures sortBy == "dislikes" ==> forall i, j :: 0 <= i < j < |r| ==> r[i].dislikes >= r[j].dislikes
    ensures sortBy != "likes" && sortBy != "dislikes" ==> r == skins
  {
    ReactionOrdersArePreorders();
    if sortBy == "likes" then
      Sorting.SortSorted(skins, MoreLikes);
      Sorting.Sort(skins, MoreLikes)
    else if sortBy == "dislikes" then
      Sorting.SortSorted(skins, MoreDislikes);
      Sorting.Sort(skins, MoreDislikes)
    else skins
  }

  /** Skins with the same number of likes (dislikes) keep their input order. */
  lemma SortSkinsStable(skins: seq<Skin>, sortBy: string, v: Skin)
    ensures sortBy == "likes" ==>
      Filter(SortSkins(skins, sortBy), Sorting.EquivClass(v, MoreLikes))
        == Filter(skins, Sorting.EquivClass(v, MoreLikes))
    ensures sortBy == "dislikes" ==>
      Filter(SortSkins(skins, sortBy), Sorting.EquivClass(v, MoreDislikes))
        == Filter(skins, Sorting.EquivClass(v, MoreDislikes))
  {
    ReactionOrdersArePreorders();
    Sorting.SortStable(skins, v, MoreLikes);
    Sorting.SortStable(skins, v, MoreDislikes);
  }

  /** The skins shown on page `page`. */
  function CurrentSkins(skins: seq<Skin>, page: int): (r: seq<Skin>)
    ensures page >= 1 ==> |r| <= SkinsPerPage
    ensures page >= 1 ==>
      r == skins[Min((page - 1) * SkinsPerPage, |skins|)..Min(page * SkinsPerPage, |skins|)]
    ensures page >= 1 ==> (r != [] <==> page <= Paging.TotalPages(|skins|, SkinsPerPage))
  {
    Paging.PageSlice(skins, page, SkinsPerPage)
  }

  /** `skin.comments_count || 0`. */
  function CommentCount(s: Skin): int {
    s.commentsCount.GetOr(0)
  }

  /** `handleCommentUpdate`: 'add' raises the skin's count by one; every other
      action lowers it by one, never below zero. */
  function HandleCommentUpdate(skins: seq<Skin>, action: string, skinId: int): (r: seq<Skin>)
    ensures |r| == |skins|
    ensures forall i :: 0 <= i < |r| && skins[i].id != skinId ==> r[i] == skins[i]
    ensures forall i :: 0 <= i < |r| && skins[i].id == skinId ==>
      && r[i].(commentsCount := skins[i].commentsCount) == skins[i]
      && CommentCount(r[i]) == if action == "add" then CommentCount(skins[i]) + 1
                               else Max(CommentCount(skins[i]) - 1, 0)
    ensures (forall i :: 0 <= i < |skins| ==> CommentCount(skins[i]) >= 0) ==>
      forall i :: 0 <= i < |r| ==> CommentCount(r[i]) >= 0
  {
    MapWhere(skins, (s: Skin) => s.id == skinId,
      (s: Skin) => s.(commentsCount := Some(
        if action == "add" then CommentCount(s) + 1 else Max(CommentCount(s) - 1, 0))))
  }

  /** A comment posted and then deleted leaves every displayed count as it was. */
  lemma AddThenDeleteRestoresCounts(skins: seq<Skin>, skinId: int)
    requires forall i :: 0 <= i < |skins| ==> CommentCount(skins[i]) >= 0
    ensures var r := HandleCommentUpdate(HandleCommentUpdate(skins, "add", skinId), "delete", skinId);
      forall i :: 0 <= i < |skins| ==> CommentCount(r[i]) == CommentCount(skins[i])
  {
  }

  /** Every skin but those with the id. */
  function OtherThan(id: int): Skin -> bool {
    (s: Skin) => s.id != id
  }

  /** The list after `handleFavorite` learnt the skin's new favourite flag. */
  function HandleFavorite(skins: seq<Skin>, loggedIn: bool, filterFavorites: bool,
                          skinId: int, isFavorite: bool): (r: seq<Skin>)
    ensures !loggedIn ==> r == skins
    ensures loggedIn && filterFavorites && !isFavorite ==>
      && (forall i :: 0 <= i < |r| ==> r[i].id != skinId)
      && (forall i :: 0 <= i < |skins| && skins[i].id != skinId ==> skins[i] in r)
      && (forall i :: 0 <= i < |r| ==> r[i] in skins)
      && KeptInOrder(r, skins, OtherThan(skinId))
    ensures loggedIn && !(filterFavorites && !isFavorite) ==>
      && |r| == |skins|
      && forall i :: 0 <= i < |r| ==>
           r[i] == if skins[i].id == skinId then skins[i].(isFavorite := isFavorite) else skins[i]
  {
    FilterKeptInOrder(skins, OtherThan(skinId));
    if !loggedIn then skins
    else if filterFavorites && !isFavorite then Filter(skins, OtherThan(skinId))
    else MapWhere(skins, (s: Skin) => s.id == skinId, (s: Skin) => s.(isFavorite := isFavorite))
  }

  /** The gallery list together with the favourites context. */
  datatype FavoriteView = FavoriteView(skins: seq<Skin>, favorites: set<int>)

  /** Clicking the heart, as written: `toggleFavorite` resolves to `false` on a
      failed request, and the handler reads that as "no longer a favourite". */
  function FavoriteClickAsWritten(v: FavoriteView, loggedIn: bool, filterFavorites: bool,
                                  skinId: int, reply: Favorites.ToggleReply): FavoriteView
  {
    if !loggedIn then v
    else
      var t := Favorites.ToggleFavorite(v.favorites, skinId, reply);
      FavoriteView(HandleFavorite(v.skins, loggedIn, filterFavorites, skinId, t.returned), t.favorites)
  }

  /** A failed toggle in favourites-only mode drops a skin the server still has
      as a favourite, although the favourites set says it is one. */
  lemma FailedToggleDropsFavorite(v: FavoriteView, skinId: int, k: int)
    requires 0 <= k < |v.skins| && v.skins[k].id == skinId && skinId in v.favorites
    ensures var w := FavoriteClickAsWritten(v, true, true, skinId, Favorites.NotOk);
      && skinId in w.favorites
      && forall i :: 0 <= i < |w.skins| ==> w.skins[i].id != skinId
  {
  }

  /** Clicking the heart with the failure kept apart from "unfavourited". */
  function FavoriteClick(v: FavoriteView, loggedIn: bool, filterFavorites: bool,
                         skinId: int, reply: Favorites.ToggleReply): (w: FavoriteView)
    ensures !loggedIn || !reply.Toggled? ==> w == v
    ensures loggedIn && reply.Toggled? ==>
      && (skinId in w.favorites <==> reply.isFavorite)
      && w.skins == HandleFavorite(v.skins, true, filterFavorites, skinId, reply.isFavorite)
    ensures forall i :: 0 <= i < |w.skins| ==> w.skins[i] in v.skins || w.skins[i].id == skinId
  {
    if !loggedIn || !reply.Toggled? then v
    else
      var t := Favorites.ToggleFavorite(v.favorites, skinId, reply);
      FavoriteView(HandleFavorite(v.skins, true, filterFavorites, skinId, t.returned), t.favorites)
  }

  /** The `data.skin` object of a `toggle-reaction` reply: any skin field it
      carries overrides the skin's own value under the object spread, and an
      absent field leaves it. */
  datatype SkinPatch = SkinPatch(
    id: Option<int>,
    name: Option<string>,
    creatorName: Option<string>,
    likes: Option<int>,
    dislikes: Option<int>,
    commentsCount: Option<Option<int>>,
    isFavorite: Option<bool>,
    userReaction: Option<Option<string>>,
    isActive: Option<bool>,
    createdAt: Option<string>)

  /** `{ ...skin, ...data.skin }`. */
  function Merge(s: Skin, p: SkinPatch): Skin {
    Skin(p.id.GetOr(s.id), p.name.GetOr(s.name), p.creatorName.GetOr(s.creatorName),
         p.likes.GetOr(s.likes), p.dislikes.GetOr(s.dislikes),
         p.commentsCount.GetOr(s.commentsCount), p.isFavorite.GetOr(s.isFavorite),
         p.userReaction.GetOr(s.userReaction), p.isActive.GetOr(s.isActive),
         p.createdAt.GetOr(s.createdAt))
  }

  /** A reply that carries only the reaction counts and the user's reaction,
      which is what the reaction endpoint is expected to send. */
  predicate ReactionOnly(p: SkinPatch) {
    p.id.None? && p.name.None? && p.creatorName.None? && p.commentsCount.None?
    && p.isFavorite.None? && p.isActive.None? && p.createdAt.None?
  }

  /** `handleReaction`: without a user or on a failed reply nothing changes;
      otherwise every skin with the id takes the reply's fields over its own,
      and every other skin stays. */
  function HandleReaction(skins: seq<Skin>, loggedIn: bool, skinId: int,
                          reply: Option<SkinPatch>): (r: seq<Skin>)
    ensures !loggedIn || reply.None? ==> r == skins
    ensures |r| == |skins|
    ensures forall i :: 0 <= i < |r| && skins[i].id != skinId ==> r[i] == skins[i]
    ensures loggedIn && reply.Some? ==>
      forall i :: 0 <= i < |r| && skins[i].id == skinId ==> r[i] == Merge(skins[i], reply.value)
  {
    if !loggedIn || reply.None? then skins
    else MapWhere(skins, (s: Skin) => s.id == skinId, (s: Skin) => Merge(s, reply.value))
  }

  /** Receiving the same reply twice leaves the list as receiving it once,
      whether or not the reply renames the skin's id. */
  lemma ReactionReplayIsHarmless(skins: seq<Skin>, loggedIn: bool, skinId: int, reply: Option<SkinPatch>)
    ensures var once := HandleReaction(skins, loggedIn, skinId, reply);
      HandleReaction(once, loggedIn, skinId, reply) == once
  {
    var once := HandleReaction(skins, loggedIn, skinId, reply);
    var twice := HandleReaction(once, loggedIn, skinId, reply);
    forall i | 0 <= i < |twice| ensures twice[i] == once[i] {
      if loggedIn && reply.Some? && skins[i].id == skinId && once[i].id == skinId {
        assert twice[i] == Merge(Merge(skins[i], reply.value), reply.value);
      }
    }
  }

  /** A reply with only the reaction fields sets the counts and reaction it
      carries and keeps the skin's identity, comment count and favourite flag. */
  lemma ReactionOnlyReplyKeepsRest(skins: seq<Skin>, skinId: int, p: SkinPatch)
    requires ReactionOnly(p)
    ensures var r := HandleReaction(skins, true, skinId, Some(p));
      forall i :: 0 <= i < |r| ==>
        && r[i].id == skins[i].id && r[i].name == skins[i].name
        && r[i].commentsCount == skins[i].commentsCount && r[i].isFavorite == skins[i].isFavorite
        && (skins[i].id == skinId && p.likes.Some? ==> r[i].likes == p.likes.value)
        && (skins[i].id == skinId && p.dislikes.Some? ==> r[i].dislikes == p.dislikes.value)
        && (skins[i].id == skinId && p.userReaction.Some? ==> r[i].userReaction == p.userReaction.value)
  {
  }

  /** A tag button: deselects a selected tag id, otherwise appends it. */
  function ToggleTagFilter(selected: seq<int>, tagId: int): (r: seq<int>)
    ensures tagId in r <==> tagId !in selected
    ensures forall t :: t != tagId ==> (t in r <==> t in selected)
    ensures tagId !in selected ==> r == selected + [tagId]
  {
    ToggleMember(selected, tagId)
  }

  lemma ToggleTagFilterTwice(selected: seq<int>, tagId: int)
    requires tagId !in selected
    ensures ToggleTagFilter(ToggleTagFilter(selected, tagId), tagId) == selected
  {
    ToggleTwiceRestores(selected, tagId);
  }
}

=== FILE: jsarray.dfy ===
/**
 * The array operations the view logic is built from: `filter`, `slice`
 * (with JavaScript's negative-index rule), `Math.ceil(n / k)`, the
 * `includes ? filter : append` membership toggle, and by-predicate `map`.
 */
module JsArray {

  function Min(a: int, b: int): int { if a <= b then a else b }

  function Max(a: int, b: int): int { if a >= b then a else b }

  /** `Array.prototype.filter`. */
  function Filter<T>(s: seq<T>, keep: T -> bool): (r: seq<T>)
    ensures |r| <= |s|
    ensures forall i :: 0 <= i < |r| ==> r[i] in s && keep(r[i])
    ensures forall i :: 0 <= i < |s| && keep(s[i]) ==> s[i] in r
  {
    if s == [] then [] else (if keep(s[0]) then [s[0]] else []) + Filter(s[1..], keep)
  }

  lemma {:induction false} FilterAppend<T>(a: seq<T>, b: seq<T>, keep: T -> bool)
    ensures Filter(a + b, keep) == Filter(a, keep) + Filter(b, keep)
  {
    if a != [] {
      assert (a + b)[1..] == a[1..] + b;
      FilterAppend(a[1..], b, keep);
    } else {
      assert a + b == b;
    }
  }

  /** A filter that rejects nothing returns its input unchanged. */
  lemma {:induction false} FilterKeepsAll<T>(s: seq<T>, keep: T -> bool)
    requires forall i :: 0 <= i < |s| ==> keep(s[i])
    ensures Filter(s, keep) == s
  {
    if s != [] {
      FilterKeepsAll(s[1..], keep);
    }
  }

  /** `r` is `s` with some elements left out and the rest in their order
      (matched greedily from the front). */
  predicate IsSubsequence<T(==)>(r: seq<T>, s: seq<T>)
    decreases |s|
  {
    if r == [] then true
    else if s == [] then false
    else if r[0] == s[0] then IsSubsequence(r[1..], s[1..])
    else IsSubsequence(r, s[1..])
  }

  /** `r` holds exactly the elements of `s` that pass `keep`: in the order of
      `s`, each as often as it occurs there, and nothing else. */
  ghost predicate KeptInOrder<T(!new)>(r: seq<T>, s: seq<T>, keep: T -> bool) {
    && IsSubsequence(r, s)
    && forall x :: multiset(r)[x] == if keep(x) then multiset(s)[x] else 0
  }

  /** `filter` keeps order and multiplicity. */
  lemma {:induction false} FilterKeptInOrder<T(!new)>(s: seq<T>, keep: T -> bool)
    ensures KeptInOrder(Filter(s, keep), s, keep)
  {
    if s != [] {
      var rest := Filter(s[1..], keep);
      FilterKeptInOrder(s[1..], keep);
      assert s == [s[0]] + s[1..];
      if keep(s[0]) {
        assert Filter(s, keep) == [s[0]] + rest;
        assert ([s[0]] + rest)[1..] == rest;
      } else {
        assert Filter(s, keep) == rest;
      }
    }
  }

  /** Filtering out the one rejected element at index `k` closes the gap. */
  lemma {:induction false} FilterDropsAt<T>(s: seq<T>, k: int, keep: T -> bool)
    requires 0 <= k < |s| && !keep(s[k])
    requires forall i :: 0 <= i < |s| && i != k ==> keep(s[i])
    ensures Filter(s, keep) == s[..k] + s[k + 1..]
  {
    if k == 0 {
      FilterKeepsAll(s[1..], keep);
      assert s[..0] + s[1..] == s[1..];
    } else {
      FilterDropsAt(s[1..], k - 1, keep);
      assert [s[0]] + (s[1..][..k - 1] + s[1..][k..]) == s[..k] + s[k + 1..];
    }
  }

  /** A filter that keeps nothing returns the empty list. */
  lemma {:induction false} FilterKeepsNone<T>(s: seq<T>, keep: T -> bool)
    requires forall i :: 0 <= i < |s| ==> !keep(s[i])
    ensures Filter(s, keep) == []
  {
    if s != [] {
      FilterKeepsNone(s[1..], keep);
    }
  }

  /** What is kept plus what is rejected accounts for every element. */
  lemma {:induction false} FilterPartition<T>(s: seq<T>, keep: T -> bool, reject: T -> bool)
    requires forall x :: reject(x) == !keep(x)
    ensures |Filter(s, keep)| + |Filter(s, reject)| == |s|
  {
    if s != [] {
      FilterPartition(s[1..], keep, reject);
    }
  }

  /** `Array.prototype.slice(start, end)`: a negative bound counts from the end,
      bounds are clipped to the array, and an empty range gives `[]`. */
  function Slice<T>(s: seq<T>, start: int, end: int): (r: seq<T>)
    ensures |r| <= |s|
    ensures 0 <= start && 0 <= end ==>
      r == if Min(start, |s|) <= Min(end, |s|) then s[Min(start, |s|)..Min(end, |s|)] else []
  {
    var from := if start < 0 then Max(|s| + start, 0) else Min(start, |s|);
    var to := if end < 0 then Max(|s| + end, 0) else Min(end, |s|);
    if from < to then s[from..to] else []
  }

  /** `Math.ceil(n / k)` for a count `n` and a positive page size `k`. */
  function CeilDiv(n: nat, k: nat): (r: nat)
    requires k > 0
    ensures n <= r * k
    ensures r == 0 || (r - 1) * k < n
    ensures r == 0 <==> n == 0
  {
    var q := (n + k - 1) / k;
    assert q * k + (n + k - 1) % k == n + k - 1;
    assert q * k - k == (q - 1) * k;
    q
  }

  /** `list.includes(x) ? list.filter(y => y !== x) : [...list, x]`. */
  function ToggleMember<T(==)>(s: seq<T>, x: T): (r: seq<T>)
    ensures x in r <==> x !in s
    ensures forall i :: 0 <= i < |s| && s[i] != x ==> s[i] in r
    ensures forall i :: 0 <= i < |r| && r[i] != x ==> r[i] in s
  {
    if x in s then Filter(s, y => y != x) else s + [x]
  }

  predicate NoDuplicates<T(==)>(s: seq<T>) {
    forall i, j :: 0 <= i < j < |s| ==> s[i] != s[j]
  }

  /** Two tests that agree on every element of `s` filter it alike. */
  lemma {:induction false} FilterSameTest<T>(s: seq<T>, p: T -> bool, q: T -> bool)
    requires forall i :: 0 <= i < |s| ==> p(s[i]) == q(s[i])
    ensures Filter(s, p) == Filter(s, q)
  {
    if s != [] {
      FilterSameTest(s[1..], p, q);
    }
  }

  /** The filtered list is empty exactly when nothing is kept. */
  lemma {:induction false} FilterEmptyIffNoneKept<T>(s: seq<T>, keep: T -> bool)
    ensures |Filter(s, keep)| > 0 <==> exists k :: 0 <= k < |s| && keep(s[k])
  {
    if s != [] {
      FilterEmptyIffNoneKept(s[1..], keep);
      if exists k :: 0 <= k < |s| && keep(s[k]) {
        var k :| 0 <= k < |s| && keep(s[k]);
        if k > 0 {
          assert keep(s[1..][k - 1]);
        }
      }
    }
  }

  /** A non-empty filtered list starts with the first kept element
      (`filter(...)[0]`). */
  lemma {:induction false} FilterStartsWithFirstKept<T>(s: seq<T>, keep: T -> bool, k: int)
    requires 0 <= k < |s| && keep(s[k])
    requires forall j :: 0 <= j < k ==> !keep(s[j])
    ensures |Filter(s, keep)| > 0 && Filter(s, keep)[0] == s[k]
  {
    if k > 0 {
      var t := s[1..];
      assert forall j :: 0 <= j < k - 1 ==> t[j] == s[j + 1];
      FilterStartsWithFirstKept(t, keep, k - 1);
      assert Filter(s, keep) == Filter(t, keep);
    }
  }

  /** `rank` strictly increases along `s`. */
  predicate RankIncreasing<T>(s: seq<T>, rank: T -> int) {
    forall i, j :: 0 <= i < j < |s| ==> rank(s[i]) < rank(s[j])
  }

  /** Filtering keeps the relative order: ranks that increase along `s` still
      increase along the filtered list. */
  lemma {:induction false} FilterKeepsOrder<T>(s: seq<T>, keep: T -> bool, rank: T -> int)
    requires RankIncreasing(s, rank)
    ensures RankIncreasing(Filter(s, keep), rank)
  {
    if s != [] {
      var rest := Filter(s[1..], keep);
      assert RankIncreasing(rest, rank) by {
        assert RankIncreasing(s[1..], rank);
        FilterKeepsOrder(s[1..], keep, rank);
      }
      if keep(s[0]) {
        forall k | 0 <= k < |rest| ensures rank(s[0]) < rank(rest[k]) {
          var m :| 0 <= m < |s[1..]| && s[1..][m] == rest[k];
          assert s[m + 1] == rest[k];
        }
        assert Filter(s, keep) == [s[0]] + rest;
        RankIncreasingCons(s[0], rest, rank);
      } else {
        assert Filter(s, keep) == rest;
      }
    }
  }

  /** A head ranked below everything in an increasing list keeps it increasing. */
  lemma RankIncreasingCons<T>(h: T, s: seq<T>, rank: T -> int)
    requires RankIncreasing(s, rank)
    requires forall k :: 0 <= k < |s| ==> rank(h) < rank(s[k])
    ensures RankIncreasing([h] + s, rank)
  {
    var r := [h] + s;
    forall i, j | 0 <= i < j < |r| ensures rank(r[i]) < rank(r[j]) {
      assert r[j] == s[j - 1];
      if i > 0 {
        assert r[i] == s[i - 1];
      }
    }
  }

  /** `list.map(f)`. */
  function MapSeq<A, B>(s: seq<A>, f: A -> B): (r: seq<B>)
    ensures |r| == |s|
    ensures forall i :: 0 <= i < |s| ==> r[i] == f(s[i])
  {
    seq(|s|, i requires 0 <= i < |s| => f(s[i]))
  }

  /** Two lists filtered by tests that agree position by position, and read
      through projections that agree position by position, read alike. */
  lemma {:induction false} FilterCorresponding<A, B, C>(a: seq<A>, b: seq<B>, p: A -> bool, q: B -> bool,
                                                          f: A -> C, g: B -> C)
    requires |a| == |b|
    requires forall i :: 0 <= i < |a| ==> p(a[i]) == q(b[i]) && f(a[i]) == g(b[i])
    ensures MapSeq(Filter(a, p), f) == MapSeq(Filter(b, q), g)
  {
    FilterThenMap(a, p, f);
    FilterThenMap(b, q, g);
    KeptImagesCorrespond(a, b, p, q, f, g);
  }

  /** The images of the kept elements, computed in one pass. */
  function KeptImages<A, C>(s: seq<A>, keep: A -> bool, f: A -> C): seq<C> {
    if s == [] then [] else (if keep(s[0]) then [f(s[0])] else []) + KeptImages(s[1..], keep, f)
  }

  /** Filtering and then mapping is the one-pass `KeptImages`. */
  lemma {:induction false} FilterThenMap<A, C>(s: seq<A>, keep: A -> bool, f: A -> C)
    ensures MapSeq(Filter(s, keep), f) == KeptImages(s, keep, f)
  {
    if s != [] {
      FilterThenMapStep(s, keep, f);
      FilterThenMap(s[1..], keep, f);
    }
  }

  /** One step of `FilterThenMap`: the head is mapped when it is kept. */
  lemma FilterThenMapStep<A, C>(s: seq<A>, keep: A -> bool, f: A -> C)
    requires s != []
    ensures MapSeq(Filter(s, keep), f)
            == (if keep(s[0]) then [f(s[0])] else []) + MapSeq(Filter(s[1..], keep), f)
  {
    var rest := Filter(s[1..], keep);
    if keep(s[0]) {
      assert Filter(s, keep) == [s[0]] + rest;
      MapSeqCons(s[0], rest, f);
    } else {
      assert Filter(s, keep) == rest;
    }
  }

  /** Position-wise agreeing tests and projections give the same kept images. */
  lemma {:induction false} KeptImagesCorrespond<A, B, C>(a: seq<A>, b: seq<B>, p: A -> bool, q: B -> bool,
                                                           f: A -> C, g: B -> C)
    requires |a| == |b|
    requires forall i :: 0 <= i < |a| ==> p(a[i]) == q(b[i]) && f(a[i]) == g(b[i])
    ensures KeptImages(a, p, f) == KeptImages(b, q, g)
  {
    if a != [] {
      assert p(a[0]) == q(b[0]) && f(a[0]) == g(b[0]);
      forall i | 0 <= i < |a[1..]| ensures p(a[1..][i]) == q(b[1..][i]) && f(a[1..][i]) == g(b[1..][i]) {
        assert a[1..][i] == a[i + 1] && b[1..][i] == b[i + 1];
      }
      KeptImagesCorrespond(a[1..], b[1..], p, q, f, g);
    }
  }

  /** `map` over a list with a head added. */
  lemma MapSeqCons<A, B>(x: A, s: seq<A>, f: A -> B)
    ensures MapSeq([x] + s, f) == [f(x)] + MapSeq(s, f)
  {
    var l, r := MapSeq([x] + s, f), [f(x)] + MapSeq(s, f);
    assert |l| == |r|;
    forall i | 0 <= i < |l| ensures l[i] == r[i] {
      if i > 0 {
        assert ([x] + s)[i] == s[i - 1];
      }
    }
  }

  /** Toggling an absent member twice gives back the original list. */
  lemma ToggleTwiceRestores<T>(s: seq<T>, x: T)
    requires x !in s
    ensures ToggleMember(ToggleMember(s, x), x) == s
  {
    FilterAppend(s, [x], y => y != x);
    FilterKeepsAll(s, y => y != x);
  }

  /** Filtering never introduces a duplicate. */
  lemma {:induction false} FilterNoDuplicates<T>(s: seq<T>, keep: T -> bool)
    requires NoDuplicates(s)
    ensures NoDuplicates(Filter(s, keep))
  {
    if s != [] {
      FilterNoDuplicates(s[1..], keep);
      assert s[0] !in s[1..];
    }
  }

  /** A toggled list of distinct members stays a list of distinct members. */
  lemma ToggleKeepsDistinct<T>(s: seq<T>, x: T)
    requires NoDuplicates(s)
    ensures NoDuplicates(ToggleMember(s, x))
  {
    if x in s {
      FilterNoDuplicates(s, y => y != x);
    }
  }

  /** `list.map(e => hit(e) ? change(e) : e)`. */
  function MapWhere<T>(s: seq<T>, hit: T -> bool, change: T -> T): (r: seq<T>)
    ensures |r| == |s|
    ensures forall i :: 0 <= i < |s| ==> r[i] == if hit(s[i]) then change(s[i]) else s[i]
  {
    seq(|s|, i requires 0 <= i < |s| => if hit(s[i]) then change(s[i]) else s[i])
  }
}

=== FILE: jsstring.dfy ===
/**
 * The few JavaScript string operations the view logic relies on:
 * `trim`, ASCII `toLowerCase`, `includes`, and the relational `<` on strings.
 * Strings are sequences of code points; lower-casing is ASCII-only.
 */
module JsString {

  /** The code points ECMAScript's `trim` strips: WhiteSpace (including every
      Zs space separator) and LineTerminator. */
  predicate IsJsWhitespace(c: char) {
    || c == '\t' || c == '\n' || c == '\U{000B}' || c == '\U{000C}' || c == '\r'
    || c == ' ' || c == '\U{00A0}' || c == '\U{1680}'
    || ('\U{2000}' <= c <= '\U{200A}')
    || c == '\U{2028}' || c == '\U{2029}' || c == '\U{202F}' || c == '\U{205F}'
    || c == '\U{3000}' || c == '\U{FEFF}'
  }

  predicate IsBlank(s: string) {
    forall i :: 0 <= i < |s| ==> IsJsWhitespace(s[i])
  }

  /** `trimStart`: the suffix left after dropping leading whitespace. */
  function TrimStart(s: string): (r: string)
    ensures |r| <= |s| && r == s[|s| - |r|..]
    ensures IsBlank(s[..|s| - |r|])
    ensures r == [] || !IsJsWhitespace(r[0])
  {
    if |s| > 0 && IsJsWhitespace(s[0]) then TrimStart(s[1..]) else s
  }

  /** `trimEnd`: the prefix left after dropping trailing whitespace. */
  function TrimEnd(s: string): (r: string)
    ensures |r| <= |s| && r == s[..|r|]
    ensures IsBlank(s[|r|..])
    ensures r == [] || !IsJsWhitespace(r[|r| - 1])
  {
    if |s| > 0 && IsJsWhitespace(s[|s| - 1]) then
      var r := TrimEnd(s[..|s| - 1]);
      assert s[|r|..] == s[..|s| - 1][|r|..] + [s[|s| - 1]];
      r
    else s
  }

  /** `String.prototype.trim`. */
  function Trim(s: string): string {
    TrimEnd(TrimStart(s))
  }

  /** `!s.trim()` holds exactly for the strings made only of whitespace
      (the empty string included). */
  lemma TrimEmptyIffBlank(s: string)
    ensures Trim(s) == [] <==> IsBlank(s)
  {
    var t := TrimStart(s);
    if Trim(s) == [] {
      assert t[0..] == t;
      assert t == [];
      assert s[..|s|] == s;
    } else {
      var r := Trim(s);
      assert r == t[..|r|];
      assert t[0] == r[0];
      assert s[|s| - |t|] == t[0];
    }
  }

  /** Trimming twice is trimming once. */
  lemma TrimIdempotent(s: string)
    ensures Trim(Trim(s)) == Trim(s)
  {
    var r := Trim(s);
    if r != [] {
      assert TrimStart(r) == r;
      assert TrimEnd(r) == r;
    }
  }

  /** ASCII `toLowerCase` of one code point. */
  function LowerChar(c: char): char {
    if 'A' <= c <= 'Z' then (c as int + 32) as char else c
  }

  predicate IsLowerAscii(s: string) {
    forall i :: 0 <= i < |s| ==> !('A' <= s[i] <= 'Z')
  }

  /** `toLowerCase`, restricted to ASCII letters. */
  function Lower(s: string): (r: string)
    ensures |r| == |s|
    ensures IsLowerAscii(r)
    ensures forall i :: 0 <= i < |s| && !('A' <= s[i] <= 'Z') ==> r[i] == s[i]
  {
    seq(|s|, i requires 0 <= i < |s| => LowerChar(s[i]))
  }

  predicate StartsWith(s: string, prefix: string) {
    |prefix| <= |s| && s[..|prefix|] == prefix
  }

  /** `hay.includes(needle)`, scanning from the left. */
  predicate Includes(hay: string, needle: string)
    decreases |hay|
  {
    StartsWith(hay, needle) || (|hay| > 0 && Includes(hay[1..], needle))
  }

  /** Reference reading of `includes`: `needle` occurs at offset `i`. */
  ghost predicate OccursAt(hay: string, needle: string, i: int) {
    0 <= i && i + |needle| <= |hay| && hay[i..i + |needle|] == needle
  }

  lemma {:induction false} IncludesIffOccurs(hay: string, needle: string)
    ensures Includes(hay, needle) <==> exists i :: OccursAt(hay, needle, i)
    decreases |hay|
  {
    if |hay| > 0 {
      IncludesIffOccurs(hay[1..], needle);
    }
    if Includes(hay, needle) {
      if StartsWith(hay, needle) {
        assert OccursAt(hay, needle, 0);
      } else {
        var i :| OccursAt(hay[1..], needle, i);
        assert hay[1..][i..i + |needle|] == hay[i + 1..i + 1 + |needle|];
        assert OccursAt(hay, needle, i + 1);
      }
    }
    if exists i :: OccursAt(hay, needle, i) {
      var i :| OccursAt(hay, needle, i);
      if i == 0 {
        assert StartsWith(hay, needle);
      } else {
        assert hay[1..][i - 1..i - 1 + |needle|] == hay[i..i + |needle|];
        assert OccursAt(hay[1..], needle, i - 1);
      }
    }
  }

  /** The empty search term occurs in every string. */
  lemma IncludesEmpty(hay: string)
    ensures Includes(hay, [])
  {
    assert hay[..0] == [];
  }

  /** JavaScript's relational `a < b` on two strings: lexicographic by code point. */
  predicate StrLess(a: string, b: string)
    decreases |a|
  {
    if |a| == 0 then |b| > 0
    else if |b| == 0 then false
    else if a[0] < b[0] then true
    else if a[0] == b[0] then StrLess(a[1..], b[1..])
    else false
  }

  lemma {:induction false} StrLessIrreflexive(a: string)
    ensures !StrLess(a, a)
    decreases |a|
  {
    if |a| > 0 {
      StrLessIrreflexive(a[1..]);
    }
  }

  lemma {:induction false} StrLessTransitive(a: string, b: string, c: string)
    requires StrLess(a, b) && StrLess(b, c)
    ensures StrLess(a, c)
    decreases |a|
  {
    if |a| > 0 && a[0] == b[0] && b[0] == c[0] {
      StrLessTransitive(a[1..], b[1..], c[1..]);
    }
  }

  /** Trichotomy: two different strings are ordered one way or the other. */
  lemma {:induction false} StrLessTotal(a: string, b: string)
    ensures a == b || StrLess(a, b) || StrLess(b, a)
    decreases |a|
  {
    if |a| > 0 && |b| > 0 && a[0] == b[0] {
      StrLessTotal(a[1..], b[1..]);
      if a[1..] == b[1..] {
        assert a == [a[0]] + a[1..] && b == [b[0]] + b[1..];
      }
    }
  }
}

=== FILE: labels.dfy ===
/**
 * Categories and tags are managed alike: a one-field creation form guarded by
 * `name.trim()`, and a per-row status flip.
 */
module Labels {
  import opened Wrappers
  import opened JsString
  import opened JsArray
  import opened Entities

  /** The submit button is disabled for a name with nothing but whitespace. */
  predicate CreateDisabled(input: string) {
    Trim(input) == ""
  }

  /** The reply to the creation request: the created record, or a failure. */
  datatype CreateReply = Created(record: Label) | CreateFailed

  /** The list, the input box, and the name sent to the server if any (the
      input as typed, not trimmed). */
  datatype CreateOutcome = CreateOutcome(labels: seq<Label>, input: string, sent: Option<string>)

  /** The creation handler: a blank name returns before any request; a
      created record is appended and the input cleared; a failure changes nothing. */
  function Create(labels: seq<Label>, input: string, reply: CreateReply): (r: CreateOutcome)
    ensures r.sent.None? <==> CreateDisabled(input)
    ensures r.sent.Some? ==> r.sent.value == input
    ensures r.sent.Some? && reply.Created? ==> r.labels == labels + [reply.record] && r.input == ""
    ensures r.sent.None? || reply.CreateFailed? ==> r.labels == labels && r.input == input
  {
    if Trim(input) == "" then CreateOutcome(labels, input, None)
    else match reply
      case Created(l) => CreateOutcome(labels + [l], "", Some(input))
      case CreateFailed => CreateOutcome(labels, input, Some(input))
  }

  /** Exactly the whitespace-only names send nothing, so the disabled button
      and the handler's early return agree. */
  lemma BlankNameSendsNothing(labels: seq<Label>, input: string, reply: CreateReply)
    ensures Create(labels, input, reply).sent.None? <==> IsBlank(input)
  {
    TrimEmptyIffBlank(input);
  }

  /** A created record lands last and every earlier one keeps its place. */
  lemma CreatedAppendsAtEnd(labels: seq<Label>, input: string, l: Label)
    requires !IsBlank(input)
    ensures var r := Create(labels, input, Created(l)).labels;
      |r| == |labels| + 1 && r[|labels|] == l && r[..|labels|] == labels
  {
    TrimEmptyIffBlank(input);
  }

  /** `label.id === id ? { ...label, is_active: !label.is_active } : label`. */
  function FlipStatus(labels: seq<Label>, id: int): (r: seq<Label>)
    ensures |r| == |labels|
    ensures forall i :: 0 <= i < |r| ==>
      r[i].id == labels[i].id && r[i].name == labels[i].name
      && (r[i].isActive <==> (labels[i].isActive != (labels[i].id == id)))
  {
    MapWhere(labels, (l: Label) => l.id == id, (l: Label) => l.(isActive := !l.isActive))
  }

  lemma FlipStatusTwice(labels: seq<Label>, id: int)
    ensures FlipStatus(FlipStatus(labels, id), id) == labels
  {
    var r := FlipStatus(FlipStatus(labels, id), id);
    assert forall i :: 0 <= i < |r| ==> r[i] == labels[i];
  }
}

=== FILE: model_controls.dfy ===
/**
 * The mouse handling of the 3D view: a left press either starts painting
 * (rotation of the camera switched off) or starts rotating, a release ends
 * both, and the cursor follows what the pointer is over.
 */
module ModelControls {
  import opened JsArray
  import opened BodyParts
  import opened Painting

  datatype Cursor = Auto | Grab | Grabbing | Crosshair | DefaultCursor

  /** The two refs, the camera controls' `enableRotate` and the cursor. */
  datatype Controls = Controls(painting: bool, rotating: bool, enableRotate: bool, cursor: Cursor)

  const InitialControls := Controls(false, false, true, Auto)

  /** Rotation is switched off exactly while painting. */
  predicate RotateFollowsPainting(c: Controls) {
    c.enableRotate == !c.painting
  }

  /** The intersections that count: those whose part is shown, in ray order. */
  function VisibleHits(hits: seq<Hit>, sk: Skeleton, shown: set<Part>): (r: seq<Hit>)
    ensures forall i :: 0 <= i < |r| ==> r[i] in hits && IsPartVisible(r[i].chain, sk, shown)
    ensures forall i :: 0 <= i < |hits| && IsPartVisible(hits[i].chain, sk, shown) ==> hits[i] in r
    ensures KeptInOrder(r, hits, HitShown(sk, shown))
  {
    FilterKeptInOrder(hits, HitShown(sk, shown));
    Filter(hits, HitShown(sk, shown))
  }

  /** Some intersection lies on a shown part. */
  lemma VisibleHitIffSomeShown(hits: seq<Hit>, sk: Skeleton, shown: set<Part>)
    ensures |VisibleHits(hits, sk, shown)| > 0 <==> exists i :: 0 <= i < |hits| && IsPartVisible(hits[i].chain, sk, shown)
  {
    FilterEmptyIffNoneKept(hits, HitShown(sk, shown));
  }

  datatype MouseEvent = Move(hits: seq<Hit>) | Down(button: int, hits: seq<Hit>) | Up | Enter | Leave

  /** One event handled with the brush flag `brush`. */
  function Step(c: Controls, e: MouseEvent, brush: bool, sk: Skeleton, shown: set<Part>): (r: Controls)
    ensures e.Down? && e.button != 0 ==> r == c
    ensures e.Down? && e.button == 0 && brush && |VisibleHits(e.hits, sk, shown)| > 0 ==>
      r == c.(painting := true, enableRotate := false, cursor := Crosshair)
    ensures e.Down? && e.button == 0 && !(brush && |VisibleHits(e.hits, sk, shown)| > 0) ==>
      r == c.(rotating := true, cursor := Grabbing)
    ensures e.Up? ==> !r.painting && !r.rotating && r.cursor == (if brush then DefaultCursor else Grab)
    ensures e.Up? && c.painting ==> r.enableRotate
    ensures e.Up? && !c.painting ==> r.enableRotate == c.enableRotate
    ensures (e.Enter? || e.Leave?) && (c.painting || c.rotating) ==> r == c
    ensures !e.Down? ==> r.painting == (c.painting && !e.Up?)
  {
    match e
    case Move(hits) =>
      if c.rotating then c.(cursor := Grabbing)
      else if brush then c.(cursor := if |VisibleHits(hits, sk, shown)| > 0 then Crosshair else DefaultCursor)
      else c.(cursor := Grab)
    case Down(button, hits) =>
      if button != 0 then c
      else if brush && |VisibleHits(hits, sk, shown)| > 0 then c.(painting := true, enableRotate := false, cursor := Crosshair)
      else c.(rotating := true, cursor := Grabbing)
    case Up =>
      var stopped := c.(rotating := false);
      var released := if stopped.painting then stopped.(enableRotate := true, painting := false) else stopped;
      released.(cursor := if brush then DefaultCursor else Grab)
    case Enter =>
      if !c.painting && !c.rotating then c.(cursor := if brush then DefaultCursor else Grab) else c
    case Leave =>
      if !c.painting && !c.rotating then c.(cursor := DefaultCursor) else c
  }

  /** The cursor a move leaves: grabbing while rotating, otherwise a
      crosshair over a shown part with the brush on, the default cursor off
      the model with the brush on, and the open hand without the brush. */
  lemma MoveCursor(c: Controls, hits: seq<Hit>, brush: bool, sk: Skeleton, shown: set<Part>)
    ensures var r := Step(c, Move(hits), brush, sk, shown);
      r.cursor == (if c.rotating then Grabbing
                   else if !brush then Grab
                   else if exists i :: 0 <= i < |hits| && IsPartVisible(hits[i].chain, sk, shown) then Crosshair
                   else DefaultCursor)
      && r.(cursor := c.cursor) == c
  {
    VisibleHitIffSomeShown(hits, sk, shown);
  }

  /** Every event keeps rotation switched off exactly while painting. */
  lemma StepKeepsRotateFollowsPainting(c: Controls, e: MouseEvent, brush: bool, sk: Skeleton, shown: set<Part>)
    requires RotateFollowsPainting(c)
    ensures RotateFollowsPainting(Step(c, e, brush, sk, shown))
  {
  }

  /** A run of events. */
  function Run(c: Controls, es: seq<MouseEvent>, brush: bool, sk: Skeleton, shown: set<Part>): Controls
    decreases |es|
  {
    if es == [] then c else Run(Step(c, es[0], brush, sk, shown), es[1..], brush, sk, shown)
  }

  /** From the initial state, whatever the events, the camera can rotate
      exactly when no stroke is in progress, and a release always gives
      rotation back. */
  lemma {:induction false} RunKeepsRotateFollowsPainting(c: Controls, es: seq<MouseEvent>, brush: bool,
                                                         sk: Skeleton, shown: set<Part>)
    requires RotateFollowsPainting(c)
    ensures RotateFollowsPainting(Run(c, es, brush, sk, shown))
    ensures es != [] && es[|es| - 1] == Up ==> Run(c, es, brush, sk, shown).enableRotate
    decreases |es|
  {
    if es != [] {
      StepKeepsRotateFollowsPainting(c, es[0], brush, sk, shown);
      RunKeepsRotateFollowsPainting(Step(c, es[0], brush, sk, shown), es[1..], brush, sk, shown);
      if es[|es| - 1] == Up && |es| > 1 {
        assert es[1..][|es[1..]| - 1] == Up;
      }
    }
  }
}

=== FILE: navbar.dfy ===
/**
 * The top navigation bar: which links it shows for the session and the
 * current path, and what its logout button does.
 */
module Navbar {
  import opened Wrappers
  import opened Entities
  import Auth
  import Routes

  const NavAdminPermissions: seq<string> :=
    ["manage_users", "manage_roles", "manage_categories", "manage_tags", "manage_skins", "manage_comments"]

  /** The bar's own `canAccessAdmin`. */
  predicate NavCanAccessAdmin(user: Option<User>) {
    Auth.IsAdmin(user) || Auth.HasAnyPermission(user, NavAdminPermissions)
  }

  /** The bar's test and the session's are the same test. */
  lemma NavbarAgreesWithSession(user: Option<User>)
    ensures NavCanAccessAdmin(user) <==> Auth.CanAccessAdmin(user)
  {
    assert NavAdminPermissions == Auth.AdminPermissions;
  }

  /** `isAuthPage`. */
  predicate IsAuthPage(path: string) {
    path == "/login" || path == "/register"
  }

  datatype NavLink = Logo | Gallery | Admin | Logout | BackToEditor | Login | Register

  /** Where a link leads (the logout button navigates home after logging out). */
  function Target(l: NavLink): string {
    match l
    case Logo => "/"
    case Gallery => "/gallery"
    case Admin => "/admin"
    case Logout => "/"
    case BackToEditor => "/"
    case Login => "/login"
    case Register => "/register"
  }

  /** The links the bar shows, in order. */
  function Links(user: Option<User>, path: string): (r: seq<NavLink>)
    ensures |r| >= 3 && r[0] == Logo && r[1] == Gallery
    ensures Admin in r <==> Auth.CanAccessAdmin(user)
    ensures Logout in r <==> user.Some?
    ensures BackToEditor in r <==> user.None? && IsAuthPage(path)
    ensures Login in r <==> user.None? && !IsAuthPage(path)
    ensures Login in r <==> Register in r
  {
    NavbarAgreesWithSession(user);
    [Logo, Gallery]
    + (if NavCanAccessAdmin(user) then [Admin] else [])
    + (if user.Some? then [Logout] else if IsAuthPage(path) then [BackToEditor] else [Login, Register])
  }

  /** A logged-out visitor sees the same bar on both auth pages, and the
      login and register links everywhere else. */
  lemma LoggedOutLinks(path: string)
    ensures IsAuthPage(path) ==> Links(None, path) == [Logo, Gallery, BackToEditor]
    ensures !IsAuthPage(path) ==> Links(None, path) == [Logo, Gallery, Login, Register]
  {
    Auth.CanAccessAdminMeaning(None);
  }

  /** `handleLogout`: log out, then go home. */
  function HandleLogout(s: Auth.Session, requestFailed: bool): (r: (Auth.Session, string))
    ensures r.0.user.None? && r.0.token.None? && r.1 == "/"
    ensures Links(r.0.user, r.1) == [Logo, Gallery, Login, Register]
  {
    LoggedOutLinks("/");
    (Auth.Logout(s, requestFailed), "/")
  }

  /** Every link the bar shows leads to a declared route, and the admin link
      leads to the admin screen itself for a settled session that shows it. */
  lemma LinksLeadToRoutes(s: Auth.Session, path: string)
    ensures forall i :: 0 <= i < |Links(s.user, path)| ==>
      Routes.RouteOf(Target(Links(s.user, path)[i])) != Routes.CatchAll
    ensures !s.loading && Admin in Links(s.user, path) ==>
      Routes.Render(Target(Admin), s) == Routes.Show(Routes.AdminPage)
  {
    var links := Links(s.user, path);
    forall i | 0 <= i < |links| ensures Routes.RouteOf(Target(links[i])) != Routes.CatchAll {
      assert Target(links[i]) in ["/", "/gallery", "/admin", "/login", "/register"];
    }
    Routes.AdminShownIffAllowed("/admin", s);
  }
}

=== FILE: paging.dfy ===
/**
 * Client-side pagination shared by the gallery and the admin tables:
 * `Math.ceil(n / perPage)` pages, page `p` being
 * `slice((p - 1) * perPage, p * perPage)`, and the numbered pager bar.
 */
module Paging {
  import opened JsArray

  lemma MulMonotone(a: int, b: int, k: nat)
    requires a <= b
    ensures a * k <= b * k
  {
    assert b * k - a * k == (b - a) * k;
  }

  function TotalPages(n: nat, perPage: nat): nat
    requires perPage > 0
  {
    CeilDiv(n, perPage)
  }

  /** A page starts before the end of the list exactly when its number is at most
      `TotalPages`. */
  lemma PageStartBound(n: nat, page: int, perPage: nat)
    requires perPage > 0 && page >= 1
    ensures 0 <= (page - 1) * perPage <= page * perPage == (page - 1) * perPage + perPage
    ensures (page - 1) * perPage < n <==> page <= TotalPages(n, perPage)
  {
    MulMonotone(0, page - 1, perPage);
    var t := TotalPages(n, perPage);
    if page <= t {
      MulMonotone(page - 1, t - 1, perPage);
    } else {
      MulMonotone(t, page - 1, perPage);
    }
  }

  /** Page `page` (1-based) of `s`. */
  function PageSlice<T>(s: seq<T>, page: int, perPage: nat): (r: seq<T>)
    requires perPage > 0
    ensures page >= 1 ==> |r| <= perPage
    ensures page >= 1 ==> r == s[Min((page - 1) * perPage, |s|)..Min(page * perPage, |s|)]
    ensures page >= 1 ==> (r != [] <==> page <= TotalPages(|s|, perPage))
  {
    if page >= 1 then
      PageStartBound(|s|, page, perPage);
      Slice(s, (page - 1) * perPage, page * perPage)
    else
      Slice(s, (page - 1) * perPage, page * perPage)
  }

  /** The slice written with its end as `start + perPage` is the page. */
  lemma SliceFromStart<T>(s: seq<T>, page: int, perPage: nat)
    requires perPage > 0
    ensures Slice(s, (page - 1) * perPage, (page - 1) * perPage + perPage) == PageSlice(s, page, perPage)
  {
    assert (page - 1) * perPage + perPage == page * perPage;
  }

  /** Pages 1..count laid end to end. */
  function JoinPages<T>(s: seq<T>, perPage: nat, count: nat): seq<T>
    requires perPage > 0
  {
    if count == 0 then [] else JoinPages(s, perPage, count - 1) + PageSlice(s, count, perPage)
  }

  lemma {:induction false} JoinPagesIsPrefix<T>(s: seq<T>, perPage: nat, count: nat)
    requires perPage > 0
    ensures JoinPages(s, perPage, count) == s[..Min(count * perPage, |s|)]
  {
    if count > 0 {
      JoinPagesIsPrefix(s, perPage, count - 1);
      PageStartBound(|s|, count, perPage);
      var lo := (count - 1) * perPage;
      var hi := count * perPage;
      var a := Min(lo, |s|);
      var b := Min(hi, |s|);
      assert a <= b;
      assert PageSlice(s, count, perPage) == s[a..b];
      assert JoinPages(s, perPage, count - 1) == s[..a];
      assert s[..a] + s[a..b] == s[..b];
    }
  }

  /** Pages 1..totalPages concatenate to the whole list: nothing is lost or repeated. */
  lemma PagesCoverList<T>(s: seq<T>, perPage: nat)
    requires perPage > 0
    ensures JoinPages(s, perPage, TotalPages(|s|, perPage)) == s
  {
    JoinPagesIsPrefix(s, perPage, TotalPages(|s|, perPage));
    assert s[..|s|] == s;
  }

  /** The clickable controls of the numbered pager bar. */
  datatype PagerClick = Previous | Next | Number(n: int)

  predicate PreviousEnabled(page: int) { page != 1 }

  predicate NextEnabled(page: int, total: nat) { page != total }

  /** The bar is rendered only when `total > 1`; a disabled button does nothing,
      and number buttons exist for 1..total only. */
  function Navigate(page: int, total: nat, click: PagerClick): (r: int)
    ensures 1 <= page <= total ==> 1 <= r <= total
    ensures total <= 1 ==> r == page
  {
    if total <= 1 then page
    else match click
      case Previous => if PreviousEnabled(page) then page - 1 else page
      case Next => if NextEnabled(page, total) then page + 1 else page
      case Number(n) => if 1 <= n <= total then n else page
  }

  /** A run of pager clicks. */
  function NavigateAll(page: int, total: nat, clicks: seq<PagerClick>): int
    decreases |clicks|
  {
    if clicks == [] then page else NavigateAll(Navigate(page, total, clicks[0]), total, clicks[1..])
  }

  /** Button navigation that starts on a page of the list never leaves the
      list's pages. */
  lemma {:induction false} NavigateAllStaysInRange(page: int, total: nat, clicks: seq<PagerClick>)
    requires 1 <= page <= total
    ensures 1 <= NavigateAll(page, total, clicks) <= total
    decreases |clicks|
  {
    if clicks != [] {
      NavigateAllStaysInRange(Navigate(page, total, clicks[0]), total, clicks[1..]);
    }
  }
}

=== FILE: painting.dfy ===
/**
 * Painting on the skin texture: which body part a hit object belongs to and
 * whether that part is shown, the square stamp of the brush or eraser on the
 * texture's pixel grid, and copying the painted texture onto the skin canvas.
 */
module Painting {
  import opened Wrappers
  import opened BodyParts

  /** The scene-graph node of each body part of the skin. */
  datatype Skeleton = Skeleton(head: int, body: int, rightArm: int, leftArm: int, rightLeg: int, leftLeg: int)

  function NodeOf(sk: Skeleton, p: Part): int {
    match p
    case Head => sk.head
    case Body => sk.body
    case RightArm => sk.rightArm
    case LeftArm => sk.leftArm
    case RightLeg => sk.rightLeg
    case LeftLeg => sk.leftLeg
  }

  /** The first part of `order` whose node is `node` or, when given, `parent`. */
  function MatchIn(order: seq<Part>, sk: Skeleton, node: int, parent: Option<int>): (r: Option<Part>)
    ensures r.Some? ==> r.value in order
    ensures r.Some? ==> NodeOf(sk, r.value) == node || parent == Some(NodeOf(sk, r.value))
  {
    if order == [] then None
    else if NodeOf(sk, order[0]) == node || parent == Some(NodeOf(sk, order[0])) then Some(order[0])
    else MatchIn(order[1..], sk, node, parent)
  }

  /** The part whose node `node` is, if any. */
  function PartAt(sk: Skeleton, node: int): Option<Part> {
    MatchIn(PartOrder, sk, node, None)
  }

  /** The parent of the i-th node of an ancestor chain. */
  function ParentAt(chain: seq<int>, i: nat): Option<int>
    requires i < |chain|
  {
    if i + 1 < |chain| then Some(chain[i + 1]) else None
  }

  /** `isPartVisible`. The hit object is given by its ancestor chain: the
      object first, each node followed by its parent, the root last. Each
      step tests the parts in declaration order against the node and its
      parent and answers with the first matching part's flag; past the root
      the answer is false. `shown` are the parts whose `visible` flag is set. */
  function IsPartVisible(chain: seq<int>, sk: Skeleton, shown: set<Part>): bool
    decreases |chain|
  {
    if chain == [] then false
    else match MatchIn(PartOrder, sk, chain[0], ParentAt(chain, 0))
      case Some(p) => p in shown
      case None => IsPartVisible(chain[1..], sk, shown)
  }

  /** The first node of the chain that is a body part, as that part. */
  function FirstPart(chain: seq<int>, sk: Skeleton): (r: Option<Part>)
    ensures r.None? <==> forall i :: 0 <= i < |chain| ==> PartAt(sk, chain[i]).None?
  {
    if chain == [] then None
    else if PartAt(sk, chain[0]).Some? then PartAt(sk, chain[0])
    else
      var r := FirstPart(chain[1..], sk);
      assert forall i :: 1 <= i < |chain| ==> chain[i] == chain[1..][i - 1];
      r
  }

  /** In the skin, a body part's node never has a body part as its parent. */
  predicate NotNested(chain: seq<int>, sk: Skeleton) {
    forall i :: 0 <= i < |chain| - 1 ==> PartAt(sk, chain[i]).None? || PartAt(sk, chain[i + 1]).None?
  }

  /** A step that meets no part in the node itself finds the parent's part. */
  lemma {:induction false} MatchInParentOnly(order: seq<Part>, sk: Skeleton, node: int, parent: int)
    requires MatchIn(order, sk, node, None).None?
    ensures MatchIn(order, sk, node, Some(parent)) == MatchIn(order, sk, parent, None)
  {
    if order != [] {
      MatchInParentOnly(order[1..], sk, node, parent);
    }
  }

  /** A step whose parent is no part finds the node's own part. */
  lemma {:induction false} MatchInNodeOnly(order: seq<Part>, sk: Skeleton, node: int, parent: Option<int>)
    requires parent.None? || MatchIn(order, sk, parent.value, None).None?
    ensures MatchIn(order, sk, node, parent) == MatchIn(order, sk, node, None)
  {
    if order != [] {
      MatchInNodeOnly(order[1..], sk, node, parent);
    }
  }

  /** On a chain where parts are not nested, the walk answers with the flag
      of the nearest enclosing body part, and false when there is none. */
  lemma {:induction false} VisibleIffNearestPartShown(chain: seq<int>, sk: Skeleton, shown: set<Part>)
    requires NotNested(chain, sk)
    ensures IsPartVisible(chain, sk, shown) <==> FirstPart(chain, sk).Some? && FirstPart(chain, sk).value in shown
    decreases |chain|
  {
    if chain != [] {
      var parent := ParentAt(chain, 0);
      if PartAt(sk, chain[0]).Some? {
        assert parent.Some? ==> PartAt(sk, parent.value).None?;
        MatchInNodeOnly(PartOrder, sk, chain[0], parent);
      } else if parent.Some? {
        MatchInParentOnly(PartOrder, sk, chain[0], parent.value);
        var rest := chain[1..];
        assert rest[0] == parent.value;
        if PartAt(sk, parent.value).None? {
          assert NotNested(rest, sk) by {
            forall i | 0 <= i < |rest| - 1 ensures PartAt(sk, rest[i]).None? || PartAt(sk, rest[i + 1]).None? {
              assert rest[i] == chain[i + 1] && rest[i + 1] == chain[i + 2];
            }
          }
          VisibleIffNearestPartShown(rest, sk, shown);
        }
      } else {
        MatchInNodeOnly(PartOrder, sk, chain[0], parent);
      }
    }
  }

  /** The walk with the source's loop. */
  method IsPartVisibleLoop(chain: seq<int>, sk: Skeleton, shown: set<Part>) returns (v: bool)
    ensures v == IsPartVisible(chain, sk, shown)
  {
    var i := 0;
    while i < |chain|
      invariant 0 <= i <= |chain|
      invariant IsPartVisible(chain[i..], sk, shown) == IsPartVisible(chain, sk, shown)
      decreases |chain| - i
    {
      var rest := chain[i..];
      assert ParentAt(rest, 0) == ParentAt(chain, i);
      var m := MatchIn(PartOrder, sk, chain[i], ParentAt(chain, i));
      if m.Some? {
        return m.value in shown;
      }
      assert rest[1..] == chain[i + 1..];
      i := i + 1;
    }
    return false;
  }

  /** A ray intersection: the hit object's ancestor chain and the texture
      pixel under the hit. */
  datatype Hit = Hit(chain: seq<int>, x: int, y: int)

  function HitShown(sk: Skeleton, shown: set<Part>): Hit -> bool {
    (h: Hit) => IsPartVisible(h.chain, sk, shown)
  }

  /** A texture pixel: cleared, or painted with a colour. */
  datatype Pixel = Clear | Paint(color: string)

  /** A canvas as rows of pixels. */
  type Canvas = seq<seq<Pixel>>

  predicate SameShape(a: Canvas, b: Canvas) {
    |a| == |b| && forall i :: 0 <= i < |a| ==> |a[i]| == |b[i]|
  }

  /** Canvases of one shape with the same pixels are equal. */
  lemma CanvasExt(a: Canvas, b: Canvas)
    requires SameShape(a, b)
    requires forall i, j :: 0 <= i < |a| && 0 <= j < |a[i]| ==> a[i][j] == b[i][j]
    ensures a == b
  {
    forall i | 0 <= i < |a| ensures a[i] == b[i] {
      assert |a[i]| == |b[i]|;
    }
  }

  /** The brush square: `size` pixels on a side, its corner `size / 2` up and
      left of the hit pixel (x is the column, y the row). */
  predicate InSquare(x: int, y: int, size: nat, row: int, col: int) {
    x - size / 2 <= col < x - size / 2 + size && y - size / 2 <= row < y - size / 2 + size
  }

  /** `fillRect`/`clearRect` of the square, clipped to the canvas. */
  function Stamp(c: Canvas, x: int, y: int, size: nat, ink: Pixel): (r: Canvas)
    ensures SameShape(r, c)
    ensures forall i, j :: 0 <= i < |r| && 0 <= j < |r[i]| && !InSquare(x, y, size, i, j) ==> r[i][j] == c[i][j]
    ensures forall i, j :: 0 <= i < |r| && 0 <= j < |r[i]| && InSquare(x, y, size, i, j) ==> r[i][j] == ink
  {
    seq(|c|, i requires 0 <= i < |c| =>
      seq(|c[i]|, j requires 0 <= j < |c[i]| => if InSquare(x, y, size, i, j) then ink else c[i][j]))
  }

  /** For an odd size the square is centred on the hit pixel: it reaches
      `size / 2` pixels to every side. */
  lemma OddSquareIsCentred(x: int, y: int, size: nat, row: int, col: int)
    requires size % 2 == 1
    ensures InSquare(x, y, size, row, col) <==>
      x - size / 2 <= col <= x + size / 2 && y - size / 2 <= row <= y + size / 2
  {
  }

  /** A second stamp of the same square changes nothing, and a later stamp of
      the same square wins over an earlier one. */
  lemma StampLastWins(c: Canvas, x: int, y: int, size: nat, first: Pixel, second: Pixel)
    ensures Stamp(Stamp(c, x, y, size, first), x, y, size, second) == Stamp(c, x, y, size, second)
  {
    CanvasExt(Stamp(Stamp(c, x, y, size, first), x, y, size, second), Stamp(c, x, y, size, second));
  }

  /** A square wholly off the canvas leaves it unchanged. */
  lemma StampOffCanvas(c: Canvas, x: int, y: int, size: nat)
    requires x - size / 2 + size <= 0 || y - size / 2 + size <= 0
    ensures forall ink: Pixel :: Stamp(c, x, y, size, ink) == c
  {
    forall ink: Pixel ensures Stamp(c, x, y, size, ink) == c {
      CanvasExt(Stamp(c, x, y, size, ink), c);
    }
  }

  /** The stamp as a canvas API paints it: row by row over the clipped square. */
  method FillSquare(c: Canvas, x: int, y: int, size: nat, ink: Pixel) returns (r: Canvas)
    ensures r == Stamp(c, x, y, size, ink)
  {
    var top := y - size / 2;
    var left := x - size / 2;
    r := c;
    var i := if top < 0 then 0 else top;
    while i < top + size && i < |r|
      invariant |r| == |c|
      invariant forall k :: 0 <= k < |r| ==> |r[k]| == |c[k]|
      invariant forall k :: 0 <= k < |r| && (k < i || k < top) ==> r[k] == Stamp(c, x, y, size, ink)[k]
      invariant forall k :: 0 <= k < |r| && k >= i && k >= top ==> r[k] == c[k]
      decreases |r| - i
    {
      var row := r[i];
      var j := if left < 0 then 0 else left;
      while j < left + size && j < |row|
        invariant |row| == |c[i]|
        invariant forall m :: 0 <= m < |row| && (m < j || m < left) ==> row[m] == Stamp(c, x, y, size, ink)[i][m]
        invariant forall m :: 0 <= m < |row| && m >= j && m >= left ==> row[m] == c[i][m]
        decreases |row| - j
      {
        row := row[j := ink];
        j := j + 1;
      }
      assert row == Stamp(c, x, y, size, ink)[i];
      r := r[i := row];
      i := i + 1;
    }
    CanvasExt(r, Stamp(c, x, y, size, ink));
  }

  /** The brush settings `applyColorToPixel` receives. */
  datatype Brush = Brush(size: nat, color: string, eraser: bool)

  function Ink(b: Brush): Pixel {
    if b.eraser then Clear else Paint(b.color)
  }

  /** `applyColorToPixel` on the texture of the hit mesh: `Some` of the
      painted texture, or `None` when nothing is painted because the hit part
      is hidden or the mesh has no texture map. (x, y) is the hit pixel. */
  function ApplyColorToPixel(chain: seq<int>, sk: Skeleton, shown: set<Part>, texture: Option<Canvas>,
                             x: int, y: int, b: Brush): (r: Option<Canvas>)
    ensures r.Some? <==> IsPartVisible(chain, sk, shown) && texture.Some?
    ensures r.Some? ==> SameShape(r.value, texture.value)
    ensures r.Some? && b.eraser ==> forall i, j :: 0 <= i < |r.value| && 0 <= j < |r.value[i]| && InSquare(x, y, b.size, i, j) ==> r.value[i][j] == Clear
    ensures r.Some? && !b.eraser ==> forall i, j :: 0 <= i < |r.value| && 0 <= j < |r.value[i]| && InSquare(x, y, b.size, i, j) ==> r.value[i][j] == Paint(b.color)
    ensures r.Some? ==> forall i, j :: 0 <= i < |r.value| && 0 <= j < |r.value[i]| && !InSquare(x, y, b.size, i, j) ==> r.value[i][j] == texture.value[i][j]
  {
    if !IsPartVisible(chain, sk, shown) then None
    else match texture
      case None => None
      case Some(t) => Some(Stamp(t, x, y, b.size, Ink(b)))
  }

  /** `updateSkinCanvas`: the skin canvas, when there is one, is cleared and
      the painted canvas drawn at its corner; what does not fit is cut off. */
  function UpdateSkinCanvas(skinCanvas: Option<Canvas>, painted: Canvas): (r: Option<Canvas>)
    ensures r.Some? <==> skinCanvas.Some?
    ensures r.Some? ==> SameShape(r.value, skinCanvas.value)
    ensures r.Some? ==> forall i, j :: 0 <= i < |r.value| && 0 <= j < |r.value[i]| ==>
      r.value[i][j] == if i < |painted| && j < |painted[i]| then painted[i][j] else Clear
  {
    match skinCanvas
    case None => None
    case Some(sc) =>
      Some(seq(|sc|, i requires 0 <= i < |sc| =>
        seq(|sc[i]|, j requires 0 <= j < |sc[i]| =>
          if i < |painted| && j < |painted[i]| then painted[i][j] else Clear)))
  }

  /** A painted canvas of the skin canvas's shape replaces it entirely: no
      pixel of the old skin canvas survives. */
  lemma SameShapeReplacesWholly(skinCanvas: Canvas, painted: Canvas)
    requires SameShape(skinCanvas, painted)
    ensures UpdateSkinCanvas(Some(skinCanvas), painted) == Some(painted)
  {
    CanvasExt(UpdateSkinCanvas(Some(skinCanvas), painted).value, painted);
  }
}

=== FILE: painting_tools.dfy ===
/**
 * The brush panel and the stroke handling of the editor: the brush and
 * eraser buttons, the offered brush sizes, and which intersection a press
 * or drag hands to the painter.
 */
module PaintingTools {
  import opened Wrappers
  import opened JsArray
  import opened BodyParts
  import opened Painting
  import ModelControls

  /** The editor settings the panel reads and writes. */
  datatype Tools = Tools(color: string, brushSize: nat, brushActive: bool, eraserMode: bool)

  /** The editor's starting values: white, size 1, brush off, eraser off. */
  const InitialTools := Tools("#ffffff", 1, false, false)

  /** The sizes the panel offers. */
  const BrushSizes: seq<nat> := [1, 3, 5, 7, 9]

  datatype ToolClick = BrushButton | EraserButton | SizeButton(size: nat) | PickColor(color: string)

  /** A click the panel can produce: a size button carries one of the offered sizes. */
  predicate Offered(k: ToolClick) {
    k.SizeButton? ==> k.size in BrushSizes
  }

  /** The eraser is only ever on together with the brush. */
  predicate EraserNeedsBrush(t: Tools) {
    t.eraserMode ==> t.brushActive
  }

  function Click(t: Tools, k: ToolClick): (r: Tools)
    ensures k == BrushButton ==> r.brushActive == !t.brushActive && !r.eraserMode
    ensures k == EraserButton ==> r.eraserMode == !t.eraserMode && r.brushActive
    ensures (k.BrushButton? || k.EraserButton?) ==> EraserNeedsBrush(r)
    ensures EraserNeedsBrush(t) ==> EraserNeedsBrush(r)
    ensures k.SizeButton? ==> r == t.(brushSize := k.size)
    ensures k.PickColor? ==> r == t.(color := k.color)
  {
    match k
    case BrushButton => t.(brushActive := !t.brushActive, eraserMode := false)
    case EraserButton => t.(eraserMode := !t.eraserMode, brushActive := true)
    case SizeButton(size) => t.(brushSize := size)
    case PickColor(color) => t.(color := color)
  }

  /** The brush button shows pressed for painting, the eraser button for erasing. */
  predicate BrushPressed(t: Tools) {
    t.brushActive && !t.eraserMode
  }

  /** Any run of panel clicks from the editor's start keeps the eraser tied
      to the brush and the brush size one of the offered, odd sizes, so the
      stamp stays centred on the pointer. */
  function Clicks(t: Tools, ks: seq<ToolClick>): Tools
    decreases |ks|
  {
    if ks == [] then t else Clicks(Click(t, ks[0]), ks[1..])
  }

  lemma {:induction false} ClicksKeepPanelInvariant(t: Tools, ks: seq<ToolClick>)
    requires EraserNeedsBrush(t) && t.brushSize in BrushSizes
    requires forall i :: 0 <= i < |ks| ==> Offered(ks[i])
    ensures EraserNeedsBrush(Clicks(t, ks))
    ensures Clicks(t, ks).brushSize in BrushSizes && Clicks(t, ks).brushSize % 2 == 1
    decreases |ks|
  {
    if ks != [] {
      assert Offered(ks[0]);
      ClicksKeepPanelInvariant(Click(t, ks[0]), ks[1..]);
    }
  }

  /** Pressing the eraser twice from the brush leaves the brush on and the
      eraser off, as before. */
  lemma EraserTwiceRestores(t: Tools)
    requires t.brushActive
    ensures Clicks(t, [EraserButton, EraserButton]) == t
  {
  }

  /** The stroke flag of the panel. */
  datatype StrokeEvent = Press(hits: seq<Hit>) | Drag(hits: seq<Hit>) | Release | LeavePanel

  /** `paint` as written: with the brush on and something hit, the nearest
      intersection is handed to the painter, whether or not its part shows. */
  function PaintTargetAsWritten(t: Tools, hits: seq<Hit>): (r: Option<Hit>)
    ensures r.Some? <==> t.brushActive && |hits| > 0
    ensures r.Some? ==> r.value == hits[0]
  {
    if !t.brushActive || |hits| == 0 then None else Some(hits[0])
  }

  /** `paint` handing the painter the nearest intersection whose part shows,
      the one the view's own hit test looks at. */
  function PaintTarget(t: Tools, hits: seq<Hit>, sk: Skeleton, shown: set<Part>): (r: Option<Hit>)
    ensures r.Some? ==> t.brushActive && r.value in hits && IsPartVisible(r.value.chain, sk, shown)
  {
    var vis := ModelControls.VisibleHits(hits, sk, shown);
    if !t.brushActive || |vis| == 0 then None else Some(vis[0])
  }

  /** What one stroke event does: the new drawing flag and the intersection
      painted, if any. The drag paints only while drawing. */
  function Stroke(drawing: bool, e: StrokeEvent, t: Tools, sk: Skeleton, shown: set<Part>): (r: (bool, Option<Hit>))
    ensures e.Press? ==> r.0 && r.1 == PaintTarget(t, e.hits, sk, shown)
    ensures e.Drag? ==> r.0 == drawing && (r.1.Some? ==> drawing)
    ensures e.Drag? && drawing ==> r.1 == PaintTarget(t, e.hits, sk, shown)
    ensures (e.Release? || e.LeavePanel?) ==> !r.0 && r.1.None?
    ensures r.1.Some? ==> t.brushActive
  {
    match e
    case Press(hits) => (true, PaintTarget(t, hits, sk, shown))
    case Drag(hits) => (drawing, if drawing then PaintTarget(t, hits, sk, shown) else None)
    case Release => (false, None)
    case LeavePanel => (false, None)
  }

  /** A hidden part in front of a shown one: the view starts a stroke, with
      rotation switched off, but the press as written hands the painter the
      hidden part, which then paints nothing. */
  lemma AsWrittenHiddenFrontPartBlocksPaint()
    ensures var sk := Skeleton(1, 2, 3, 4, 5, 6);
      var hidden := Hit([10, 1], 0, 0);
      var behind := Hit([20, 2], 0, 0);
      var shown := AllParts - {Head};
      var t := InitialTools.(brushActive := true);
      ModelControls.Step(ModelControls.InitialControls, ModelControls.Down(0, [hidden, behind]), true, sk, shown).painting
      && PaintTargetAsWritten(t, [hidden, behind]) == Some(hidden)
      && ApplyColorToPixel(hidden.chain, sk, shown, Some([[Clear]]), 0, 0, Brush(1, t.color, false)).None?
  {
    var sk := Skeleton(1, 2, 3, 4, 5, 6);
    var shown := AllParts - {Head};
    assert PartAt(sk, 10).None?;
    assert IsPartVisible([20, 2], sk, shown);
    assert !IsPartVisible([10, 1], sk, shown);
    assert HitShown(sk, shown)(Hit([20, 2], 0, 0));
    ModelControls.VisibleHitIffSomeShown([Hit([10, 1], 0, 0), Hit([20, 2], 0, 0)], sk, shown);
  }

  /** With the corrected target, a press paints exactly when the view starts
      a stroke for it: brush on and some intersection on a shown part. */
  lemma PressPaintsIffViewStartsStroke(c: ModelControls.Controls, hits: seq<Hit>, t: Tools,
                                       sk: Skeleton, shown: set<Part>)
    ensures Stroke(false, Press(hits), t, sk, shown).1.Some? <==>
      ModelControls.Step(c, ModelControls.Down(0, hits), t.brushActive, sk, shown) ==
        c.(painting := true, enableRotate := false, cursor := ModelControls.Crosshair)
  {
  }

  /** The corrected target is the nearest intersection on a shown part. */
  lemma PaintTargetIsNearestShown(t: Tools, hits: seq<Hit>, sk: Skeleton, shown: set<Part>, k: int)
    requires t.brushActive
    requires 0 <= k < |hits| && IsPartVisible(hits[k].chain, sk, shown)
    requires forall j :: 0 <= j < k ==> !IsPartVisible(hits[j].chain, sk, shown)
    ensures PaintTarget(t, hits, sk, shown) == Some(hits[k])
  {
    FilterStartsWithFirstKept(hits, HitShown(sk, shown), k);
  }
}

=== FILE: protected_route.dfy ===
/**
 * The generic guard for pages that need a login: a spinner while the
 * session loads, a redirect to the login page carrying the attempted
 * location, and otherwise the page.
 */
module ProtectedRoute {
  import opened Wrappers
  import opened Entities

  datatype Decision = Spinner | RedirectLogin(from: string) | RenderChildren

  /** The guard's render for the location `location`. */
  function Decide(user: Option<User>, loading: bool, location: string): (d: Decision)
    ensures loading ==> d == Spinner
    ensures !loading && user.None? ==> d == RedirectLogin(location)
    ensures d == RenderChildren <==> !loading && user.Some?
  {
    if loading then Spinner
    else if user.None? then RedirectLogin(location)
    else RenderChildren
  }

  /** Loading is looked at first: while loading no redirect happens, whoever
      the user is, and the attempted location is passed on unchanged. */
  lemma LoadingComesFirst(user: Option<User>, other: Option<User>, location: string)
    ensures Decide(user, true, location) == Decide(other, true, location)
    ensures Decide(user, false, location).RedirectLogin? ==> Decide(user, false, location).from == location
  {
  }
}

=== FILE: publish_modal.dfy ===
/**
 * The "publish skin" dialog: a name, a category and at most two tags.
 */
module PublishModal {
  import opened Wrappers
  import opened JsString
  import opened JsArray

  datatype PublishForm = PublishForm(name: string, categoryId: string, tags: seq<int>)

  const EmptyForm := PublishForm("", "", [])

  const MaxTags: nat := 2

  /** The selection the dialog keeps: at most two tags, none twice. */
  predicate TagsWellFormed(f: PublishForm) {
    |f.tags| <= MaxTags && NoDuplicates(f.tags)
  }

  /** The form after a tag click, and whether the "only 2 tags" error shows. */
  datatype TagSelectResult = TagSelectResult(form: PublishForm, error: bool)

  /** Every tag id but `tagId`. */
  function Unlike(tagId: int): int -> bool {
    (t: int) => t != tagId
  }

  /** `handleTagSelect`: a selected tag is removed; an unselected one is
      appended while fewer than two are selected, and refused otherwise. */
  function TagSelect(f: PublishForm, tagId: int): (r: TagSelectResult)
    ensures r.form.name == f.name && r.form.categoryId == f.categoryId
    ensures tagId in f.tags ==>
      && !r.error
      && tagId !in r.form.tags
      && (forall t :: t != tagId ==> (t in r.form.tags <==> t in f.tags))
      && KeptInOrder(r.form.tags, f.tags, Unlike(tagId))
    ensures tagId !in f.tags && |f.tags| < MaxTags ==>
      !r.error && r.form.tags == f.tags + [tagId]
    ensures tagId !in f.tags && |f.tags| >= MaxTags ==> r.error && r.form == f
  {
    FilterKeptInOrder(f.tags, Unlike(tagId));
    if tagId in f.tags then
      TagSelectResult(f.(tags := Filter(f.tags, Unlike(tagId))), false)
    else if |f.tags| < MaxTags then
      TagSelectResult(f.(tags := f.tags + [tagId]), false)
    else
      TagSelectResult(f, true)
  }

  lemma TagSelectKeepsWellFormed(f: PublishForm, tagId: int)
    requires TagsWellFormed(f)
    ensures TagsWellFormed(TagSelect(f, tagId).form)
  {
    if tagId in f.tags {
      FilterNoDuplicates(f.tags, Unlike(tagId));
    }
  }

  /** A run of tag clicks. */
  function TagClicks(f: PublishForm, clicks: seq<int>): PublishForm
    decreases |clicks|
  {
    if clicks == [] then f else TagClicks(TagSelect(f, clicks[0]).form, clicks[1..])
  }

  /** However the user clicks, the dialog never holds more than two tags or a
      tag twice. */
  lemma {:induction false} TagClicksKeepWellFormed(f: PublishForm, clicks: seq<int>)
    requires TagsWellFormed(f)
    ensures TagsWellFormed(TagClicks(f, clicks))
    decreases |clicks|
  {
    if clicks != [] {
      TagSelectKeepsWellFormed(f, clicks[0]);
      TagClicksKeepWellFormed(TagSelect(f, clicks[0]).form, clicks[1..]);
    }
  }

  /** `handleSubmit`: the form goes to `onPublish` as typed when the trimmed
      name and the category id are both non-empty; otherwise nothing is
      published and an error shows. */
  function Submit(f: PublishForm): (r: Option<PublishForm>)
    ensures r.Some? ==> r.value == f
  {
    if Trim(f.name) != "" && f.categoryId != "" then Some(f) else None
  }

  lemma SubmitIffComplete(f: PublishForm)
    ensures Submit(f).Some? <==> !IsBlank(f.name) && f.categoryId != ""
  {
    TrimEmptyIffBlank(f.name);
  }

  /** The open-effect resets the form whenever the dialog opens. */
  function OnOpenChange(isOpen: bool, f: PublishForm): (r: PublishForm)
    ensures isOpen ==> r == EmptyForm && TagsWellFormed(r)
    ensures !isOpen ==> r == f
  {
    if isOpen then EmptyForm else f
  }

  /** `handleClose` empties the form before handing control back. */
  function Close(f: PublishForm): (r: PublishForm)
    ensures r.name == "" && r.categoryId == "" && r.tags == []
    ensures Submit(r).None?
  {
    EmptyForm
  }
}

=== FILE: register_form.dfy ===
/**
 * The registration form: editing a field, the client-side validation that
 * runs before anything is sent, and the outcome of a submission.
 */
module RegisterForm {
  import opened Wrappers
  import Auth

  datatype Field = Name | Email | Password | PasswordConfirmation

  datatype FormData = FormData(name: string, email: string, password: string, confirmation: string)

  datatype FormState = FormState(data: FormData, error: string, loading: bool)

  const EmptyForm := FormState(FormData("", "", "", ""), "", false)

  const MismatchError := "Las contraseñas no coinciden"
  const ShortPasswordError := "La contraseña debe tener al menos 8 caracteres"
  const ThrownError := "Error al intentar registrarse"
  const MinPasswordLength := 8

  function Get(d: FormData, f: Field): string {
    match f
    case Name => d.name
    case Email => d.email
    case Password => d.password
    case PasswordConfirmation => d.confirmation
  }

  /** `handleChange`: the named field takes the value and any error is cleared. */
  function HandleChange(st: FormState, f: Field, value: string): (r: FormState)
    ensures Get(r.data, f) == value
    ensures forall g: Field :: g != f ==> Get(r.data, g) == Get(st.data, g)
    ensures r.error == "" && r.loading == st.loading
  {
    var d := st.data;
    var d' := match f
      case Name => d.(name := value)
      case Email => d.(email := value)
      case Password => d.(password := value)
      case PasswordConfirmation => d.(confirmation := value);
    FormState(d', "", st.loading)
  }

  /** `validateForm`: the error it sets, or `None` when the form may be sent.
      A mismatch is reported before a short password. */
  function Validate(d: FormData): (r: Option<string>)
    ensures d.password != d.confirmation ==> r == Some(MismatchError)
    ensures d.password == d.confirmation && |d.password| < MinPasswordLength ==> r == Some(ShortPasswordError)
  {
    if d.password != d.confirmation then Some(MismatchError)
    else if |d.password| < MinPasswordLength then Some(ShortPasswordError)
    else None
  }

  /** The form is valid exactly when both passwords agree and are at least
      eight characters long; name and email are not looked at. */
  lemma ValidIff(d: FormData, name: string, email: string)
    ensures Validate(d).None? <==> d.password == d.confirmation && |d.password| >= MinPasswordLength
    ensures Validate(d) == Validate(d.(name := name, email := email))
  {
  }

  /** What `register` does with the submitted data: it returns a result, or
      the call itself throws. */
  datatype RegisterCall = Returned(result: Auth.AuthResult) | Threw

  datatype SubmitOutcome = SubmitOutcome(state: FormState, sent: Option<FormData>, navigateTo: Option<string>)

  /** `handleSubmit`. */
  function Submit(st: FormState, call: RegisterCall): (r: SubmitOutcome)
    ensures r.sent.Some? <==> Validate(st.data).None?
    ensures r.sent.Some? ==> r.sent.value == st.data && !r.state.loading
    ensures r.navigateTo.Some? <==> r.sent.Some? && call == Returned(Auth.Success)
    ensures r.navigateTo.Some? ==> r.navigateTo.value == "/" && r.state.error == ""
    ensures r.sent.None? ==> r.state == st.(error := Validate(st.data).value)
    ensures r.sent.Some? && call.Returned? && call.result.Failure? ==> r.state.error == call.result.error
    ensures r.sent.Some? && call.Threw? ==> r.state.error == ThrownError
    ensures r.state.data == st.data
  {
    match Validate(st.data)
    case Some(msg) => SubmitOutcome(st.(error := msg), None, None)
    case None =>
      match call
      case Returned(Success) => SubmitOutcome(st.(error := "", loading := false), Some(st.data), Some("/"))
      case Returned(Failure(e)) => SubmitOutcome(st.(error := e, loading := false), Some(st.data), None)
      case Threw => SubmitOutcome(st.(error := ThrownError, loading := false), Some(st.data), None)
  }

  /** A rejected submission always leaves a visible error, and the next edit
      clears it. */
  lemma RejectedThenEditClearsError(st: FormState, call: RegisterCall, f: Field, value: string)
    requires Submit(st, call).sent.None?
    ensures Submit(st, call).state.error != ""
    ensures HandleChange(Submit(st, call).state, f, value).error == ""
  {
  }

  /** Making the confirmation equal to a long enough password makes the form
      sendable, whatever else it holds. */
  lemma ConfirmingLongPasswordValidates(st: FormState, call: RegisterCall)
    requires |st.data.password| >= MinPasswordLength
    ensures Submit(HandleChange(st, PasswordConfirmation, st.data.password), call).sent.Some?
  {
    ValidIff(HandleChange(st, PasswordConfirmation, st.data.password).data, "", "");
  }
}

=== FILE: role_admin.dfy ===
/**
 * The role editor: the form, its permission checkboxes, the request a save
 * sends, and which roles offer deletion.
 */
module RoleAdmin {
  import opened Wrappers
  import opened JsArray
  import opened Entities

  /** The form state: `id` is present only after loading a role for editing,
      and `isActive` only when something put it there. */
  datatype RoleForm = RoleForm(
    id: Option<int>,
    name: string,
    description: string,
    isAdmin: bool,
    isActive: Option<bool>,
    permissions: seq<int>)

  /** The form as the component starts. */
  const InitialForm := RoleForm(None, "", "", false, Some(true), [])

  /** "Nuevo Rol": empty name and description, not admin, no permissions. */
  function ResetForm(): (f: RoleForm)
    ensures f.id.None? && f.name == "" && f.description == "" && !f.isAdmin && f.permissions == []
  {
    RoleForm(None, "", "", false, None, [])
  }

  /** The reset form differs from the initial one only in leaving `is_active`
      out, so a role created after "Nuevo Rol" is saved without that field. */
  lemma ResetDropsIsActive()
    ensures ResetForm() == InitialForm.(isActive := None)
    ensures ResetForm() != InitialForm
  {
  }

  /** "Editar": the role itself, with its permissions replaced by their ids;
      a role without a permissions list makes the handler fail. */
  function LoadForEdit(role: Role): (r: Option<RoleForm>)
    ensures r.None? <==> role.permissions.None?
    ensures r.Some? ==>
      && r.value.id == Some(role.id) && r.value.name == role.name
      && r.value.description == role.description && r.value.isAdmin == role.isAdmin
      && r.value.isActive == Some(role.isActive)
      && |r.value.permissions| == |role.permissions.value|
      && forall i :: 0 <= i < |r.value.permissions| ==>
           r.value.permissions[i] == role.permissions.value[i].id
  {
    match role.permissions
    case None => None
    case Some(ps) =>
      Some(RoleForm(Some(role.id), role.name, role.description, role.isAdmin, Some(role.isActive),
                    seq(|ps|, i requires 0 <= i < |ps| => ps[i].id)))
  }

  /** A checkbox click: removes a present permission id, appends an absent one. */
  function PermissionToggle(f: RoleForm, permissionId: int): (r: RoleForm)
    ensures r.(permissions := f.permissions) == f
    ensures permissionId in r.permissions <==> permissionId !in f.permissions
    ensures forall p :: p != permissionId ==> (p in r.permissions <==> p in f.permissions)
  {
    f.(permissions := ToggleMember(f.permissions, permissionId))
  }

  lemma PermissionToggleTwice(f: RoleForm, permissionId: int)
    requires permissionId !in f.permissions
    ensures PermissionToggle(PermissionToggle(f, permissionId), permissionId) == f
  {
    ToggleTwiceRestores(f.permissions, permissionId);
  }

  /** Checkbox clicks never list a permission twice. */
  lemma PermissionToggleKeepsDistinct(f: RoleForm, permissionId: int)
    requires NoDuplicates(f.permissions)
    ensures NoDuplicates(PermissionToggle(f, permissionId).permissions)
  {
    ToggleKeepsDistinct(f.permissions, permissionId);
  }

  datatype Mode = Create | Edit

  datatype Verb = Post | Put

  /** `/admin/roles` or `/admin/roles/{id}`; an edit of a form without an id
      addresses `/admin/roles/undefined`. */
  datatype Endpoint = RolesCollection | RoleItem(id: Option<int>)

  datatype Request = Request(verb: Verb, endpoint: Endpoint, body: RoleForm)

  /** The request `handleSubmit` sends. */
  function SaveRequest(mode: Mode, f: RoleForm): (r: Request)
    ensures r.body == f
    ensures mode == Create <==> r.verb == Post
    ensures mode == Create <==> r.endpoint == RolesCollection
    ensures mode == Edit ==> r.endpoint == RoleItem(f.id)
  {
    match mode
    case Create => Request(Post, RolesCollection, f)
    case Edit => Request(Put, RoleItem(f.id), f)
  }

  /** Editing a loaded role addresses that role. */
  lemma EditAddressesLoadedRole(role: Role)
    requires role.permissions.Some?
    ensures SaveRequest(Edit, LoadForEdit(role).value).endpoint == RoleItem(Some(role.id))
    ensures SaveRequest(Edit, LoadForEdit(role).value).verb == Put
  {
  }

  /** The reply to `GET /admin/roles` in `loadRoles`: the roles, or a
      failure, which shows a toast and keeps the table. */
  datatype RolesReply = RolesLoaded(roles: seq<Role>) | RolesFailed

  function LoadRoles(roles: seq<Role>, reply: RolesReply): (r: seq<Role>)
    ensures reply.RolesLoaded? ==> r == reply.roles
    ensures reply.RolesFailed? ==> r == roles
  {
    if reply.RolesLoaded? then reply.roles else roles
  }

  /** The role table with its form modal and delete confirmation. */
  datatype RoleScreen = RoleScreen(roles: seq<Role>, formOpen: bool, confirmOpen: bool)

  /** `handleSubmit` once the save request has answered: an ok reply reloads
      the table and closes the form; a failed one leaves everything. */
  function Save(sc: RoleScreen, ok: bool, reload: RolesReply): (r: RoleScreen)
    ensures ok ==> !r.formOpen && r.roles == LoadRoles(sc.roles, reload)
    ensures !ok ==> r == sc
    ensures r.confirmOpen == sc.confirmOpen
  {
    if ok then sc.(roles := LoadRoles(sc.roles, reload), formOpen := false) else sc
  }

  /** `performDelete` once the DELETE request has answered: an ok reply
      reloads the table; the confirmation closes whatever the reply. */
  function PerformDelete(sc: RoleScreen, ok: bool, reload: RolesReply): (r: RoleScreen)
    ensures !r.confirmOpen && r.formOpen == sc.formOpen
    ensures ok ==> r.roles == LoadRoles(sc.roles, reload)
    ensures !ok ==> r.roles == sc.roles
  {
    RoleScreen(if ok then LoadRoles(sc.roles, reload) else sc.roles, sc.formOpen, false)
  }

  /** "Eliminar" is offered only for roles that are not admin roles. */
  predicate DeleteVisible(role: Role) {
    !role.isAdmin
  }

  /** The deletable rows are exactly the non-admin roles, in table order. */
  function DeletableRoles(roles: seq<Role>): (r: seq<Role>)
    ensures forall i :: 0 <= i < |r| ==> r[i] in roles && !r[i].isAdmin
    ensures forall i :: 0 <= i < |roles| && !roles[i].isAdmin ==> roles[i] in r
    ensures KeptInOrder(r, roles, DeleteVisible)
  {
    FilterKeptInOrder(roles, DeleteVisible);
    Filter(roles, DeleteVisible)
  }

  /** A deletion the server confirms, followed by a reload that no longer
      lists the role, leaves no delete button for it, while every non-admin
      role the server still lists keeps its button; a failed deletion leaves
      the buttons as they were. */
  lemma DeletedRoleLosesButton(sc: RoleScreen, roleId: int, rs: seq<Role>, reload: RolesReply)
    requires forall i :: 0 <= i < |rs| ==> rs[i].id != roleId
    ensures var d := DeletableRoles(PerformDelete(sc, true, RolesLoaded(rs)).roles);
      && (forall i :: 0 <= i < |d| ==> d[i].id != roleId)
      && (forall i :: 0 <= i < |rs| && !rs[i].isAdmin ==> rs[i] in d)
    ensures DeletableRoles(PerformDelete(sc, false, reload).roles) == DeletableRoles(sc.roles)
  {
    var d := DeletableRoles(rs);
    forall i | 0 <= i < |d| ensures d[i].id != roleId {
      var k :| 0 <= k < |rs| && rs[k] == d[i];
    }
  }
}

=== FILE: routes.dfy ===
/**
 * The application's route table: which screen a path shows for a given
 * session, with the guards that wrap the login, register and admin routes
 * and the catch-all redirect home.
 */
module Routes {
  import opened Wrappers
  import opened Entities
  import JsString
  import Auth
  import AdminRoute
  import ProtectedRoute

  /** The routes the table declares, the catch-all last. */
  datatype Route = RootRoute | GalleryRoute | LoginRoute | RegisterRoute | AdminArea | CatchAll

  datatype Page = EditorPage | GalleryPage | LoginPage | RegisterPage | AdminPage

  /** What a route finally shows. */
  datatype Screen = Show(page: Page) | Spinner | Redirect(to: string)

  /** No other declared path lies below `/admin/`. */
  lemma BelowAdminIsNotDeclared(path: string)
    ensures JsString.StartsWith(path, "/admin/") ==> path !in ["/", "/gallery", "/login", "/register", "/admin"]
  {
    if JsString.StartsWith(path, "/admin/") {
      assert path[1] == 'a' && path[6] == '/';
    }
  }

  /** The route a path matches; the admin route takes `/admin` itself and every path below it. */
  function RouteOf(path: string): (r: Route)
    ensures r == CatchAll <==>
      path !in ["/", "/gallery", "/login", "/register", "/admin"] && !JsString.StartsWith(path, "/admin/")
    ensures r == AdminArea <==> path == "/admin" || JsString.StartsWith(path, "/admin/")
  {
    BelowAdminIsNotDeclared(path);
    if path == "/" then RootRoute
    else if path == "/gallery" then GalleryRoute
    else if path == "/login" then LoginRoute
    else if path == "/register" then RegisterRoute
    else if path == "/admin" || JsString.StartsWith(path, "/admin/") then AdminArea
    else CatchAll
  }

  /** `AuthRoute`: a logged-in user is sent home; nobody else is stopped.
      The loading flag plays no part. */
  function AuthRoute(user: Option<User>, page: Page): (s: Screen)
    ensures user.Some? <==> s == Redirect("/")
    ensures user.None? ==> s == Show(page)
  {
    if user.Some? then Redirect("/") else Show(page)
  }

  /** The route table's own `ProtectedRoute` (declared, wrapping no route):
      like the shared guard, but a missing user goes home, not to login. */
  function LocalProtectedRoute(user: Option<User>, loading: bool, page: Page): (s: Screen)
    ensures loading <==> s == Spinner
    ensures s == Redirect("/") <==> !loading && user.None?
    ensures s == Show(page) <==> !loading && user.Some?
  {
    if loading then Spinner else if user.None? then Redirect("/") else Show(page)
  }

  /** The local guard and the shared one decide alike, except for where a
      missing user is sent. */
  lemma LocalGuardDiffersOnlyInTarget(user: Option<User>, loading: bool, page: Page, location: string)
    ensures LocalProtectedRoute(user, loading, page) == Spinner <==>
      ProtectedRoute.Decide(user, loading, location) == ProtectedRoute.Spinner
    ensures LocalProtectedRoute(user, loading, page) == Show(page) <==>
      ProtectedRoute.Decide(user, loading, location) == ProtectedRoute.RenderChildren
    ensures LocalProtectedRoute(user, loading, page).Redirect? <==>
      ProtectedRoute.Decide(user, loading, location).RedirectLogin?
  {
  }

  /** The admin area's guard carries no required permission. */
  function AdminScreen(s: Auth.Session): (r: Screen)
    ensures r == Show(AdminPage) <==> !s.loading && Auth.CanAccessAdmin(s.user)
    ensures r == Spinner <==> s.loading
    ensures r.Redirect? ==> r.to == "/"
  {
    match AdminRoute.Decide(s.user, s.loading, "")
    case Spinner => Spinner
    case RedirectHome => Redirect("/")
    case RedirectAdmin => Redirect("/admin")
    case RenderChildren => Show(AdminPage)
  }

  /** The screen a path shows. */
  function Render(path: string, s: Auth.Session): (r: Screen)
  {
    match RouteOf(path)
    case RootRoute => Show(EditorPage)
    case GalleryRoute => Show(GalleryPage)
    case LoginRoute => AuthRoute(s.user, LoginPage)
    case RegisterRoute => AuthRoute(s.user, RegisterPage)
    case AdminArea => AdminScreen(s)
    case CatchAll => Redirect("/")
  }

  /** Every redirect of the table leads home, and home always shows the editor. */
  lemma RedirectsLandOnEditor(path: string, s: Auth.Session)
    ensures Render(path, s).Redirect? ==> Render(path, s).to == "/"
    ensures Render(path, s).Redirect? ==> Render(Render(path, s).to, s) == Show(EditorPage)
    ensures RouteOf(path) == CatchAll ==> Render(path, s) == Redirect("/")
  {
  }

  /** The admin screen shows exactly at an admin path for a settled session
      that may enter it. */
  lemma AdminShownIffAllowed(path: string, s: Auth.Session)
    ensures Render(path, s) == Show(AdminPage) <==>
      (path == "/admin" || JsString.StartsWith(path, "/admin/")) && !s.loading && Auth.CanAccessAdmin(s.user)
  {
  }

  /** The login and register forms show only to a logged-out session, and
      always do at their own paths. */
  lemma AuthFormsOnlyLoggedOut(path: string, s: Auth.Session)
    ensures Render(path, s) == Show(LoginPage) <==> path == "/login" && s.user.None?
    ensures Render(path, s) == Show(RegisterPage) <==> path == "/register" && s.user.None?
  {
  }
}

=== FILE: skin_admin.dfy ===
/**
 * The admin skin table: search by skin or creator name, sorting by a header,
 * and the confirmed status toggle.
 */
module SkinAdmin {
  import opened Wrappers
  import opened JsString
  import opened JsArray
  import opened Entities
  import opened AdminSort
  import Confirm

  /** The search box matches the skin's name or its creator's name. */
  predicate SkinMatches(s: Skin, term: string) {
    Includes(Lower(s.name), Lower(term)) || Includes(Lower(s.creatorName), Lower(term))
  }

  /** The search box's test as a value. */
  function MatchesTerm(term: string): Skin -> bool {
    (s: Skin) => SkinMatches(s, term)
  }

  function SearchSkins(skins: seq<Skin>, term: string): (r: seq<Skin>)
    ensures forall i :: 0 <= i < |r| ==> r[i] in skins && SkinMatches(r[i], term)
    ensures forall i :: 0 <= i < |skins| && SkinMatches(skins[i], term) ==> skins[i] in r
    ensures KeptInOrder(r, skins, MatchesTerm(term))
    ensures term == "" ==> r == skins
  {
    FilterKeptInOrder(skins, MatchesTerm(term));
    if term == "" then
      forall i | 0 <= i < |skins| ensures SkinMatches(skins[i], term) {
        IncludesEmpty(Lower(skins[i].name));
      }
      FilterKeepsAll(skins, MatchesTerm(term));
      Filter(skins, MatchesTerm(term))
    else Filter(skins, MatchesTerm(term))
  }

  /** `skin[key]` for the two keys the table sorts by; both are own string
      fields of a skin row. */
  function SkinProperty(s: Skin, key: string): (r: KeyValue)
    ensures r.Str?
    ensures key == "name" ==> r.s == s.name
    ensures key != "name" ==> r.s == s.createdAt
  {
    if key == "name" then Str(s.name) else Str(s.createdAt)
  }

  /** Two skins with the same name each claim to go first under the
      comparator as written. */
  lemma SameNameBothFirst(a: Skin, b: Skin, dir: Direction)
    requires a.name == b.name
    ensures CompareAsWritten(SkinProperty(a, "name"), SkinProperty(b, "name"), dir) == -1
    ensures CompareAsWritten(SkinProperty(b, "name"), SkinProperty(a, "name"), dir) == -1
  {
    AsWrittenEqualKeysBothFirst(SkinProperty(a, "name"), dir);
  }

  /** The string the corrected comparator orders by for a header key. */
  function SortKeyOf(key: string): (k: Skin -> string)
    ensures forall s :: k(s) == SkinProperty(s, key).s
  {
    (s: Skin) => SkinProperty(s, key).s
  }

  /** The searched list in header order under the corrected comparator. */
  function ListedSkins(skins: seq<Skin>, term: string, cfg: SortConfig): (r: seq<Skin>)
    ensures multiset(r) == multiset(SearchSkins(skins, term))
    ensures cfg.key == "name" && cfg.direction == Asc ==>
      forall i, j :: 0 <= i < j < |r| ==> !StrLess(r[j].name, r[i].name)
    ensures cfg.key == "name" && cfg.direction == Desc ==>
      forall i, j :: 0 <= i < j < |r| ==> !StrLess(r[i].name, r[j].name)
    ensures cfg.key == "created_at" && cfg.direction == Desc ==>
      forall i, j :: 0 <= i < j < |r| ==> !StrLess(r[i].createdAt, r[j].createdAt)
  {
    SortRows(SearchSkins(skins, term), SortKeyOf(cfg.key), cfg.direction)
  }

  /** The skins named like `v`. */
  function SameName(v: Skin): Skin -> bool {
    (a: Skin) => a.name == v.name
  }

  /** Skins sharing a name keep their relative order when sorted by name. */
  lemma ListedSkinsStable(skins: seq<Skin>, term: string, dir: Direction, v: Skin)
    ensures Filter(ListedSkins(skins, term, SortConfig("name", dir)), SameName(v))
         == Filter(SearchSkins(skins, term), SameName(v))
  {
    var key := SortKeyOf("name");
    var found := SearchSkins(skins, term);
    SortRowsStable(found, key, dir, v);
    var sorted := SortRows(found, key, dir);
    assert sorted == ListedSkins(skins, term, SortConfig("name", dir));
    FilterSameTest(sorted, SameKey(key, v), SameName(v));
    FilterSameTest(found, SameKey(key, v), SameName(v));
  }

  /** `skin.id === id ? { ...skin, is_active: !skin.is_active } : skin`. */
  function FlipStatus(skins: seq<Skin>, id: int): (r: seq<Skin>)
    ensures |r| == |skins|
    ensures forall i :: 0 <= i < |r| ==>
      r[i].(isActive := skins[i].isActive) == skins[i]
      && (r[i].isActive <==> (skins[i].isActive != (skins[i].id == id)))
  {
    MapWhere(skins, (s: Skin) => s.id == id, (s: Skin) => s.(isActive := !s.isActive))
  }

  lemma FlipStatusTwice(skins: seq<Skin>, id: int)
    ensures FlipStatus(FlipStatus(skins, id), id) == skins
  {
    var r := FlipStatus(FlipStatus(skins, id), id);
    assert forall i :: 0 <= i < |r| ==> r[i] == skins[i];
  }

  /** `performToggleStatus`: the dialog closes in every case; only an ok reply
      flips the skin. */
  function PerformToggle(skins: seq<Skin>, id: int, ok: bool): (r: Confirmed<Skin>)
    ensures !r.confirmOpen
    ensures ok ==> r.items == FlipStatus(skins, id)
    ensures !ok ==> r.items == skins
  {
    Confirmed(if ok then FlipStatus(skins, id) else skins, false)
  }

  /** Two toggles the server accepts restore the list. */
  lemma PerformToggleTwice(skins: seq<Skin>, id: int)
    ensures PerformToggle(PerformToggle(skins, id, true).items, id, true).items == skins
  {
    FlipStatusTwice(skins, id);
  }

  /** The index of the first skin with the id, or -1. */
  function FirstWithId(skins: seq<Skin>, id: int): (k: int)
    ensures -1 <= k < |skins|
    ensures k == -1 <==> forall i :: 0 <= i < |skins| ==> skins[i].id != id
    ensures k >= 0 ==> skins[k].id == id && forall j :: 0 <= j < k ==> skins[j].id != id
  {
    if skins == [] then -1
    else if skins[0].id == id then 0
    else
      var k := FirstWithId(skins[1..], id);
      if k == -1 then -1 else k + 1
  }

  /** `skins.find(s => s.id === id)`: the first skin with the id. */
  function FindSkin(skins: seq<Skin>, id: int): (r: Option<Skin>)
    ensures r.Some? ==> r.value in skins && r.value.id == id
    ensures r.Some? ==> exists k :: 0 <= k < |skins| && skins[k] == r.value
                                    && forall j :: 0 <= j < k ==> skins[j].id != id
    ensures r.None? <==> forall i :: 0 <= i < |skins| ==> skins[i].id != id
  {
    var k := FirstWithId(skins, id);
    if k == -1 then None else Some(skins[k])
  }

  /** Lists with the same ids position by position find the same index. */
  lemma FirstWithIdSameIds(a: seq<Skin>, b: seq<Skin>, id: int)
    requires |a| == |b| && forall i :: 0 <= i < |a| ==> a[i].id == b[i].id
    ensures FirstWithId(a, id) == FirstWithId(b, id)
  {
    var k, k' := FirstWithId(a, id), FirstWithId(b, id);
    if k != -1 && k' != -1 {
      assert !(k < k') && !(k' < k);
    }
  }

  /** After a confirmed toggle, `find` returns the same skin with its status
      flipped, so the next dialog offers the opposite action. */
  lemma FindAfterFlip(skins: seq<Skin>, id: int)
    ensures FindSkin(FlipStatus(skins, id), id).Some? <==> FindSkin(skins, id).Some?
    ensures FindSkin(skins, id).Some? ==>
      var s := FindSkin(skins, id).value;
      FindSkin(FlipStatus(skins, id), id).value == s.(isActive := !s.isActive)
  {
    var flipped := FlipStatus(skins, id);
    assert forall i :: 0 <= i < |skins| ==> flipped[i].id == skins[i].id;
    FirstWithIdSameIds(skins, flipped, id);
    var k := FirstWithId(skins, id);
    if k != -1 {
      var s := skins[k];
      assert flipped[k].(isActive := s.isActive) == s && flipped[k].isActive == !s.isActive;
      assert flipped[k] == s.(isActive := !s.isActive);
    }
  }

  /** `handleToggleStatus` opens the dialog titled for the skin's current
      state; for an id not in the list the handler fails before opening it. */
  function ToggleDialogTitle(skins: seq<Skin>, id: int): (r: Option<string>)
    ensures r.None? <==> forall i :: 0 <= i < |skins| ==> skins[i].id != id
  {
    match FindSkin(skins, id)
    case None => None
    case Some(s) => Some(Confirm.ConfirmTitle(s.isActive, "Skin"))
  }

  /** The title offers to deactivate exactly when the skin found is active. */
  lemma ToggleDialogTitleNamesTheFlip(skins: seq<Skin>, id: int)
    requires FindSkin(skins, id).Some?
    ensures ToggleDialogTitle(skins, id).Some?
    ensures StartsWith(ToggleDialogTitle(skins, id).value, "Desactivar")
        <==> FindSkin(skins, id).value.isActive
  {
    Confirm.TitleNamesTheFlip(FindSkin(skins, id).value.isActive, "Skin");
  }
}

=== FILE: sorting.dfy ===
/**
 * `Array.prototype.sort` with a consistent comparator, which ECMAScript
 * requires to be stable. `leq(a, b)` reads "a may stay ahead of b", i.e.
 * `compare(a, b) <= 0`; the result is the stable insertion sort under it.
 */
module Sorting {
  import opened JsArray

  ghost predicate TotalPreorder<T(!new)>(leq: (T, T) -> bool) {
    && (forall a, b :: leq(a, b) || leq(b, a))
    && (forall a, b, c :: leq(a, b) && leq(b, c) ==> leq(a, c))
  }

  predicate Sorted<T>(s: seq<T>, leq: (T, T) -> bool) {
    forall i, j :: 0 <= i < j < |s| ==> leq(s[i], s[j])
  }

  /** The elements that compare equal to `v` in both directions. */
  function EquivClass<T>(v: T, leq: (T, T) -> bool): T -> bool {
    y => leq(y, v) && leq(v, y)
  }

  /** Places `x` after every leading element that may stay ahead of it. */
  function Insert<T>(x: T, s: seq<T>, leq: (T, T) -> bool): (r: seq<T>)
    ensures multiset(r) == multiset(s) + multiset{x}
  {
    if s == [] then [x]
    else if leq(s[0], x) then
      assert s == [s[0]] + s[1..];
      [s[0]] + Insert(x, s[1..], leq)
    else [x] + s
  }

  /** Inserts the elements one by one in input order. */
  function Sort<T>(s: seq<T>, leq: (T, T) -> bool): (r: seq<T>)
    ensures multiset(r) == multiset(s)
  {
    if s == [] then []
    else
      assert s == s[..|s| - 1] + [s[|s| - 1]];
      Insert(s[|s| - 1], Sort(s[..|s| - 1], leq), leq)
  }

  lemma {:induction false} InsertSorted<T(!new)>(x: T, s: seq<T>, leq: (T, T) -> bool)
    requires TotalPreorder(leq)
    requires Sorted(s, leq)
    ensures Sorted(Insert(x, s, leq), leq)
  {
    if s != [] && leq(s[0], x) {
      InsertSorted(x, s[1..], leq);
      var r := Insert(x, s, leq);
      assert r == [s[0]] + Insert(x, s[1..], leq);
      forall j | 0 < j < |r| ensures leq(r[0], r[j]) {
        assert r[j] in multiset(Insert(x, s[1..], leq));
        assert r[j] in multiset(s[1..]) + multiset{x};
        if r[j] != x {
          assert r[j] in s[1..];
          var k :| 0 <= k < |s[1..]| && s[1..][k] == r[j];
          assert s[k + 1] == r[j];
        }
      }
    }
  }

  /** The result is ordered under `leq`. */
  lemma {:induction false} SortSorted<T(!new)>(s: seq<T>, leq: (T, T) -> bool)
    requires TotalPreorder(leq)
    ensures Sorted(Sort(s, leq), leq)
  {
    if s != [] {
      SortSorted(s[..|s| - 1], leq);
      InsertSorted(s[|s| - 1], Sort(s[..|s| - 1], leq), leq);
    }
  }

  /** Nothing after a sorted list's head that `x` must precede is equivalent to `x`. */
  lemma NoneEquivalentBehind<T(!new)>(x: T, s: seq<T>, v: T, leq: (T, T) -> bool)
    requires TotalPreorder(leq)
    requires Sorted(s, leq)
    requires s != [] && !leq(s[0], x)
    requires EquivClass(v, leq)(x)
    ensures Filter(s, EquivClass(v, leq)) == []
  {
    var e := EquivClass(v, leq);
    forall i | 0 <= i < |s| ensures !e(s[i]) {
      if i > 0 {
        assert leq(s[0], s[i]);
      }
    }
    FilterKeepsNone(s, e);
  }

  /** Putting the same head in front of two lists whose filters differ by a
      trailing `x` keeps that difference. */
  lemma FilterConsKeepsTail<T>(h: T, t: seq<T>, u: seq<T>, x: T, e: T -> bool)
    requires Filter(u, e) == Filter(t, e) + Filter([x], e)
    ensures Filter([h] + u, e) == Filter([h] + t, e) + Filter([x], e)
  {
    FilterAppend([h], u, e);
    FilterAppend([h], t, e);
  }

  /** `x` placed in front: its class in the list behind it is empty. */
  lemma InsertFrontKeepsClassOrder<T(!new)>(x: T, s: seq<T>, v: T, leq: (T, T) -> bool)
    requires TotalPreorder(leq)
    requires Sorted(s, leq)
    requires s != [] && !leq(s[0], x)
    ensures Filter([x] + s, EquivClass(v, leq)) == Filter(s, EquivClass(v, leq)) + Filter([x], EquivClass(v, leq))
  {
    var e := EquivClass(v, leq);
    FilterAppend([x], s, e);
    if e(x) {
      NoneEquivalentBehind(x, s, v, leq);
    } else {
      assert Filter([x], e) == [];
    }
  }

  lemma {:induction false} InsertKeepsClassOrder<T(!new)>(x: T, s: seq<T>, v: T, leq: (T, T) -> bool)
    requires TotalPreorder(leq)
    requires Sorted(s, leq)
    ensures Filter(Insert(x, s, leq), EquivClass(v, leq))
         == Filter(s, EquivClass(v, leq)) + Filter([x], EquivClass(v, leq))
  {
    if s == [] {
    } else if leq(s[0], x) {
      var t := s[1..];
      assert Sorted(t, leq);
      InsertKeepsClassOrder(x, t, v, leq);
      assert s == [s[0]] + t;
      FilterConsKeepsTail(s[0], t, Insert(x, t, leq), x, EquivClass(v, leq));
    } else {
      InsertFrontKeepsClassOrder(x, s, v, leq);
    }
  }

  /** Stability: elements that compare equal keep their input order. */
  lemma {:induction false} SortStable<T(!new)>(s: seq<T>, v: T, leq: (T, T) -> bool)
    requires TotalPreorder(leq)
    ensures Filter(Sort(s, leq), EquivClass(v, leq)) == Filter(s, EquivClass(v, leq))
  {
    if s != [] {
      var init, last, e := s[..|s| - 1], s[|s| - 1], EquivClass(v, leq);
      assert s == init + [last];
      calc {
        Filter(Sort(s, leq), e);
        Filter(Insert(last, Sort(init, leq), leq), e);
        { SortSorted(init, leq); InsertKeepsClassOrder(last, Sort(init, leq), v, leq); }
        Filter(Sort(init, leq), e) + Filter([last], e);
        { SortStable(init, v, leq); }
        Filter(init, e) + Filter([last], e);
        { FilterAppend(init, [last], e); }
        Filter(s, e);
      }
    }
  }
}

=== FILE: tag_admin.dfy ===
/**
 * Tag management: creation through the shared label form, and a status flip
 * sent at once, without a confirmation dialog.
 */
module TagAdmin {
  import opened Entities
  import Labels

  /** `handleToggleStatus`: an ok reply flips the tag; a failed one leaves the
      list as it was. */
  function ToggleStatus(tags: seq<Label>, id: int, ok: bool): (r: seq<Label>)
    ensures ok ==> r == Labels.FlipStatus(tags, id)
    ensures !ok ==> r == tags
    ensures |r| == |tags|
    ensures forall i :: 0 <= i < |r| && tags[i].id != id ==> r[i] == tags[i]
  {
    if ok then Labels.FlipStatus(tags, id) else tags
  }

  /** Clicking a tag's button twice with both replies ok restores the list. */
  lemma ToggleStatusTwice(tags: seq<Label>, id: int)
    ensures ToggleStatus(ToggleStatus(tags, id, true), id, true) == tags
  {
    Labels.FlipStatusTwice(tags, id);
  }
}

=== FILE: user_admin.dfy ===
/**
 * The admin user table: search by name or e-mail, paging with a selectable
 * page size, the status toggle and role update, and the rows the current
 * user may not act on.
 */
module UserAdmin {
  import opened Wrappers
  import opened JsString
  import opened JsArray
  import opened Entities
  import Paging

  const UsersPerPageOptions: seq<nat> := [10, 50, 100]

  predicate UserMatches(u: User, term: string) {
    Includes(Lower(u.name), Lower(term)) || Includes(Lower(u.email), Lower(term))
  }

  /** The search box's test as a value. */
  function MatchesTerm(term: string): User -> bool {
    (u: User) => UserMatches(u, term)
  }

  /** The memo's filter step: an empty (falsy) term keeps every user; any
      other term keeps the matching users in table order, once each as listed. */
  function SearchUsers(users: seq<User>, term: string): (r: seq<User>)
    ensures term == "" ==> r == users
    ensures term != "" ==>
      && (forall i :: 0 <= i < |r| ==> r[i] in users && UserMatches(r[i], term))
      && (forall i :: 0 <= i < |users| && UserMatches(users[i], term) ==> users[i] in r)
    ensures term != "" ==> KeptInOrder(r, users, MatchesTerm(term))
  {
    if term == "" then users
    else
      FilterKeptInOrder(users, MatchesTerm(term));
      Filter(users, MatchesTerm(term))
  }

  /** The empty-term shortcut agrees with filtering, since every string
      includes the empty one. */
  lemma EmptyTermShortcutAgrees(users: seq<User>)
    ensures SearchUsers(users, "") == Filter(users, MatchesTerm(""))
  {
    forall i | 0 <= i < |users| ensures UserMatches(users[i], "") {
      IncludesEmpty(Lower(users[i].name));
    }
    FilterKeepsAll(users, MatchesTerm(""));
  }

  /** What the memo returns: the rows of the current page and the page count. */
  datatype UserPage = UserPage(rows: seq<User>, totalPages: nat)

  /** The page count is taken from the whole filtered list, then the list is
      cut to `[start, start + perPage)` with `start = (page - 1) * perPage`. */
  function FilteredUsers(users: seq<User>, term: string, page: int, perPage: nat): (r: UserPage)
    requires perPage > 0
    ensures r.totalPages == Paging.TotalPages(|SearchUsers(users, term)|, perPage)
    ensures r.rows == Paging.PageSlice(SearchUsers(users, term), page, perPage)
  {
    var found := SearchUsers(users, term);
    var start := (page - 1) * perPage;
    var rows := Slice(found, start, start + perPage);
    Paging.SliceFromStart(found, page, perPage);
    UserPage(rows, Paging.TotalPages(|found|, perPage))
  }

  /** Every matching user is on exactly the pages 1..totalPages laid end to end. */
  lemma FilteredPagesCoverMatches(users: seq<User>, term: string, perPage: nat)
    requires perPage > 0
    ensures var found := SearchUsers(users, term);
      Paging.JoinPages(found, perPage, FilteredUsers(users, term, 1, perPage).totalPages) == found
  {
    Paging.PagesCoverList(SearchUsers(users, term), perPage);
  }

  /** The search, page size and current page of the table. */
  datatype TableState = TableState(term: string, perPage: nat, page: int)

  const InitialTable := TableState("", 10, 1)

  /** Typing in the search box; the page-reset effect runs when the term changed. */
  function SetSearchTerm(st: TableState, term: string): (r: TableState)
    ensures r.term == term && r.perPage == st.perPage
    ensures term != st.term ==> r.page == 1
    ensures term == st.term ==> r == st
  {
    TableState(term, st.perPage, if term != st.term then 1 else st.page)
  }

  /** Choosing a page size; the same effect resets the page when it changed. */
  function SetPerPage(st: TableState, perPage: nat): (r: TableState)
    ensures r.perPage == perPage && r.term == st.term
    ensures perPage != st.perPage ==> r.page == 1
    ensures perPage == st.perPage ==> r == st
  {
    TableState(st.term, perPage, if perPage != st.perPage then 1 else st.page)
  }

  /** After a new search the table shows the first matches, as many as fit. */
  lemma NewSearchShowsFirstMatches(users: seq<User>, st: TableState, term: string)
    requires st.perPage > 0 && term != st.term
    ensures var found := SearchUsers(users, term);
      FilteredUsers(users, term, SetSearchTerm(st, term).page, st.perPage).rows
        == found[..Min(st.perPage, |found|)]
  {
    var found := SearchUsers(users, term);
    assert SetSearchTerm(st, term).page == 1;
    assert Paging.PageSlice(found, 1, st.perPage) == found[..Min(st.perPage, |found|)];
  }

  /** After choosing a new page size the table shows the first matches of
      the current search, as many as the new size allows. */
  lemma NewPageSizeShowsFirstMatches(users: seq<User>, st: TableState, perPage: nat)
    requires perPage > 0 && perPage != st.perPage
    ensures var found := SearchUsers(users, st.term);
      var r := SetPerPage(st, perPage);
      FilteredUsers(users, r.term, r.page, r.perPage).rows == found[..Min(perPage, |found|)]
  {
    var found := SearchUsers(users, st.term);
    assert SetPerPage(st, perPage).page == 1;
    assert Paging.PageSlice(found, 1, perPage) == found[..Min(perPage, |found|)];
  }

  /** `user.id === id ? { ...user, user_active: !user.user_active } : user`. */
  function FlipActive(users: seq<User>, id: int): (r: seq<User>)
    ensures |r| == |users|
    ensures forall i :: 0 <= i < |r| ==>
      r[i].(userActive := users[i].userActive) == users[i]
      && (r[i].userActive <==> (users[i].userActive != (users[i].id == id)))
  {
    MapWhere(users, (u: User) => u.id == id, (u: User) => u.(userActive := !u.userActive))
  }

  lemma FlipActiveTwice(users: seq<User>, id: int)
    ensures FlipActive(FlipActive(users, id), id) == users
  {
    var r := FlipActive(FlipActive(users, id), id);
    assert forall i :: 0 <= i < |r| ==> r[i] == users[i];
  }

  /** `performToggleStatus`: the dialog closes in every case; a failed reply
      leaves the users as they were. */
  function PerformToggleStatus(users: seq<User>, id: int, ok: bool): (r: Confirmed<User>)
    ensures !r.confirmOpen
    ensures ok ==> r.items == FlipActive(users, id)
    ensures !ok ==> r.items == users
  {
    Confirmed(if ok then FlipActive(users, id) else users, false)
  }

  /** The reply to `PUT /admin/users/{id}/role`: the updated user's role, or an
      error body whose `error` may be missing or empty. */
  datatype RoleReply = RoleUpdated(role: Option<Role>) | RoleRejected(error: string)

  datatype RoleUpdate = RoleUpdate(users: seq<User>, modalOpen: bool, message: string)

  /** `data.error || 'Error al actualizar rol'`. */
  function RoleErrorMessage(error: string): (m: string)
    ensures m != ""
    ensures error != "" ==> m == error
  {
    if error != "" then error else "Error al actualizar rol"
  }

  /** `handleUpdateRole`: on success the matching user takes the new role id
      and the server's role, and the role modal closes; on failure the users
      and the modal stay. */
  function HandleUpdateRole(users: seq<User>, modalOpen: bool, userId: int,
                            newRoleId: Option<int>, reply: RoleReply): (r: RoleUpdate)
    ensures |r.users| == |users|
    ensures reply.RoleUpdated? ==> !r.modalOpen && r.message == "Rol actualizado correctamente"
    ensures reply.RoleUpdated? ==> forall i :: 0 <= i < |users| ==>
      r.users[i] == if users[i].id == userId
                    then users[i].(roleId := newRoleId, role := reply.role)
                    else users[i]
    ensures reply.RoleRejected? ==>
      r.users == users && r.modalOpen == modalOpen && r.message == RoleErrorMessage(reply.error)
  {
    match reply
    case RoleUpdated(role) =>
      RoleUpdate(MapWhere(users, (u: User) => u.id == userId,
                          (u: User) => u.(roleId := newRoleId, role := role)),
                 false, "Rol actualizado correctamente")
    case RoleRejected(error) => RoleUpdate(users, modalOpen, RoleErrorMessage(error))
  }

  /** Only the updated user's id, name, e-mail and status survive unchanged on
      every row. */
  lemma UpdateRoleKeepsIdentity(users: seq<User>, modalOpen: bool, userId: int,
                                newRoleId: Option<int>, reply: RoleReply)
    ensures var r := HandleUpdateRole(users, modalOpen, userId, newRoleId, reply).users;
      forall i :: 0 <= i < |users| ==>
        r[i].id == users[i].id && r[i].name == users[i].name
        && r[i].email == users[i].email && r[i].userActive == users[i].userActive
  {
  }

  /** The role and status buttons of a row are disabled on the current user's
      own row (`user.id === currentUser?.id`; without a current user, never). */
  predicate RowActionsDisabled(row: User, current: Option<User>) {
    current.Some? && row.id == current.value.id
  }

  /** A click on a row's status or role button, followed through its
      dialog: the confirmed toggle with the server's answer, or the role
      chosen in the role modal with the server's reply. */
  datatype RowClick =
    | ToggleClick(row: User, ok: bool)
    | RoleClick(row: User, newRoleId: Option<int>, reply: RoleReply)

  /** A disabled button ignores the click; an enabled one runs
      `performToggleStatus` or `handleUpdateRole` for the row. */
  function ClickRow(users: seq<User>, current: Option<User>, c: RowClick): seq<User> {
    if RowActionsDisabled(c.row, current) then users
    else match c
      case ToggleClick(row, ok) => PerformToggleStatus(users, row.id, ok).items
      case RoleClick(row, newRoleId, reply) => HandleUpdateRole(users, true, row.id, newRoleId, reply).users
  }

  function ClickRows(users: seq<User>, current: Option<User>, clicks: seq<RowClick>): seq<User>
    decreases |clicks|
  {
    if clicks == [] then users else ClickRows(ClickRow(users, current, clicks[0]), current, clicks[1..])
  }

  /** However the table's buttons are clicked and answered, the signed-in
      user's own entry keeps its status and role: no one can deactivate or
      re-role themselves from the table. */
  lemma {:induction false} OwnRowSurvivesClicks(users: seq<User>, current: User, clicks: seq<RowClick>)
    ensures var r := ClickRows(users, Some(current), clicks);
      |r| == |users| && forall i :: 0 <= i < |users| && users[i].id == current.id ==> r[i] == users[i]
    decreases |clicks|
  {
    if clicks != [] {
      var next := ClickRow(users, Some(current), clicks[0]);
      assert |next| == |users| && forall i :: 0 <= i < |users| && users[i].id == current.id ==> next[i] == users[i];
      OwnRowSurvivesClicks(next, current, clicks[1..]);
    }
  }

  /** Every other row is actionable: a confirmed toggle the server accepts
      flips exactly that user's status. */
  lemma OtherRowsAreActionable(users: seq<User>, current: Option<User>, row: User)
    requires current.None? || row.id != current.value.id
    ensures ClickRow(users, current, ToggleClick(row, true)) == FlipActive(users, row.id)
  {
  }

  /** Two toggles the server accepts restore the users. */
  lemma PerformToggleStatusTwice(users: seq<User>, id: int)
    ensures PerformToggleStatus(PerformToggleStatus(users, id, true).items, id, true).items == users
  {
    FlipActiveTwice(users, id);
  }
}

=== FILE: user_comments_modal.dfy ===
/**
 * The comment history of one user, opened from the admin comment table: a
 * confirmed status toggle that updates the dialog's own list and tells the
 * table what the server now holds.
 */
module UserCommentsModal {
  import opened Wrappers
  import opened Entities
  import CommentAdmin
  import Confirm

  /** The dialog title for toggling a comment. */
  function ToggleTitle(c: Comment): (t: string)
    ensures c.isActive ==> t == "Desactivar Comentario"
    ensures !c.isActive ==> t == "Activar Comentario"
  {
    Confirm.ConfirmTitle(c.isActive, "Comentario")
  }

  /** The dialog's list, the report to the table (`onStatusChange`), and
      whether the confirmation is still open. */
  datatype ToggleOutcome = ToggleOutcome(
    local: seq<Comment>, notified: Option<(int, bool)>, confirmOpen: bool)

  /** `performToggleStatus`: `serverActive` is `data.comment.is_active` of an
      ok reply, `None` for a failed one. The local copy is flipped, the table
      is given the server's value, and the confirmation closes in every case. */
  function PerformToggle(local: seq<Comment>, commentId: int, serverActive: Option<bool>): (r: ToggleOutcome)
    ensures !r.confirmOpen
    ensures serverActive.Some? ==>
      r.local == CommentAdmin.FlipStatus(local, commentId)
      && r.notified == Some((commentId, serverActive.value))
    ensures serverActive.None? ==> r.local == local && r.notified.None?
  {
    match serverActive
    case Some(active) => ToggleOutcome(CommentAdmin.FlipStatus(local, commentId), Some((commentId, active)), false)
    case None => ToggleOutcome(local, None, false)
  }

  /** The table applies the report: afterwards its copy of the comment holds
      the server's status, and when the server agrees with the local flip the
      two lists agree on it too. */
  lemma TableFollowsServer(table: seq<Comment>, local: seq<Comment>, commentId: int, serverActive: bool,
                           i: int, j: int)
    requires 0 <= i < |table| && table[i].id == commentId
    requires 0 <= j < |local| && local[j].id == commentId
    ensures var r := PerformToggle(local, commentId, Some(serverActive));
      var t := CommentAdmin.OnStatusChange(table, r.notified.value.0, r.notified.value.1);
      && t[i].isActive == serverActive
      && (serverActive == !local[j].isActive ==> t[i].isActive == r.local[j].isActive)
  {
  }
}

=== FILE: user_role_modal.dfy ===
/**
 * The role dialog of the admin user table: which roles are offered, which
 * buttons are enabled, and the update each confirmation requests.
 */
module UserRoleModal {
  import opened Wrappers
  import opened JsArray
  import opened Entities
  import UserAdmin

  /** Whether the modal offers a role: admin roles only to an admin, other
      roles always. */
  function Offered(currentUserIsAdmin: bool): Role -> bool {
    (role: Role) => !role.isAdmin || currentUserIsAdmin
  }

  function AssignableRoles(roles: seq<Role>, currentUserIsAdmin: bool): (r: seq<Role>)
    ensures forall i :: 0 <= i < |r| ==> r[i] in roles && (!r[i].isAdmin || currentUserIsAdmin)
    ensures forall i :: 0 <= i < |roles| && (!roles[i].isAdmin || currentUserIsAdmin) ==> roles[i] in r
    ensures KeptInOrder(r, roles, Offered(currentUserIsAdmin))
    ensures currentUserIsAdmin ==> r == roles
  {
    FilterKeptInOrder(roles, Offered(currentUserIsAdmin));
    if currentUserIsAdmin then
      FilterKeepsAll(roles, Offered(currentUserIsAdmin));
      Filter(roles, Offered(currentUserIsAdmin))
    else Filter(roles, Offered(currentUserIsAdmin))
  }

  /** "Quitar Rol" shows when `user.role_id` is truthy: present and not 0. */
  predicate RemoveVisible(user: User) {
    user.roleId.Some? && user.roleId.value != 0
  }

  /** A role's button is disabled when it is the user's current role. */
  predicate AssignDisabled(user: User, role: Role) {
    user.roleId == Some(role.id)
  }

  /** The `(userId, roleId)` a confirmation passes to `onUpdateRole`. */
  datatype RoleRequest = RoleRequest(userId: int, roleId: Option<int>)

  function ConfirmChange(user: User, roleId: int): (r: RoleRequest)
    ensures r.userId == user.id && r.roleId == Some(roleId)
  {
    RoleRequest(user.id, Some(roleId))
  }

  function ConfirmRemove(user: User): (r: RoleRequest)
    ensures r.userId == user.id && r.roleId.None?
  {
    RoleRequest(user.id, None)
  }

  /** A confirmed removal that the server accepts leaves the user without a
      role, so "Quitar Rol" is no longer shown for them. */
  lemma RemovedRoleHidesRemove(users: seq<User>, k: int, user: User)
    requires 0 <= k < |users| && users[k].id == user.id
    ensures var req := ConfirmRemove(user);
      var r := UserAdmin.HandleUpdateRole(users, true, req.userId, req.roleId, UserAdmin.RoleUpdated(None));
      !RemoveVisible(r.users[k]) && !r.modalOpen
  {
  }

  /** A confirmed change the server accepts disables that role's button for
      the user. */
  lemma ChangedRoleDisablesButton(users: seq<User>, k: int, user: User, role: Role, serverRole: Option<Role>)
    requires 0 <= k < |users| && users[k].id == user.id
    ensures var req := ConfirmChange(user, role.id);
      var r := UserAdmin.HandleUpdateRole(users, true, req.userId, req.roleId, UserAdmin.RoleUpdated(serverRole));
      AssignDisabled(r.users[k], role)
  {
  }
}

=== FILE: wrappers.dfy ===
/** Optional values: JavaScript's `undefined` / `null` next to a present value. */
module Wrappers {

  datatype Option<+T> = None | Some(value: T) {

    /** The value, or `default` when absent (the `x || default` idiom on a nullable). */
    function GetOr(default: T): T {
      match this
      case Some(v) => v
      case None => default
    }
  }
}
